=== FILE: README.md ===
# ftcli in Dafny

A model of the deterministic core of **ftcli**, a French job-search command
line tool. The tool talks to the France Travail APIs (job offers and "La Bonne
Boite" companies), asks the Gemini and DeepSeek language models for CV
analyses and action plans, and keeps a few small SQLite tables.

Network replies, clock readings, environment variables and subprocess results
are inputs of the model. What remains is stated and proved:

- **Request cache** (`RequestCache`). The key text is the URL followed by the
  sorted-key JSON of the parameters. The MD5 step is an arbitrary function of
  that text. The store maps keys to values with an expiry under an integer
  clock, and `CachedRequest` is get-or-compute on top of it.
- **Token holder** (`TokenHolder`). This is the OAuth 2.0 client-credentials
  client (section 4.4 of RFC 6749) of both `ftcli/auth.py` and `auth.py`, as
  one class with a `Variant` for the margin (60 s or 30 s), the default
  lifetime and the scope. It refreshes iff there is no token or the token has
  expired, and writes the token and expiry fields in the source's order.
- **France Travail clients** (`PackageClient`, `RootClient`). They cover the
  query-parameter builders, the cache keys and their namespaces, the
  cache-hit/miss logic, the empty-body rule of `_get_json`, the `Auth()`
  call that builds or fails to build a client, and the order of
  `__aenter__`/`__aexit__`.
- **Agent planner** (`AgentApi`). This covers the key check, the prompt, and
  the validation of the JSON plan in order. On the first failure inside the
  `try`, the retry path calls `time.sleep` without `time` being imported, so
  the model ends that path in `NameError`, as written.
- **Agent executor** (`AgentExecutor`). This is the loop of `agent` in
  `ftcli/cli.py`:
  - placeholder-to-id substitution;
  - building the command line (`suivi save` and ordinary commands);
  - stopping at the first failing step;
  - replacing the id list after a `search`.

  It is written as methods with loops, proved against recursive
  specification functions.
- **Front-end helpers** (`FtCli`). These are `truncate_text`, the
  `suivi update` label and the id read back from it, the dashboard filters,
  and the name of the export file.
- **Gemini retry policy** (`GeminiApi`). There are at most three requests,
  and only 5xx statuses are retried. The outcome of each attempt is an input
  sequence. The module also has the prompt builders.
- **Exporter** (`Exporter`). It covers the per-offer field defaults,
  description shortening, the txt and html layouts, and the numbering. The
  file is modelled as the text written plus the exception that stopped the
  writing, if any.
- **Local tables** (`LocalDb`, `UserProfile`, `ProfilsTable`). These are
  classes whose fields are the tables, stored as rows in key order with their
  `AUTOINCREMENT` counters. They model the `UNIQUE` constraints, single-column
  updates, and "no such table" before `init_db`.
- **Root `cli.py`** (`RootCli`). This covers the arrondissement-to-INSEE
  table, the `search` run with the exceptions that end it before the
  export (an offer that cannot be listed, the summary of the chosen offer),
  the choice check, export gating and the path derivation of `analyse_cv`.

Shared modules:

- `Common`: option and result wrappers.
- `Text`: Python `str` operations on `seq<char>`, such as `strip`, `replace`,
  `split` heads, `int` and `str` of integers, and ASCII `isdigit`/`isalnum`.
- `Json`: JSON values, with Python dicts as association lists in insertion
  order, plus `get`, subscripting, `in`, `str` and truthiness.
- `JsonText`: `json.dumps`, with and without `sort_keys`.
- `JsonParse`: `json.loads`, with its round trip with `json.dumps`.
- `Http`: replies and `raise_for_status` for `requests` and `httpx`.
- `SqlTable`: rows in key order with select, delete and modify.

Where a source function is a loop over mutable state, the model is a method
whose `ensures` ties its result to a specification function. The properties
are proved about that function.

## Model

| member | source | states |
|---|---|---|
| RequestCache.KeyText | ftcli/cache.py:12-17 | the hashed text starts with the URL; it is the URL alone iff the parameters are `None` or empty, and otherwise the URL is followed by one JSON object, from `{` to `}` |
| RequestCache.NoParamsKey | ftcli/cache.py:15 | `None` and `{}` parameters give the same key as the URL alone |
| RequestCache.KeyIgnoresInsertionOrder | ftcli/cache.py:16 | two parameter dicts with the same pairs in any insertion order give the same key |
| JsonText.DumpsSortedIgnoresOrder | ftcli/cache.py:16 | `json.dumps(..., sort_keys=True)` depends only on the key/value pairs, not on their order |
| RequestCache.DiskStore.constructor | ftcli/cache.py:9 | the module store opens with the entries persisted on disk by earlier runs |
| RequestCache.DiskStore.Get | ftcli/cache.py:19-21 | `get` reads the live entry under the derived key, or `None`, and changes nothing |
| RequestCache.DiskStore.Set | ftcli/cache.py:23-25 | `set` overwrites exactly the entry under the derived key, expiring `ttl` seconds from now |
| RequestCache.DiskStore.CachedRequest | ftcli/cache.py:27-35 | a hit yields the stored value and does not run the producer; a miss runs the producer once and stores and yields its value; a producer exception propagates with nothing stored |
| RequestCache.ReadAfterSet | ftcli/cache.py:23-25 | after `set`, `get` returns the value until the expiry and `None` from then on |
| RequestCache.ReadOtherKey | ftcli/cache.py:25 | `set` under one key leaves every other key's reading unchanged |
| RequestCache.StoredNoneIsMiss | ftcli/cache.py:21 | a stored `None` reads exactly like a missing entry, so the producer runs again |
| TokenHolder.RefreshPayload | ftcli/auth.py:35-40 | the form has grant type `client_credentials`, the id, the secret and the variant's scope, and nothing else |
| TokenHolder.ExpiresIn | ftcli/auth.py:52 | the lifetime is read from `expires_in`; if it is missing, `ftcli/auth.py` uses 3600 and `auth.py` raises `KeyError` |
| TokenHolder.Auth.constructor | ftcli/auth.py:19-22 | the singleton object before `__init__` has run |
| TokenHolder.Auth.Init | ftcli/auth.py:24-32 | `__init__` resets the token to `None` and the expiry to 0, and fails iff a credential is unset or empty |
| TokenHolder.Auth.Refresh | ftcli/auth.py:34-52 | a rejected reply changes nothing; an accepted one writes the token, then the expiry `now + expires_in - margin` |
| TokenHolder.Auth.GetToken | ftcli/auth.py:50-58 | refreshes iff there is no token or the clock at the check is at or past the expiry, the new expiry counting from the clock read after the reply; then returns the stored token |
| TokenHolder.AuthSlot.constructor | ftcli/auth.py:16 | the class attribute `_instance` starts as `None` |
| TokenHolder.AuthSlot.Obtain | ftcli/auth.py:19-32 | every `Auth()` returns the one stored instance and re-runs `__init__` on it |
| TokenHolder.RejectedReplyKeepsState | ftcli/auth.py:48-52 | a reply that `raise_for_status` or `.json()` rejects leaves the token and expiry unchanged |
| TokenHolder.RefreshWritesExpiry | ftcli/auth.py:50-52 | a well-formed reply stores its token and the expiry `now + expires_in - margin` |
| TokenHolder.PackageDefaultLifetime | ftcli/auth.py:52 | with no `expires_in`, the token is used for 3540 s |
| TokenHolder.RootMissingLifetime | auth.py:56-57 | with no `expires_in`, the new token is stored, the expiry is not, and `KeyError` escapes |
| TokenHolder.RefreshRule | ftcli/auth.py:52-58 | `get_token` calls the endpoint iff the token is absent or expired at the first clock reading, and the refresh reads the second one; otherwise it returns the stored token unchanged |
| TokenHolder.AtMostOneRefresh | ftcli/auth.py:56-58 | two calls inside the validity window make at most one refresh and return the same token |
| TokenHolder.ResetForcesRefresh | ftcli/auth.py:25-26 | after `Auth()` the next `get_token` always asks the endpoint |
| PackageClient.SearchParams | ftcli/client.py:62-68 | the search parameters of `search_offres`, no key twice |
| PackageClient.SearchParamsContents | ftcli/client.py:64-68 | each filter key is present iff its argument is truthy, with that value; `range` is always `0-(max_results-1)` |
| PackageClient.SearchParamsKeys | ftcli/client.py:62-68 | no key other than those five is ever sent |
| PackageClient.DefaultRange | ftcli/client.py:56-68 | the default `max_results` asks for `0-14` |
| PackageClient.CompaniesParams | ftcli/client.py:29-34 | the company-search parameters, no key twice |
| PackageClient.CompaniesParamsContents | ftcli/client.py:29-34 | job and location are sent, with `distance` 20 and `sort` `score` |
| PackageClient.CompaniesParamsKeys | ftcli/client.py:29-34 | those four keys and no other |
| PackageClient.KeyNamespacesDisjoint | ftcli/client.py:35-87 | search keys start with `{`, company keys with `lbb_` and offer keys with `offre_`, so the three never collide |
| PackageClient.Fetched | ftcli/client.py:46-47 | a non-2xx status raises; otherwise the result is the decoded body or the named field of it, with `[]` when that field is missing |
| PackageClient.FTClient.constructor | ftcli/client.py:14-18 | the client keeps the token holder it is given and opens the cache with the entries persisted on disk |
| PackageClient.NewClient | ftcli/client.py:14-18 | `Auth()` runs first and resets the shared holder; missing credentials raise `RuntimeError` and build no client; otherwise the new client holds that holder and the persisted cache |
| PackageClient.FTClient.Cached | ftcli/client.py:26-49 | a token is asked for first; a hit returns the cached value with no request; a miss stores the fetched value with no expiry |
| PackageClient.FTClient.SearchOffres | ftcli/client.py:51-81 | the cached call under the sorted-JSON key of the search parameters, reading `resultats` |
| PackageClient.FTClient.GetPotentialCompanies | ftcli/client.py:20-49 | the cached call under `lbb_` + the sorted JSON, reading `items` |
| PackageClient.FTClient.GetOffre | ftcli/client.py:83-98 | the cached call under `offre_` + id, returning the whole body |
| RootClient.BaseParams | client.py:61-72 | the search parameters before `extra` is merged in, no key twice |
| RootClient.BaseParamsContents | client.py:62-72 | the five filter keys with their inclusion rules |
| RootClient.MotsClesParam | client.py:62-63 | `motsCles` is present iff `mots` is truthy |
| RootClient.DepartementParam | client.py:64-65 | `departement` is present iff it is truthy |
| RootClient.CommuneParam | client.py:66-68 | `commune` is the first element of a non-empty `communes` list; the other elements are ignored |
| RootClient.DistanceParam | client.py:69-70 | `distance` is present whenever it is not `None`, 0 included |
| RootClient.PublieeDepuisParam | client.py:71-72 | `publieeDepuis` is present only when truthy |
| RootClient.SearchParamsContents | client.py:73 | a key of `extra` overrides the filter of the same name; every other key keeps its value |
| RootClient.Produce | client.py:39-47 | a non-2xx status raises; an empty body gives `{}`; otherwise the decoded body |
| RootClient.Results | client.py:81 | `resultats` of a dict, `[]` when that key is missing, and `AttributeError` on a non-dict |
| RootClient.FTClient.constructor | client.py:14-16 | no session and no token holder yet |
| RootClient.FTClient.Enter | client.py:18-26 | the holder is obtained, a token is read once, and the session is opened with that bearer token fixed |
| RootClient.FTClient.Exit | client.py:28-33 | the session is closed before the token holder, and `False` is returned |
| RootClient.FTClient.GetJson | client.py:35-49 | the request goes through the cache under the URL and parameters |
| RootClient.FTClient.SearchOffres | client.py:51-81 | any fetch exception gives `[]`; otherwise the `resultats` of the answer; a fetched answer is stored for `DEFAULT_TTL` seconds, and nothing is stored on a hit or a failure |
| RootClient.FTClient.GetOffre | client.py:83-84 | the decoded offer through the cache, with exceptions propagating; a fetched offer is stored for `DEFAULT_TTL` seconds, and nothing is stored on a hit or a failure |
| RootClient.SearchNeverRaisesOnDict | client.py:74-81 | `search_offres` raises only when the endpoint answers with something other than a dict |
| AgentApi.UserPrompt | ftcli/agent_api.py:58-60 | the goal, followed by the profile sentence iff `profil_id is not None` |
| AgentApi.Sent | ftcli/agent_api.py:21-72 | a request is sent iff the key is configured; it carries the bearer key and the user prompt |
| AgentApi.ReplyContent | ftcli/agent_api.py:78-80 | a transport failure or a 4xx/5xx is an exception; otherwise the chain of subscripts |
| AgentApi.ChatReplyContent | ftcli/agent_api.py:80 | the subscripts read back the content of a well-formed reply |
| AgentApi.ActionCheck | ftcli/agent_api.py:89-94 | an action passes iff it is a dict with `name` and `arguments`, `search` has no `limit`, and `match`/`adapter` have an integer `profil` |
| AgentApi.FirstFailureSpec | ftcli/agent_api.py:88-94 | there is no failure iff every action is valid; otherwise the failure is that of an action whose predecessors are all valid |
| AgentApi.ValidateActions | ftcli/agent_api.py:88-94 | the validation loop returns the outcome of the first failing action |
| AgentApi.FirstFailureDecides | ftcli/agent_api.py:88-94 | the actions after the first failing one are never looked at |
| AgentApi.GetStructuredPlan | ftcli/agent_api.py:12-105 | `get_structured_plan` step by step, equal to its specification function `StructuredPlan` |
| AgentApi.MissingKeyNoRequest | ftcli/agent_api.py:21-22 | without a key the answer is the configuration error and nothing is sent |
| AgentApi.AcceptedPlanValid | ftcli/agent_api.py:83-96 | an accepted plan is the decoded list, unchanged, and every action in it is valid |
| AgentApi.ValidPlanAccepted | ftcli/agent_api.py:83-96 | a reply whose content is the JSON text of a plan of valid actions yields exactly that plan |
| AgentExecutor.SkipSpace | ftcli/cli.py:307 | `\s*` stops at the end or at a non-space character |
| AgentExecutor.IdsFrom | ftcli/cli.py:307 | every id found is 7 characters of `[A-Z0-9]` |
| AgentExecutor.FirstLineId | ftcli/cli.py:307 | an output whose first line starts with an id and a space yields that id first |
| AgentExecutor.LineIdFound | ftcli/cli.py:307 | an id at the start of any line, after optional whitespace and followed by whitespace, is among the ids found |
| AgentExecutor.PlaceholderIndexPython | ftcli/cli.py:256-262 | the `"_" in` test and `.split` follow Python on strings and on other values |
| AgentExecutor.PyIndex | ftcli/cli.py:265 | indexing counts from the end for negative indices and raises `IndexError` out of range |
| AgentExecutor.Flags | ftcli/cli.py:290-292 | two words per argument |
| AgentExecutor.FlagsAt | ftcli/cli.py:290-292 | argument `i` gives `--` + its key with dashes for underscores, then `str` of its value, in argument order |
| AgentExecutor.AppendFlags | ftcli/cli.py:290-292 | the loop appends exactly those words after the command |
| AgentExecutor.FindLongString | ftcli/cli.py:279-282 | the fallback loop returns the first string value longer than five characters |
| AgentExecutor.BuildCommand | ftcli/cli.py:271-292 | builds the command line of a step, or the reason there is none |
| AgentExecutor.PerformStep | ftcli/cli.py:251-312 | one pass: substitution, command line, subprocess, and the ids after a `search` |
| AgentExecutor.RunPlan | ftcli/cli.py:246-316 | the executor loop equals its specification `ExecFrom`, from an empty id list up to the first `break` |
| AgentExecutor.PlaceholderNamesIndex | ftcli/cli.py:253-259 | `<ID_A_REMPLACER_k>` with k >= 1 names index k-1 |
| AgentExecutor.MarkedIndex | ftcli/cli.py:254-259 | a value starting with the marker passes the `in` test and has an underscore, so its index is read from its text |
| AgentExecutor.NumberedIndexText | ftcli/cli.py:258-259 | the text of `<ID_A_REMPLACER_k>` gives k-1 |
| AgentExecutor.PlaceholderSuffix | ftcli/cli.py:258 | the last `_`-segment without its final `>` is the digits |
| AgentExecutor.LastSegmentAfter | ftcli/cli.py:258 | `split("_")[-1]` is the text after the last underscore |
| AgentExecutor.PlaceholderFallback | ftcli/cli.py:257-262 | a suffix that is not a number falls back to index 0 |
| AgentExecutor.PlaceholderSubstituted | ftcli/cli.py:264-269 | a known index replaces `offre` in place; an index beyond the list stops the plan at this step |
| AgentExecutor.SuiviSaveCommand | ftcli/cli.py:275-288 | `suivi save` runs `ftcli suivi save <id>` iff an id is found, and stops otherwise |
| AgentExecutor.SaveTargetChoice | ftcli/cli.py:277-282 | a truthy `offre` wins; otherwise the first string longer than five characters; otherwise none |
| AgentExecutor.DriveCompleted | ftcli/cli.py:248-316 | a loop that reaches the end made one pass per action, in order |
| AgentExecutor.NextExitedCleanly | ftcli/cli.py:301-303 | a pass that lets the loop continue ran a command that exited with code 0 |
| AgentExecutor.CompletedRanAll | ftcli/cli.py:248-316 | a plan that completes ran one command per action, each exiting with 0 |
| AgentExecutor.NothingAfterStop | ftcli/cli.py:264-316 | nothing runs after the step at which the loop broke or raised |
| AgentExecutor.SearchResetsIds | ftcli/cli.py:305-312 | after a successful `search` the ids are exactly those of its output; other steps keep them |
| AgentExecutor.Agent | ftcli/cli.py:209-246 | the plan is executed only if it was confirmed, accepted, non-empty and displayable |
| FtCli.TruncateText | ftcli/cli.py:31-35 | empty or short text is unchanged; longer text ends in `...` and is at most `max_len` long |
| FtCli.TruncatedKeepsPrefixPiece | ftcli/cli.py:34 | what is kept is a piece of the first `max_len - 3` characters |
| FtCli.LabelHead | ftcli/cli.py:433-438 | the text before the first ` - ` of a label is `ID ` and the id |
| FtCli.LabelRoundTrip | ftcli/cli.py:433-438 | reading the id back from a menu label gives the id it was made from |
| FtCli.WithStatut | ftcli/cli.py:52-55 | the filter keeps exactly the offers with that statut |
| FtCli.WithStatutOrdered | ftcli/cli.py:55 | the filter keeps the stored order |
| FtCli.PendingActionsFirst | ftcli/cli.py:55 | the dashboard lists at most three offers, all saved, and every saved offer left out was stored after them |
| FtCli.SafeName | ftcli/cli.py:122 | the length is kept, every letter and digit stays in place, and every other character becomes `_` |
| FtCli.ExportFormats | ftcli/cli.py:117-120 | a file is written iff the format is `txt` or `html`; any other non-empty format is refused |
| FtCli.ExportFileName | ftcli/cli.py:122-123 | the name is `recherche_<stem>.<format>` with a stem of letters, digits and `_` only |
| GeminiApi.RequestCarriesPrompt | ftcli/gemini_utils.py:17-19 | the prompt is read back at `contents[0].parts[0].text` of the request body |
| GeminiApi.Message | ftcli/gemini_utils.py:15-45 | the missing-key message starts with `[ERREUR]`; every other message starts with `[ERREUR Gemini]` |
| GeminiApi.ReplyContent | ftcli/gemini_utils.py:29-32 | a body that is not a JSON object is malformed; one without `candidates` is empty |
| GeminiApi.ReplyContentReadsText | ftcli/gemini_utils.py:32 | the first part text of the first candidate is read back |
| GeminiApi.ReplyPass | ftcli/gemini_utils.py:27-40 | retries iff the status is 5xx and attempts remain; another 4xx/5xx returns the connection problem |
| GeminiApi.CallGeminiApi | ftcli/gemini_utils.py:12-45 | the retry loop equals `CallGemini`, the corrected reading of lines 41-43 (see "## Findings"): a request that raises is reported with the default detail |
| GeminiApi.CallGeminiAsWritten | ftcli/gemini_utils.py:12-45 | as written: with a key, 1 to 3 requests and never the "after several attempts" message; an exception escapes exactly when the first request raises, and it is a `NameError` after that one request |
| GeminiApi.CallFromAsWrittenBounded | ftcli/gemini_utils.py:21-43 | as written, from any attempt on, at most three requests in total; an exception escapes iff there is no earlier reply and the request raises |
| GeminiApi.NoKeyNoRequest | ftcli/gemini_utils.py:14-15 | without a key no request is made |
| GeminiApi.CallFromBounded | ftcli/gemini_utils.py:21-45 | from any attempt, at most three requests in total, and the loop never runs out |
| GeminiApi.CallGeminiBounded | ftcli/gemini_utils.py:21-45 | with a key, 1 to 3 requests; the "after several attempts" message is unreachable |
| GeminiApi.OnlyServerErrorsRetried | ftcli/gemini_utils.py:34-38 | every attempt but the last was answered with a 5xx |
| GeminiApi.ClientErrorNotRetried | ftcli/gemini_utils.py:39-40 | a 4xx status returns the connection problem at once |
| GeminiApi.AnswerReturned | ftcli/gemini_utils.py:29-32 | a 2xx reply with candidates returns the first part's text, and nothing more is sent |
| GeminiApi.NoCandidatesEmpty | ftcli/gemini_utils.py:29-31 | a 2xx reply without candidates gives the empty-answer message |
| GeminiApi.AsWrittenAgrees | ftcli/gemini_utils.py:24-43 | when every request gets an HTTP answer, the code as written and the corrected version agree |
| GeminiApi.FirstPostFailureEscapes | ftcli/gemini_utils.py:41-43 | as written, a first request that raises ends in an escaping `NameError` |
| GeminiApi.LaterPostFailureStaleDetail | ftcli/gemini_utils.py:41-43 | as written, a later request that raises reports the previous attempt's response text |
| GeminiApi.ExtractPrompt | ftcli/gemini_utils.py:47-56 | the fixed instructions followed by the CV text |
| GeminiApi.Fill | ftcli/gemini_utils.py:58-122 | the two inputs sit between the fixed pieces of the template |
| GeminiApi.FillInjective | ftcli/gemini_utils.py:58-122 | for inputs of equal lengths, different inputs give different prompts |
| GeminiApi.FillSplitsCollide | ftcli/gemini_utils.py:58-122 | inputs whose texts joined around the middle piece are equal give the same prompt, so without equal lengths the prompt is not injective |
| GeminiApi.FillCollisionExample | ftcli/gemini_utils.py:58-122 | `"ab"`, `"c"` and `"a"`, `"bc"` around an empty middle piece give the same prompt |
| GeminiApi.Ask | ftcli/gemini_utils.py:47-122 | each of the four prompt helpers, under the corrected reading of lines 41-43 (see "## Findings"): no request without a key, otherwise 1 to 3, never the "after several attempts" message and never an exception |
| Exporter.OneLine | ftcli/exporter.py:14 | no newline remains, the ends are stripped, and the text is no longer than before |
| Exporter.Shorten | ftcli/exporter.py:15 | the first `limit` characters, with `...` added iff the text was longer |
| Exporter.DateText | ftcli/exporter.py:8 | a string gives at most its first 10 characters; a list is sliced; anything else raises |
| Exporter.FieldsOf | ftcli/exporter.py:6-15 | the fields of one offer; `AttributeError` on a non-dict |
| Exporter.CompanyChoice | ftcli/exporter.py:9 | `nom` when truthy, otherwise `description`, otherwise `?` |
| Exporter.SalaryDefault | ftcli/exporter.py:11 | `Non précisé` when `libelle` is missing or falsy |
| Exporter.EmptyOfferDefaults | ftcli/exporter.py:6-13 | an empty offer gives the documented defaults (`?`, `?`, `""`, `?`, `Non précisé`, `-`) |
| Exporter.TxtBlockShape | ftcli/exporter.py:16-26 | a txt block starts with its number and ends with a line of 70 dashes |
| Exporter.WriteBlocks | ftcli/exporter.py:5-26 | the write loop produces the blocks in order and stops at the first exception |
| Exporter.ExportFile | ftcli/exporter.py:3-57 | the file text is the header, the blocks, then the footer, as specified by `Export` |
| Exporter.JoinUnseparated | ftcli/exporter.py:5 | blocks are written one after the other, with no separator |
| Exporter.BlocksFromNumbered | ftcli/exporter.py:5 | block k is numbered k + 1 |
| Exporter.ExportAll | ftcli/exporter.py:28-57 | when every offer's fields can be read (`FieldsOf` succeeds: a dict whose `lieuTravail`, `origineOffre`, `entreprise` and `salaire` are dicts where present, whose `description` is a string and whose `dateCreation` can be sliced), the file is the header, the blocks numbered from 1 in input order, then the footer (`</body></html>` for html) |
| Exporter.ExportStopsAtFirstError | ftcli/exporter.py:3-26 | a non-dict offer stops the export after the blocks before it, raising `AttributeError` |
| LocalDb.FindName | ftcli/database.py:49-50 | finds a row with that name iff one exists |
| LocalDb.FullProfileDict | ftcli/database.py:53 | every column under its dict key |
| LocalDb.ProfileDict | ftcli/database.py:132 | every selected column, and no `created_at` |
| LocalDb.ProfileSummary | ftcli/database.py:69 | id, name and timestamp |
| LocalDb.OfferDict | ftcli/database.py:90-93 | every column mapped field for field |
| LocalDb.OfferDetail | ftcli/database.py:121 | every selected column, and no `created_at` |
| LocalDb.Database.constructor | ftcli/database.py:6 | no tables yet |
| LocalDb.Database.InitDb | ftcli/database.py:4-29 | creates the tables; existing rows and counters are kept, so it is idempotent |
| LocalDb.Database.SaveCvAnalysis | ftcli/database.py:31-43 | adds exactly one row under a fresh key and returns it; a repeated name is refused by `UNIQUE` |
| LocalDb.Database.GetProfileByName | ftcli/database.py:45-54 | the row with that name as a dict, or `None` |
| LocalDb.Database.DeleteProfile | ftcli/database.py:56-62 | removes only the row with that key |
| LocalDb.Database.GetAllProfiles | ftcli/database.py:64-71 | one summary per row, in key order |
| LocalDb.Database.SaveTrackedOffer | ftcli/database.py:73-83 | adds one row with no notes; a repeated `offre_id` is refused |
| LocalDb.Database.GetTrackedOffers | ftcli/database.py:85-95 | every row, field for field, in key order |
| LocalDb.Database.UpdateTrackedOffer | ftcli/database.py:97-103 | only the `statut` of that row changes; an unknown key changes nothing |
| LocalDb.Database.UpdateTrackedOfferNotes | ftcli/database.py:105-111 | only the `notes` of that row change |
| LocalDb.Database.GetTrackedOffer | ftcli/database.py:113-122 | the row with that key as a dict, or `None` |
| LocalDb.Database.GetProfile | ftcli/database.py:124-133 | the row with that key as a dict, or `None` |
| LocalDb.StatutUpdateVisible | ftcli/database.py:101 | after the update, reading that row shows the new statut and the other fields as before |
| LocalDb.UpdateLeavesOthers | ftcli/database.py:101 | an update under one key leaves every other key's row as it was |
| LocalDb.DeletedKeyNotReused | ftcli/database.py:10 | with `AUTOINCREMENT`, a deleted key is gone and the next key is above it |
| SqlTable.SelectAfterDelete | ftcli/database.py:60 | a delete removes only the row with that key |
| SqlTable.SelectAfterModify | ftcli/database.py:101 | a single-row update changes only what that key reads |
| UserProfile.LoadedProfile | profile_db.py:33-36 | a load succeeds only with a dict; the stored text fails to decode iff the result is `ValueError` |
| UserProfile.MergeLookup | profile_db.py:36 | a data key overrides `nom`/`email`; both are otherwise present |
| UserProfile.SaveLoadRoundTrip | profile_db.py:21-36 | saving then loading gives a dict back merged with `nom` and `email`, and other data raises `TypeError` |
| JsonParse.LoadsDumps | profile_db.py:21-35 | `json.loads(json.dumps(x)) == x` for every well-formed value |
| UserProfile.SavedKeysReadBack | profile_db.py:21-36 | every saved key reads back with its saved value |
| UserProfile.ProfileDb.constructor | profile_db.py:7 | no table yet |
| UserProfile.ProfileDb.InitDb | profile_db.py:6-16 | creates the table and keeps existing rows |
| UserProfile.ProfileDb.SaveProfile | profile_db.py:18-25 | afterwards the table holds exactly the new row |
| UserProfile.ProfileDb.LoadProfile | profile_db.py:27-37 | `None` for an empty table; otherwise the loaded first row, or its error |
| ProfilsTable.ProfilsDb.constructor | db_utils.py:3-4 | no table yet |
| ProfilsTable.ProfilsDb.InitDb | db_utils.py:6-18 | creates the table and keeps rows and counter |
| ProfilsTable.ProfilsDb.InsertProfil | db_utils.py:20-27 | adds exactly one row under a fresh key |
| ProfilsTable.ProfilsDb.GetAllProfils | db_utils.py:29-33 | an `(id, nom)` pair for every row, in key order |
| ProfilsTable.ProfilsDb.GetProfilById | db_utils.py:35-39 | the whole row with that key, or `None` |
| ProfilsTable.DuplicateNamesKept | db_utils.py:12 | `nom` is not unique: two inserts of one name give two rows with distinct keys |
| RootCli.InseeDigits | cli.py:18-23 | for n from 1 to 16, the decimal text of 13200+n is `132` followed by the two digits of n, the shape of every code in the table |
| RootCli.KeyDigits | cli.py:18-23 | for n from 1 to 16, the decimal text of n is its one digit below 10 and its two digits from 10 on, the shape of every key in the table |
| RootCli.TableEntryLow | cli.py:19-21 | arrondissements 1 to 8 map to 13200+n |
| RootCli.TableEntryHigh | cli.py:21-22 | arrondissements 9 to 16 map to 13200+n |
| RootCli.TableEntry | cli.py:18-23 | `"n"` maps to the decimal text of 13200+n for n from 1 to 16 |
| RootCli.ArrondissementInsee | cli.py:18-24 | arrondissement n from 1 to 16 gives the commune code 13200+n |
| RootCli.OnlyArrondissements | cli.py:24 | any other value, empty or missing, gives no commune filter |
| RootCli.CommuneSent | cli.py:31 | the search sends that commune, or none |
| RootCli.Choice | cli.py:43-45 | a choice is accepted iff it is all digits with 1 <= n <= count, and it selects index n-1 |
| RootCli.ChoiceOfListedNumber | cli.py:43-45 | typing a listed number selects that offer |
| RootCli.Search | cli.py:27-59 | the offers shown are the first `max_results` found; the export is reached only after a listing that raised nothing, and names the offers shown; a chosen offer is present exactly when some were shown; the command can only end in `AttributeError`, `TypeError` or `NameError` |
| RootCli.ShownFirstResults | cli.py:33 | the first `max_results` results are kept |
| RootCli.ListingRaises | cli.py:35-39 | the command ends in `AttributeError` before any export exactly when an offer shown, or its present `lieuTravail`, is not a dict |
| RootCli.RefusedChoiceNoExport | cli.py:35-51 | with results, a refused choice returns before any export, or the listing raised first |
| RootCli.ChosenOffer | cli.py:35-49 | an accepted choice shows `offres[n-1]`; the command goes on to the export exactly when the listing and the summary of its description raise nothing, and otherwise ends in the summary's `TypeError` (description not a string) or `NameError` (the summary's post raised) |
| RootCli.ExportGating | cli.py:53-59 | the name is name.format; only `txt` and `html` write a file, but every format reports an export |
| RootCli.PdfPaths | cli.py:69-83 | for `cv.pdf` the text goes to `cv.txt` and the analysis to `cv_analyse.<out>` |
| RootCli.TextPathWithoutPdf | cli.py:69 | a CV path without `.pdf` (`cv.PDF` for one) gives a text path equal to the CV path |

## Left out

- Concurrency is not modelled: the class-level `asyncio.Lock` of both `Auth` classes, the rate-limiting semaphore of `client.py`, and the async context managers. All calls are sequential.
- HTTP, the Gemini and DeepSeek endpoints, and the OAuth POST are not modelled. Their status and body are inputs.
- Subprocesses (`pdftotext`, the self-invocation of `ftcli`, notifications) are not modelled. Their exit code and output are inputs.
- Clocks and timestamps: `time.time()` floats become an integer clock; `created_at` values are opaque inputs.
- The root cli.py imports `export_to_txt` and `export_to_html` from a top-level `exporter` module that is not part of this model. `RootCli.ExportFor` takes it to behave as ftcli/exporter.py, modelled by `Exporter.Export`.
- `time.sleep` between retries is not modelled.
- MD5 is an arbitrary function of the hashed text.
- diskcache size-limit eviction is not modelled.
- The SQLite engine is not modelled: tables are rows in key order.
- `re.findall` at ftcli/cli.py:307 is modelled as a scan for its one pattern, not as a regular-expression engine.
- `str.isdigit`/`isalnum` and `int()` (`Text.ParseInt`) are modelled for ASCII only: non-ASCII digits and letters count as neither, so `int("٣")`, which Python reads as 3, is refused; a placeholder such as `<ID_A_REMPLACER_٣>` then falls back to index 0 in the model.
- `float` values are out of the JSON model, which has only integers.
- The interactive parts of `ftcli/cli.py` are not modelled: Rich tables and panels, questionary prompts, and the commands that only print (`view`, `find_companies`, `profils`, `suivi list/notes`, `match`, `adapter`, `generer_lettre`).
- The printing of the root `search` (cli.py:34-39, cli.py:46-49, cli.py:59) is not modelled. Its exceptions are: the listing raises on an offer, or a present `lieuTravail`, that is not a dict, and the summary raises as `RootCli.SummaryRaises` states.
- The UI files (ftcli/menu.py, ftcli/ui_components.py, ftcli/notify.py) are not part of this model. They are interactive menus and Rich rendering with no logic worth proving.
- cly.py is not part of this model. It is a single-call wrapper over PyMuPDF.
- Of gemini_utils.py (root), only what escapes `extraire_sections_cv_ia` is modelled (`RootCli.SummaryRaises`, gemini_utils.py:15-29): a `TypeError` on a description that is not a string, and an `UnboundLocalError` when `requests.post` raises. Whether the post raises is an input; the answer text is only printed and is not modelled.
- settings.py is not part of this model: only `DEFAULT_TTL` = 2700 s is used, as a constant.
- `referentiel_rome` of client.py is not modelled. It is one more `_get_json` call with no logic of its own.
- The trivial `__aenter__`/`__aexit__` of ftcli/client.py are not modelled: they return `self` and close the cache.
- `AgentApi.GetStructuredPlan`: only the first attempt is modelled. Its retry path raises `NameError` (`time` is not imported), so no second request is ever made.
- `AgentExecutor.PlaceholderNamesIndex`: stated for k >= 1 only. `<ID_A_REMPLACER_0>` yields index -1, which `PyIndex` models as Python's negative indexing, but no lemma states that case.
- `GeminiApi.FillInjective`: injectivity is stated only for texts of equal lengths. For other lengths it is false, as `GeminiApi.FillSplitsCollide` shows: text can move from one slot into the other.
- Disk persistence is modelled as the entries a store or cache opens with (`RequestCache.DiskStore.constructor`, `PackageClient.FTClient.constructor`); writes by other processes sharing the directory are not modelled.
- `Json.ReprChars` escapes only ASCII control characters, the quote and the backslash. Python's `repr` also escapes other non-printable characters (U+0080 to U+00A0, U+2028 and the like) as `\x..`/`\u....`; for those the model keeps the character as is.
- `JsonParse.Unescape` rejects a `\u` escape of a lone surrogate (`\ud800` not followed by a low surrogate, or a `\udc00` on its own), which Python's `json.loads` accepts as a lone code point: a Dafny `char` cannot hold a surrogate.
- `RootCli.Search`: the model does not cover a `resultats` value that is not a list. The slice `offres[:max_results]` of a dict raises in Python, and the model does not carry that exception.
- Slicing a dict in `Exporter.DateText`: the model raises `TypeError`, whatever the Python version reports.
- ftcli/cli.py:504 recognises Gemini errors by the `[ERREUR Gemini]` prefix, so the missing-key message `[ERREUR] ...` passes as a result. `GeminiApi.Message` states the two prefixes, but the caller is not modelled.

## Findings

| source | as written | input that shows it | evidently intended | confidence | as-written member | corrected member |
|---|---|---|---|---|---|---|
| ftcli/gemini_utils.py:42 | the generic `except` reads `resp`, which is unbound when the first `requests.post` raised, and holds the previous attempt's response after a retried 5xx | a first `requests.post` that raises a connection error: `UnboundLocalError` (a `NameError`) escapes instead of the "Erreur inattendue" message; or a 503, then a raising post, which reports the 503 body as detail | the "Erreur inattendue" message with the default "Aucun détail de réponse disponible." detail whenever the failing attempt produced no response | not executed | GeminiApi.FirstPostFailureEscapes | GeminiApi.CallGeminiBounded |

=== FILE: agent_api.dfy ===
/**
 * `get_structured_plan` of `ftcli/agent_api.py`: one chat-completion request
 * to DeepSeek, whose reply must carry a JSON document `{"plan": [...]}` of
 * actions, each checked before the plan is handed back.
 *
 * The reply is an input. The retry path of the source calls `time.sleep`,
 * and `time` is never imported, so every exception the `except` clause
 * catches on the first attempt ends in `NameError`; no second request is
 * ever made.
 */
module AgentApi {
  import opened Common
  import opened Text
  import opened Json
  import opened JsonText
  import opened JsonParse
  import opened Http

  /** What `get_structured_plan` produces: `{"plan": plan}`, `{"error": message}`, or an exception. */
  datatype PlanOutcome = PlanOk(plan: seq<Json>) | PlanError(message: string) | Crash(exc: PyExc)

  /** The parts of the request body that depend on the call. */
  datatype ChatRequest = ChatRequest(authorization: string, model: string, userPrompt: string, maxTokens: int)

  const KEY_MISSING := "Clé API DeepSeek non configurée dans votre fichier .env."
  const LIMIT_REJECTED := "L'option '--limit' est incorrecte. Utilise '--max-results'."

  /** `if not DEEPSEEK_API_KEY`: unset and empty both count as missing. */
  predicate KeyConfigured(apiKey: Option<string>)
  {
    apiKey.Some? && apiKey.value != ""
  }

  /** The sentence added to the goal when a profile id is given. */
  function ProfileSentence(id: int): string
  {
    " Utilise l'ID de profil " + IntToString(id) + " pour les actions nécessitant un profil."
  }

  /** `user_prompt`: the goal, followed by the profile sentence iff `profil_id is not None` (0 included). */
  function UserPrompt(goal: string, profilId: Option<int>): (r: string)
    ensures |r| >= |goal| && r[..|goal|] == goal
    ensures profilId.None? <==> r == goal
    ensures profilId.Some? ==> r[|goal|..] == ProfileSentence(profilId.value)
  {
    if profilId.Some? then goal + ProfileSentence(profilId.value) else goal
  }

  /** The request the first attempt sends; none at all without a key. */
  function Sent(apiKey: Option<string>, goal: string, profilId: Option<int>): (r: Option<ChatRequest>)
    ensures r.Some? <==> KeyConfigured(apiKey)
    ensures r.Some? ==> r.value.authorization == "Bearer " + apiKey.value && r.value.userPrompt == UserPrompt(goal, profilId)
  {
    if !KeyConfigured(apiKey) then None
    else Some(ChatRequest("Bearer " + apiKey.value, "deepseek-coder", UserPrompt(goal, profilId), 2048))
  }

  /** `response.json()["choices"][0]["message"]["content"]` after `raise_for_status`. */
  function ReplyContent(reply: Reply): (r: Result<Json, Failure>)
    ensures reply.TransportFailure? ==> r == Err(ConnectionError)
    ensures reply.Response? && !RequestsAccepts(reply.status) ==> r == Err(StatusError(reply.status))
  {
    match reply
    case TransportFailure => Err(ConnectionError)
    case Response(status, body) =>
      if !RequestsAccepts(status) then Err(StatusError(status))
      else if !body.Parsed? then Err(DecodeError)
      else
        var choices := PySubscript(body.value, "choices");
        if choices.Err? then Err(PyError(choices.error)) else
        var first := PyIndex0(choices.value);
        if first.Err? then Err(PyError(first.error)) else
        var message := PySubscript(first.value, "message");
        if message.Err? then Err(PyError(message.error)) else
        var content := PySubscript(message.value, "content");
        if content.Err? then Err(PyError(content.error)) else Ok(content.value)
  }

  /** A chat-completion reply whose single choice carries `content`. */
  function ChatReply(content: string): Json
  {
    JObj([("choices", JArr([JObj([("message", JObj([("content", JStr(content))]))])]))])
  }

  /** The chain of subscripts reads back the content of a well-formed reply. */
  lemma ChatReplyContent(text: string)
    ensures ReplyContent(Response(200, Parsed(ChatReply(text)))) == Ok(JStr(text))
  {
    var reply := ChatReply(text);
    LookupAt(reply.fields, 0);
    var message := JObj([("content", JStr(text))]);
    LookupAt(JObj([("message", message)]).fields, 0);
    LookupAt(message.fields, 0);
  }

  /** The exceptions the `except` clause names: request errors, `IndexError`, `KeyError`, decoding errors. */
  predicate Caught(f: Failure)
  {
    !f.PyError? || f.exc == IndexError || f.exc == KeyError
  }

  /** The independent statement of what a well-formed action is. */
  predicate ActionValid(action: Json)
  {
    action.JObj? && HasKey(action.fields, "name") && HasKey(action.fields, "arguments")
    && (var name := Lookup(action.fields, "name").value;
        var args := Lookup(action.fields, "arguments").value;
        (name == JStr("search") ==> PyIn("limit", args) == Ok(false))
        && (name == JStr("match") || name == JStr("adapter") ==> args.JObj? && IsPyInt(PyGet(args, "profil", JNull).value)))
  }

  /** One pass of the loop over `plan_data["plan"]`: `None` lets the action through. */
  function ActionCheck(action: Json): (r: Option<PlanOutcome>)
    ensures r.None? <==> ActionValid(action)
    ensures r.Some? ==> !r.value.PlanOk?
    ensures !(action.JObj? && HasKey(action.fields, "name") && HasKey(action.fields, "arguments"))
            ==> r == Some(PlanError("Action mal formée : " + PyStr(action)))
  {
    if !(action.JObj? && HasKey(action.fields, "name") && HasKey(action.fields, "arguments")) then
      Some(PlanError("Action mal formée : " + PyStr(action)))
    else
      var name := Lookup(action.fields, "name").value;
      var args := Lookup(action.fields, "arguments").value;
      var hasLimit := PyIn("limit", args);
      if name == JStr("search") && hasLimit.Err? then Some(Crash(hasLimit.error))
      else if name == JStr("search") && hasLimit.value then Some(PlanError(LIMIT_REJECTED))
      else if name == JStr("match") || name == JStr("adapter") then
        var profil := PyGet(args, "profil", JNull);
        if profil.Err? then Some(Crash(profil.error))
        else if !IsPyInt(profil.value) then
          Some(PlanError("ID de profil invalide pour " + PyStr(name) + ". Un entier est requis."))
        else None
      else None
  }

  /** The outcome of the first action that fails its check, scanning in order. */
  function FirstFailure(plan: seq<Json>): Option<PlanOutcome>
  {
    FirstSome(plan, ActionCheck)
  }

  /** No failure iff every action is valid; otherwise the failure is that of an action all of whose predecessors are valid. */
  lemma FirstFailureSpec(plan: seq<Json>)
    ensures FirstFailure(plan).None? <==> forall i :: 0 <= i < |plan| ==> ActionValid(plan[i])
    ensures FirstFailure(plan).Some? ==> exists k :: 0 <= k < |plan| && ActionCheck(plan[k]) == FirstFailure(plan)
                                                     && forall j :: 0 <= j < k ==> ActionValid(plan[j])
  {
    FirstSomeSpec(plan, ActionCheck);
  }

  /** The loop over the actions, returning at the first one that fails. */
  method ValidateActions(plan: seq<Json>) returns (failure: Option<PlanOutcome>)
    ensures failure == FirstFailure(plan)
  {
    var i := 0;
    while i < |plan|
      invariant 0 <= i <= |plan|
      invariant FirstFailure(plan[i..]) == FirstFailure(plan)
    {
      assert plan[i..][1..] == plan[i + 1..];
      var check := ActionCheck(plan[i]);
      if check.Some? {
        return check;
      }
      i := i + 1;
    }
    assert plan[i..] == [];
    return None;
  }

  /** `plan_data["plan"]` when the decoded content has the required shape. */
  function PlanList(data: Json): (r: Option<seq<Json>>)
    ensures r.Some? <==> data.JObj? && HasKey(data.fields, "plan") && Lookup(data.fields, "plan").value.JArr?
    ensures r.Some? ==> Lookup(data.fields, "plan") == Some(JArr(r.value))
  {
    if data.JObj? && HasKey(data.fields, "plan") && Lookup(data.fields, "plan").value.JArr?
    then Some(Lookup(data.fields, "plan").value.items)
    else None
  }

  /** The whole of `get_structured_plan`, given the reply to its first request. */
  function StructuredPlan(apiKey: Option<string>, goal: string, profilId: Option<int>, reply: Reply): PlanOutcome
  {
    if !KeyConfigured(apiKey) then PlanError(KEY_MISSING)
    else
      var content := ReplyContent(reply);
      if content.Err? then (if Caught(content.error) then Crash(NameError) else Crash(content.error.exc))
      else if !content.value.JStr? then Crash(TypeError)       // json.loads of a non-string
      else
        var text := content.value.s;
        var data := Loads(text);
        if data.None? then Crash(NameError)                   // JSONDecodeError, then the retry path
        else
          var plan := PlanList(data.value);
          if plan.None? then PlanError("Structure JSON incorrecte. Reçu : " + text)
          else
            var failure := FirstFailure(plan.value);
            if failure.Some? then failure.value else PlanOk(plan.value)
  }

  /** `get_structured_plan`, statement by statement. */
  method GetStructuredPlan(apiKey: Option<string>, goal: string, profilId: Option<int>, reply: Reply)
    returns (r: PlanOutcome)
    ensures r == StructuredPlan(apiKey, goal, profilId, reply)
  {
    if !KeyConfigured(apiKey) {
      return PlanError(KEY_MISSING);
    }
    var content := ReplyContent(reply);
    if content.Err? {
      return if Caught(content.error) then Crash(NameError) else Crash(content.error.exc);
    }
    if !content.value.JStr? {
      return Crash(TypeError);
    }
    var text := content.value.s;
    var data := Loads(text);
    if data.None? {
      return Crash(NameError);
    }
    var plan := PlanList(data.value);
    if plan.None? {
      return PlanError("Structure JSON incorrecte. Reçu : " + text);
    }
    var failure := ValidateActions(plan.value);
    if failure.Some? {
      return failure.value;
    }
    return PlanOk(plan.value);
  }

  /** Without a key the answer is the configuration error, whatever the server would have said, and nothing is sent. */
  lemma MissingKeyNoRequest(apiKey: Option<string>, goal: string, profilId: Option<int>, reply: Reply)
    requires !KeyConfigured(apiKey)
    ensures Sent(apiKey, goal, profilId).None?
    ensures StructuredPlan(apiKey, goal, profilId, reply) == PlanError(KEY_MISSING)
  {
  }

  /** An accepted plan is the decoded list, unchanged, and every action in it passed every check. */
  lemma AcceptedPlanValid(apiKey: Option<string>, goal: string, profilId: Option<int>, reply: Reply)
    requires StructuredPlan(apiKey, goal, profilId, reply).PlanOk?
    ensures var content := ReplyContent(reply);
            content.Ok? && content.value.JStr? && Loads(content.value.s).Some?
            && PlanList(Loads(content.value.s).value) == Some(StructuredPlan(apiKey, goal, profilId, reply).plan)
    ensures var plan := StructuredPlan(apiKey, goal, profilId, reply).plan;
            forall i :: 0 <= i < |plan| ==> ActionValid(plan[i])
  {
    var content := ReplyContent(reply);
    FirstFailureSpec(PlanList(Loads(content.value.s).value).value);
  }

  /**
   * A reply whose content is the JSON text of `{"plan": plan}`, with every
   * action valid, yields exactly that plan.
   */
  lemma ValidPlanAccepted(apiKey: Option<string>, goal: string, profilId: Option<int>, plan: seq<Json>)
    requires KeyConfigured(apiKey) && WellFormed(JArr(plan))
    requires forall i :: 0 <= i < |plan| ==> ActionValid(plan[i])
    ensures var text := Dumps(JObj([("plan", JArr(plan))]), PLAIN);
            StructuredPlan(apiKey, goal, profilId, Response(200, Parsed(ChatReply(text)))) == PlanOk(plan)
  {
    var doc := JObj([("plan", JArr(plan))]);
    assert WellFormed(doc);
    LoadsDumps(doc);
    ChatReplyContent(Dumps(doc, PLAIN));
    LookupAt(doc.fields, 0);
    FirstFailureSpec(plan);
  }

  /** The first action that fails decides the answer; the actions after it are not looked at. */
  lemma {:induction false} FirstFailureDecides(plan: seq<Json>, k: nat, later: seq<Json>)
    requires k < |plan| && !ActionValid(plan[k]) && forall j :: 0 <= j < k ==> ActionValid(plan[j])
    ensures FirstFailure(plan + later) == ActionCheck(plan[k])
  {
    var p := plan + later;
    assert p[0] == plan[0];
    if k > 0 {
      assert p[1..] == plan[1..] + later;
      FirstFailureDecides(plan[1..], k - 1, later);
    }
  }

}

=== FILE: agent_executor.dfy ===
/**
 * The plan executor inside the `agent` command of `ftcli/cli.py`: each
 * action of a validated plan becomes an `ftcli` command line, run as a
 * subprocess; a placeholder `<ID_A_REMPLACER_k>` is replaced by the k-th
 * offer id found in the output of the last successful `search`, and the
 * first step that cannot be built or that fails ends the plan.
 *
 * The subprocess is an input: `run(i, argv)` is what running the command
 * line `argv` as step `i` gives.
 */
module AgentExecutor {
  import opened Common
  import opened Text
  import opened Json
  import opened AgentApi

  /** What `subprocess.run` gives: an exit code and the captured output, or an exception. */
  datatype Run = Exited(code: int, stdout: string) | RunRaised

  /** Why the loop left with `break`. */
  datatype StopReason =
    | OfferIndexMissing(index: int)   // the placeholder's index is not below the number of known ids
    | NoOfferId                       // `suivi save` without any usable offer id
    | StepFailed(code: int)           // non-zero exit code
    | StepRaised                      // the `try` around the subprocess caught an exception

  /** How the plan ended: all steps run, a `break` at a step, or an exception escaping at a step. */
  datatype End = Completed | Stopped(step: nat, reason: StopReason) | Crashed(step: nat, exc: PyExc)

  /** The command lines that were run, in order, and how the plan ended. */
  datatype Trace = Trace(commands: seq<seq<string>>, end: End)

  const MARKER := "<ID_A_REMPLACER"

  // ---------------------------------------------------------------------------
  // Offer ids in the output of `search`: re.findall(r"^\s*([A-Z0-9]{7})\s", output, re.MULTILINE)

  predicate IdChar(c: char) { 'A' <= c <= 'Z' || '0' <= c <= '9' }

  /** `^` under `re.MULTILINE`: the start of the text or just after a newline. */
  predicate LineStart(s: string, i: nat)
  {
    i == 0 || (i <= |s| && s[i - 1] == '\n')
  }

  /** The end of `\s*` from `i`. */
  function SkipSpace(s: string, i: nat): (j: nat)
    requires i <= |s|
    ensures i <= j <= |s| && (j < |s| ==> !IsSpace(s[j]))
    decreases |s| - i
  {
    if i < |s| && IsSpace(s[i]) then SkipSpace(s, i + 1) else i
  }

  /** Seven characters of `[A-Z0-9]` at `q`, then one whitespace character. */
  predicate IdAt(s: string, q: nat)
  {
    q + 8 <= |s| && (forall k :: q <= k < q + 7 ==> IdChar(s[k])) && IsSpace(s[q + 7])
  }

  /** The ids the scan finds from position `i` on; each match resumes after its trailing whitespace. */
  function IdsFrom(s: string, i: nat): (r: seq<string>)
    requires i <= |s|
    ensures forall k :: 0 <= k < |r| ==> |r[k]| == 7 && forall c :: 0 <= c < 7 ==> IdChar(r[k][c])
    decreases |s| - i
  {
    if i == |s| then []
    else if LineStart(s, i) && IdAt(s, SkipSpace(s, i)) then
      var q := SkipSpace(s, i);
      [s[q..q + 7]] + IdsFrom(s, q + 8)
    else IdsFrom(s, i + 1)
  }

  function FindIds(output: string): seq<string>
  {
    IdsFrom(output, 0)
  }

  /** An output whose first line starts with an id followed by whitespace yields that id first. */
  lemma FirstLineId(id: string, sep: char, rest: string)
    requires |id| == 7 && (forall c :: 0 <= c < 7 ==> IdChar(id[c])) && IsSpace(sep)
    ensures var found := FindIds(id + [sep] + rest); found != [] && found[0] == id
  {
    var s := id + [sep] + rest;
    assert !IsSpace(s[0]) by { assert IdChar(s[0]); }
    assert SkipSpace(s, 0) == 0;
    assert IdAt(s, 0) by {
      forall k | 0 <= k < 7 ensures IdChar(s[k]) { assert s[k] == id[k]; }
    }
    assert s[0..7] == id;
  }

  /** `\s*` from a position inside a run of whitespace ends where it ends from the run's start. */
  lemma {:induction false} SkipSpaceFromInside(s: string, i: nat, p: nat)
    requires i <= |s| && i <= p <= SkipSpace(s, i)
    ensures SkipSpace(s, p) == SkipSpace(s, i)
    decreases p - i
  {
    if i < p {
      SkipSpaceFromInside(s, i + 1, p);
    }
  }

  /**
   * An id at the start of any line (after optional whitespace) is found by a
   * scan from any earlier position: a match begun before that line either
   * ends at it or runs through the same whitespace to the same id.
   */
  lemma {:induction false} LineIdFoundFrom(s: string, p: nat, i: nat)
    requires i <= p <= |s| && LineStart(s, p) && IdAt(s, SkipSpace(s, p))
    ensures var q := SkipSpace(s, p); s[q..q + 7] in IdsFrom(s, i)
    decreases p - i
  {
    var q := SkipSpace(s, p);
    if i == p {
      assert IdsFrom(s, i)[0] == s[q..q + 7];
    } else if LineStart(s, i) && IdAt(s, SkipSpace(s, i)) {
      var q' := SkipSpace(s, i);
      if q' >= p {
        SkipSpaceFromInside(s, i, p);
        assert IdsFrom(s, i)[0] == s[q..q + 7];
      } else {
        assert q' + 8 <= p by {
          assert s[p - 1] == '\n' && !IdChar(s[p - 1]);
        }
        LineIdFoundFrom(s, p, q' + 8);
        assert IdsFrom(s, i) == [s[q'..q' + 7]] + IdsFrom(s, q' + 8);
      }
    } else {
      LineIdFoundFrom(s, p, i + 1);
    }
  }

  /** Every line that starts with an id followed by whitespace contributes that id. */
  lemma LineIdFound(s: string, p: nat)
    requires p <= |s| && LineStart(s, p) && IdAt(s, SkipSpace(s, p))
    ensures var q := SkipSpace(s, p); s[q..q + 7] in FindIds(s)
  {
    LineIdFoundFrom(s, p, 0);
  }

  // ---------------------------------------------------------------------------
  // One step

  /** What the display loop has already ensured of every action: a dict with a string name and dict arguments. */
  predicate Shaped(action: Json)
  {
    action.JObj? && HasKey(action.fields, "name") && HasKey(action.fields, "arguments")
    && Lookup(action.fields, "name").value.JStr? && Lookup(action.fields, "arguments").value.JObj?
  }

  function NameOf(action: Json): string
    requires Shaped(action)
  {
    Lookup(action.fields, "name").value.s
  }

  function ArgsOf(action: Json): Dict
    requires Shaped(action)
  {
    Lookup(action.fields, "arguments").value.fields
  }

  /**
   * The index a placeholder names: the text between the last `_` and the
   * final character, minus one; 0 when that text is not an integer.
   * `.split` on anything but a string raises.
   */
  function PlaceholderIndex(p: Json): Result<int, PyExc>
  {
    if p.JStr? then (if '_' in p.s then Ok(IndexText(p.s)) else Ok(0))
    else
      var underscore := PyIn("_", p);
      if underscore.Err? then Err(underscore.error)
      else if underscore.value then Err(AttributeError)
      else Ok(0)
  }

  /** `PlaceholderIndex` follows Python's `"_" in placeholder`, then `.split`, which only a string has. */
  lemma PlaceholderIndexPython(p: Json)
    ensures var underscore := PyIn("_", p);
            (underscore.Err? ==> PlaceholderIndex(p) == Err(underscore.error))
            && (underscore == Ok(false) ==> PlaceholderIndex(p) == Ok(0))
            && (underscore == Ok(true) ==> PlaceholderIndex(p) == if p.JStr? then Ok(IndexText(p.s)) else Err(AttributeError))
  {
    if p.JStr? {
      ContainsChar(p.s, '_');
    }
  }

  /** `int(placeholder.split("_")[-1][:-1]) - 1`, with 0 where `int` raises `ValueError`. */
  function IndexText(s: string): int
  {
    var v := ParseInt(Prefix(LastSegment(s, '_'), -1));
    if v.None? then 0 else v.value - 1
  }

  /** Python's `ids[index]`, negative indices counting from the end. */
  function PyIndex(ids: seq<string>, index: int): (r: Result<string, PyExc>)
    ensures 0 <= index < |ids| ==> r == Ok(ids[index])
    ensures -|ids| <= index < 0 ==> r == Ok(ids[|ids| + index])
    ensures !(-|ids| <= index < |ids|) ==> r == Err(IndexError)
    ensures r.Ok? ==> r.value in ids
  {
    if 0 <= index < |ids| then Ok(ids[index])
    else if -|ids| <= index < 0 then Ok(ids[|ids| + index])
    else Err(IndexError)
  }

  /** The arguments after placeholder substitution. */
  datatype Resolved = Resolved(args: Dict) | Halted(reason: StopReason) | Raised(exc: PyExc)

  function Substitute(args: Dict, ids: seq<string>): Resolved
  {
    var placeholder := Get(args, "offre", JStr(""));
    if !Contains(PyStr(placeholder), MARKER) then Resolved(args)
    else Resolve(args, PlaceholderIndex(placeholder), ids)
  }

  /** The replacement of `offre` by the id at `index`, or why there is none. */
  function Resolve(args: Dict, index: Result<int, PyExc>, ids: seq<string>): Resolved
  {
    if index.Err? then Raised(index.error)
    else if index.value >= |ids| then Halted(OfferIndexMissing(index.value))
    else
      var id := PyIndex(ids, index.value);
      if id.Err? then Raised(id.error) else Resolved(Put(args, "offre", JStr(id.value)))
  }

  /** The `--key value` pairs of an ordinary command, two words per argument, in the order of the arguments. */
  function Flags(args: Dict): (r: seq<string>)
    ensures |r| == 2 * |args|
  {
    if args == [] then [] else ["--" + ReplaceChar(args[0].0, '_', '-'), PyStr(args[0].1)] + Flags(args[1..])
  }

  /** The words for argument `i`: its key with underscores turned into dashes after `--`, then `str` of its value. */
  lemma {:induction false} FlagsAt(args: Dict, i: nat)
    requires i < |args|
    ensures Flags(args)[2 * i] == "--" + ReplaceChar(args[i].0, '_', '-')
    ensures Flags(args)[2 * i + 1] == PyStr(args[i].1)
  {
    if i > 0 {
      FlagsAt(args[1..], i - 1);
      assert args[1..][i - 1] == args[i];
    }
  }

  /** The test of the fallback loop of `suivi save`: a string value longer than five characters. */
  function LongString(entry: (string, Json)): Option<string>
  {
    if entry.1.JStr? && |entry.1.s| > 5 then Some(entry.1.s) else None
  }

  /** The command line a step runs, or why it cannot run. */
  datatype Command = Launch(argv: seq<string>) | NoId | BadArgument

  /** The offer id `suivi save` uses: `offre` when truthy, else the first long string value. */
  function SaveTarget(args: Dict): Json
  {
    var offre := Get(args, "offre", JNull);
    if Truthy(offre) then offre
    else
      var fallback := FirstSome(args, LongString);
      if fallback.Some? then JStr(fallback.value) else offre
  }

  /** The command line of a step whose arguments are resolved. */
  function CommandFor(name: string, args: Dict): Command
  {
    var commandName := ReplaceChar(name, '_', ' ');
    if commandName == "suivi save" then
      var target := SaveTarget(args);
      if !Truthy(target) then NoId
      else if !target.JStr? then BadArgument      // `subprocess.run` refuses a non-string argument
      else Launch(["ftcli", "suivi", "save", target.s])
    else Launch(["ftcli"] + Words(commandName) + Flags(args))
  }

  /** What one step does to the plan. */
  datatype StepResult = Next(ran: seq<string>, ids: seq<string>) | Halt(attempted: Option<seq<string>>, reason: StopReason) | Raise(exc: PyExc)

  /** The offer ids after a successful step: a `search` replaces them with the ids of its output. */
  function IdsAfter(name: string, ids: seq<string>, stdout: string): seq<string>
  {
    if name == "search" then FindIds(stdout) else ids
  }

  /**
   * One pass of the execution loop. An action the display loop would reject
   * (a non-string name or non-dict arguments) raises `AttributeError` here too.
   */
  function Step(action: Json, ids: seq<string>, i: nat, run: (nat, seq<string>) -> Run): StepResult
  {
    if !Shaped(action) then Raise(AttributeError)
    else
    var resolved := Substitute(ArgsOf(action), ids);
    if resolved.Raised? then Raise(resolved.exc)
    else if resolved.Halted? then Halt(None, resolved.reason)
    else
      var command := CommandFor(NameOf(action), resolved.args);
      if command.NoId? then Halt(None, NoOfferId)
      else if command.BadArgument? then Halt(None, StepRaised)
      else
        var outcome := run(i, command.argv);
        if outcome.RunRaised? then Halt(Some(command.argv), StepRaised)
        else if outcome.code != 0 then Halt(Some(command.argv), StepFailed(outcome.code))
        else Next(command.argv, IdsAfter(NameOf(action), ids, outcome.stdout))
  }

  // ---------------------------------------------------------------------------
  // The loop

  predicate AllShaped(plan: seq<Json>)
  {
    forall i :: 0 <= i < |plan| ==> Shaped(plan[i])
  }

  /** `cmds` run before the rest of the trace `t`. */
  function After(cmds: seq<seq<string>>, t: Trace): Trace
  {
    Trace(cmds + t.commands, t.end)
  }

  /**
   * The loop over the actions from `i` on, with the offer ids `ids` known,
   * given what one pass does: it goes on after `Next` and ends at the first
   * `Halt` (a `break`) or `Raise`.
   */
  function Drive(plan: seq<Json>, step: (Json, nat, seq<string>) -> StepResult, i: nat, ids: seq<string>): Trace
    decreases |plan| - i
  {
    if i >= |plan| then Trace([], Completed)
    else
      match step(plan[i], i, ids)
      case Next(argv, ids') => After([argv], Drive(plan, step, i + 1, ids'))
      case Halt(attempted, reason) => Trace(if attempted.Some? then [attempted.value] else [], Stopped(i, reason))
      case Raise(exc) => Trace([], Crashed(i, exc))
  }

  /** The pass of the execution loop, with the subprocess outcomes `run`. */
  function StepWith(run: (nat, seq<string>) -> Run): (Json, nat, seq<string>) -> StepResult
  {
    (action: Json, i: nat, ids: seq<string>) => Step(action, ids, i, run)
  }

  /** The execution of the plan from step `i` on. */
  function ExecFrom(plan: seq<Json>, run: (nat, seq<string>) -> Run, i: nat, ids: seq<string>): Trace
  {
    Drive(plan, StepWith(run), i, ids)
  }

  /** The loop `for key, value in arguments.items()` that extends the command line. */
  method AppendFlags(command: seq<string>, args: Dict) returns (r: seq<string>)
    ensures r == command + Flags(args)
  {
    r := command;
    var i := 0;
    while i < |args|
      invariant 0 <= i <= |args|
      invariant r + Flags(args[i..]) == command + Flags(args)
    {
      assert args[i..][1..] == args[i + 1..];
      var key := args[i].0;
      r := r + ["--" + ReplaceChar(key, '_', '-')];
      r := r + [PyStr(args[i].1)];
      i := i + 1;
    }
    assert args[i..] == [];
  }

  /** The fallback loop of `suivi save` over `arguments.values()`, stopping at the first long string. */
  method FindLongString(args: Dict) returns (r: Option<string>)
    ensures r == FirstSome(args, LongString)
  {
    var i := 0;
    while i < |args|
      invariant 0 <= i <= |args|
      invariant FirstSome(args[i..], LongString) == FirstSome(args, LongString)
    {
      assert args[i..][1..] == args[i + 1..];
      var value := args[i].1;
      if value.JStr? && |value.s| > 5 {
        return Some(value.s);
      }
      i := i + 1;
    }
    assert args[i..] == [];
    return None;
  }

  /** Building `command_list` for one step. */
  method BuildCommand(name: string, args: Dict) returns (c: Command)
    ensures c == CommandFor(name, args)
  {
    var commandName := ReplaceChar(name, '_', ' ');
    if commandName == "suivi save" {
      var target := Get(args, "offre", JNull);
      if !Truthy(target) {
        var fallback := FindLongString(args);
        if fallback.Some? {
          target := JStr(fallback.value);
        }
      }
      if !Truthy(target) {
        return NoId;
      }
      if !target.JStr? {
        return BadArgument;
      }
      return Launch(["ftcli", "suivi", "save", target.s]);
    }
    var argv := AppendFlags(["ftcli"] + Words(commandName), args);
    return Launch(argv);
  }

  /** One pass of the execution loop: substitution, the command line, the subprocess, and the ids of a `search`. */
  method PerformStep(action: Json, ids: seq<string>, i: nat, run: (nat, seq<string>) -> Run) returns (r: StepResult)
    ensures r == Step(action, ids, i, run)
  {
    if !Shaped(action) {
      return Raise(AttributeError);
    }
    var resolved := Substitute(ArgsOf(action), ids);
    if resolved.Raised? {
      return Raise(resolved.exc);
    }
    if resolved.Halted? {
      return Halt(None, resolved.reason);
    }
    var command := BuildCommand(NameOf(action), resolved.args);
    if command.NoId? {
      return Halt(None, NoOfferId);
    }
    if command.BadArgument? {
      return Halt(None, StepRaised);
    }
    var outcome := run(i, command.argv);
    if outcome.RunRaised? {
      return Halt(Some(command.argv), StepRaised);
    }
    if outcome.code != 0 {
      return Halt(Some(command.argv), StepFailed(outcome.code));
    }
    var ids' := ids;
    if NameOf(action) == "search" {
      ids' := [];
      var found := FindIds(outcome.stdout);
      if found != [] {
        ids' := found;
      }
    }
    return Next(command.argv, ids');
  }

  /** The execution loop of `agent`, from `context = {"ID_OFFRE_LIST": []}` to the first `break`. */
  method RunPlan(plan: seq<Json>, run: (nat, seq<string>) -> Run) returns (t: Trace)
    ensures t == ExecFrom(plan, run, 0, [])
  {
    var ids: seq<string> := [];
    var commands: seq<seq<string>> := [];
    var i := 0;
    while i < |plan|
      invariant 0 <= i <= |plan|
      invariant ExecFrom(plan, run, 0, []) == After(commands, ExecFrom(plan, run, i, ids))
    {
      var step := PerformStep(plan[i], ids, i, run);
      assert StepWith(run)(plan[i], i, ids) == step;
      if step.Raise? {
        return After(commands, Trace([], Crashed(i, step.exc)));
      }
      if step.Halt? {
        return After(commands, Trace(if step.attempted.Some? then [step.attempted.value] else [], Stopped(i, step.reason)));
      }
      var rest := ExecFrom(plan, run, i + 1, step.ids);
      assert commands + ([step.ran] + rest.commands) == (commands + [step.ran]) + rest.commands;
      commands := commands + [step.ran];
      ids := step.ids;
      i := i + 1;
    }
    return After(commands, Trace([], Completed));
  }

  // ---------------------------------------------------------------------------
  // What the executor promises

  /** `<ID_A_REMPLACER_k>` with k >= 1 names the k-th id. */
  lemma PlaceholderNamesIndex(k: int)
    requires k >= 1
    ensures PlaceholderIndex(JStr(MARKER + ("_" + IntToString(k) + ">"))) == Ok(k - 1)
  {
    MarkedIndex("_" + IntToString(k) + ">");
    NumberedIndexText(k);
  }

  /**
   * A string starting with the marker passes the `in` test and has an
   * underscore, so its index is read from its text.
   */
  lemma MarkedIndex(tail: string)
    ensures Contains(MARKER + tail, MARKER)
    ensures PlaceholderIndex(JStr(MARKER + tail)) == Ok(IndexText(MARKER + tail))
  {
    assert OccursAt(MARKER + tail, MARKER, 0);
    assert (MARKER + tail)[3] == '_';
  }

  /** The number of `<ID_A_REMPLACER_k>`, minus one. */
  lemma NumberedIndexText(k: int)
    requires k >= 1
    ensures IndexText(MARKER + ("_" + IntToString(k) + ">")) == k - 1
  {
    PlaceholderSuffix(IntToString(k));
    IntRoundTrip(k);
  }

  /** The text between the last `_` of a placeholder and its final `>`. */
  lemma PlaceholderSuffix(digits: string)
    requires AllDigits(digits)
    ensures Prefix(LastSegment(MARKER + ("_" + digits + ">"), '_'), -1) == digits
  {
    var tail := digits + ">";
    assert '_' !in tail by {
      assert forall c :: 0 <= c < |digits| ==> tail[c] == digits[c] && IsDigit(digits[c]);
    }
    assert MARKER + ("_" + digits + ">") == MARKER + ("_" + tail);
    LastSegmentAfter(MARKER, tail);
    assert tail[..|tail| - 1] == digits;
  }

  /** The text after the last `_` of `a + "_" + b`, when `b` has none. */
  lemma {:induction false} LastSegmentAfter(a: string, b: string)
    requires '_' !in b
    ensures LastSegment(a + ("_" + b), '_') == b
    decreases |b|
  {
    var s := a + ("_" + b);
    if b == [] {
      assert s[|s| - 1] == '_';
    } else {
      var b', last := b[..|b| - 1], b[|b| - 1];
      assert b == b' + [last];
      assert '_' !in b' && last != '_';
      assert s == a + ("_" + b') + [last];
      assert s[..|s| - 1] == a + ("_" + b');
      LastSegmentAfter(a, b');
    }
  }

  /** A placeholder whose suffix is not a number falls back to the first id. */
  lemma PlaceholderFallback(suffix: string)
    requires '_' !in suffix && ParseInt(Prefix(suffix, -1)).None?
    ensures PlaceholderIndex(JStr(MARKER + ("_" + suffix))) == Ok(0)
  {
    MarkedIndex("_" + suffix);
    LastSegmentAfter(MARKER, suffix);
  }

  /**
   * A placeholder argument is replaced by the id it names, in place, when
   * that id is known; otherwise the plan stops at this step.
   */
  lemma PlaceholderSubstituted(args: Dict, ids: seq<string>, index: nat)
    requires Contains(PyStr(Get(args, "offre", JStr(""))), MARKER)
    requires PlaceholderIndex(Get(args, "offre", JStr(""))) == Ok(index)
    ensures index < |ids| ==> Substitute(args, ids) == Resolved(Put(args, "offre", JStr(ids[index])))
    ensures index >= |ids| ==> Substitute(args, ids) == Halted(OfferIndexMissing(index))
  {
  }

  /** `suivi save` runs with the id from `offre`, or from the first long string, and nothing else. */
  lemma SuiviSaveCommand(name: string, args: Dict)
    requires ReplaceChar(name, '_', ' ') == "suivi save"
    ensures var c := CommandFor(name, args);
            (c.Launch? <==> SaveTarget(args).JStr? && SaveTarget(args).s != "")
            && (c.Launch? ==> c.argv == ["ftcli", "suivi", "save", SaveTarget(args).s])
            && (c.NoId? <==> !Truthy(SaveTarget(args)))
  {
  }

  /** The id `suivi save` picks: a truthy `offre` wins; otherwise the first string value longer than five characters. */
  lemma SaveTargetChoice(args: Dict)
    ensures var offre := Get(args, "offre", JNull);
            var t := SaveTarget(args);
            (Truthy(offre) ==> t == offre)
            && (!Truthy(offre) && t.JStr? && |t.s| > 5 ==>
                  exists k :: 0 <= k < |args| && args[k].1 == t && forall j :: 0 <= j < k ==> LongString(args[j]).None?)
            && (!Truthy(offre) && (forall j :: 0 <= j < |args| ==> LongString(args[j]).None?) ==> t == offre)
  {
    FirstSomeSpec(args, LongString);
    var offre := Get(args, "offre", JNull);
    if !Truthy(offre) && FirstSome(args, LongString).Some? {
      var k :| 0 <= k < |args| && LongString(args[k]) == FirstSome(args, LongString)
               && forall j :: 0 <= j < k ==> LongString(args[j]).None?;
      assert args[k].1 == SaveTarget(args);
    }
  }

  /** Whatever one pass does, a loop that reaches the end made one pass per action, each a `Next` satisfying what every `Next` satisfies. */
  lemma {:induction false} DriveCompleted(plan: seq<Json>, step: (Json, nat, seq<string>) -> StepResult,
                                          ok: (nat, seq<string>) -> bool, i: nat, ids: seq<string>)
    requires i <= |plan|
    requires forall a, j, ids' :: step(a, j, ids').Next? ==> ok(j, step(a, j, ids').ran)
    requires Drive(plan, step, i, ids).end == Completed
    ensures var t := Drive(plan, step, i, ids);
            |t.commands| == |plan| - i && forall k :: 0 <= k < |t.commands| ==> ok(i + k, t.commands[k])
    decreases |plan| - i
  {
    if i < |plan| {
      var r := step(plan[i], i, ids);
      var t := Drive(plan, step, i, ids);
      assert r.Next?;
      var rest := Drive(plan, step, i + 1, r.ids);
      assert t == After([r.ran], rest);
      DriveCompleted(plan, step, ok, i + 1, r.ids);
      forall k | 1 <= k < |t.commands| ensures ok(i + k, t.commands[k]) {
        assert t.commands[k] == rest.commands[k - 1];
        assert i + k == (i + 1) + (k - 1);
      }
    }
  }

  /** The condition a subprocess outcome must meet for the loop to go on. */
  predicate ExitedCleanly(run: (nat, seq<string>) -> Run, i: nat, argv: seq<string>)
  {
    run(i, argv).Exited? && run(i, argv).code == 0
  }

  /** A pass that lets the loop go on ran its command line, which exited with code 0. */
  lemma NextExitedCleanly(run: (nat, seq<string>) -> Run)
    ensures forall a, j, ids :: StepWith(run)(a, j, ids).Next? ==> ExitedCleanly(run, j, StepWith(run)(a, j, ids).ran)
  {
    forall a, j, ids | StepWith(run)(a, j, ids).Next? ensures ExitedCleanly(run, j, StepWith(run)(a, j, ids).ran) {
      assert StepWith(run)(a, j, ids) == Step(a, ids, j, run);
    }
  }

  /** A plan that runs to the end ran one command per action, in order, each exiting with code 0. */
  lemma CompletedRanAll(plan: seq<Json>, run: (nat, seq<string>) -> Run, ids: seq<string>)
    requires ExecFrom(plan, run, 0, ids).end == Completed
    ensures var t := ExecFrom(plan, run, 0, ids);
            |t.commands| == |plan| && forall k :: 0 <= k < |plan| ==> ExitedCleanly(run, k, t.commands[k])
  {
    NextExitedCleanly(run);
    DriveCompleted(plan, StepWith(run), (j: nat, argv: seq<string>) => ExitedCleanly(run, j, argv), 0, ids);
  }

  /** Whatever one pass does, nothing runs after the step at which the loop stopped or crashed. */
  lemma {:induction false} NothingAfterStop(plan: seq<Json>, step: (Json, nat, seq<string>) -> StepResult, i: nat, ids: seq<string>)
    requires Drive(plan, step, i, ids).end != Completed
    ensures var t := Drive(plan, step, i, ids);
            i <= t.end.step < |plan| && |t.commands| <= t.end.step - i + 1
            && (t.end.Crashed? ==> |t.commands| == t.end.step - i)
    decreases |plan| - i
  {
    if i < |plan| {
      var r := step(plan[i], i, ids);
      if r.Next? {
        NothingAfterStop(plan, step, i + 1, r.ids);
      }
    }
  }

  /** A successful `search` replaces the known ids by those of its output; any other step keeps them. */
  lemma SearchResetsIds(action: Json, ids: seq<string>, i: nat, run: (nat, seq<string>) -> Run)
    requires Shaped(action) && Step(action, ids, i, run).Next?
    ensures var step := Step(action, ids, i, run);
            run(i, step.ran) == Exited(0, run(i, step.ran).stdout)
            && step.ids == if NameOf(action) == "search" then FindIds(run(i, step.ran).stdout) else ids
  {
  }

  // ---------------------------------------------------------------------------
  // The whole command

  /** How `agent` ends. */
  datatype AgentEnd =
    | Refused(message: string)     // the planner answered `{"error": ...}`: exit code 1
    | NoPlan                       // an empty plan: exit code 1
    | Cancelled                    // the user declined the plan
    | Executed(trace: Trace)
    | AgentCrash(exc: PyExc)

  /**
   * `agent`: the planner's answer, then the display of the plan (whose
   * `.replace` and `.items()` raise on a non-string name or non-dict
   * arguments), the confirmation, and the execution.
   */
  function Agent(planned: PlanOutcome, confirmed: bool, run: (nat, seq<string>) -> Run): (r: AgentEnd)
    ensures r.Executed? ==> confirmed && planned.PlanOk? && planned.plan != [] && AllShaped(planned.plan)
  {
    match planned
    case Crash(exc) => AgentCrash(exc)
    case PlanError(message) => Refused(message)
    case PlanOk(plan) =>
      if plan == [] then NoPlan
      else if !AllShaped(plan) then AgentCrash(AttributeError)
      else if !confirmed then Cancelled
      else Executed(ExecFrom(plan, run, 0, []))
  }
}

=== FILE: auth.dfy ===
/**
 * The bearer-token holder of `ftcli/auth.py` and `auth.py`: an OAuth 2.0
 * client-credentials client (section 4.4 of RFC 6749) that keeps the last
 * access token and the time it stops being used, and asks for a new token
 * only when there is none or the stored one has expired.
 *
 * Both files define the same class; they differ in the safety margin taken
 * off the lifetime, in what happens when the reply has no `expires_in`, and
 * in the requested scope. `Variant` carries those differences.
 */
module TokenHolder {
  import opened Common
  import opened Json
  import opened Http

  /**
   * `margin`: seconds subtracted from `expires_in` when the expiry is written.
   * `defaultExpiresIn`: the default of `data.get("expires_in", ...)`, or
   * `None` when the code subscripts `data["expires_in"]` instead.
   */
  datatype Variant = Variant(margin: int, defaultExpiresIn: Option<int>, scope: string)

  /** `ftcli/auth.py` */
  const PACKAGE_AUTH := Variant(60, Some(3600), "api_offresdemploiv2 o2dsoffre api_labonneboitev2")

  /** `auth.py` */
  const ROOT_AUTH := Variant(30, None, "api_offresdemploiv2 o2dsoffre")

  /** The two fields the holder updates: the token (`None` is `JNull`) and its expiry time. */
  datatype TokenState = TokenState(token: Json, expiresAt: int)

  /** The state `__init__` leaves behind. */
  const RESET := TokenState(JNull, 0)

  /** `if not value`: an unset or empty environment variable. */
  predicate Missing(value: Option<string>)
  {
    value.None? || value.value == ""
  }

  /** `self._token is None or time.time() >= self._expires_at` */
  predicate NeedsRefresh(s: TokenState, now: int)
  {
    s.token == JNull || now >= s.expiresAt
  }

  function EnvValue(value: Option<string>): Json
  {
    if value.Some? then JStr(value.value) else JNull
  }

  /** The form body of the token request. */
  function RefreshPayload(v: Variant, clientId: Option<string>, clientSecret: Option<string>): (r: Dict)
    ensures DistinctKeys(r)
    ensures Lookup(r, "grant_type") == Some(JStr("client_credentials"))
    ensures Lookup(r, "client_id") == Some(EnvValue(clientId))
    ensures Lookup(r, "client_secret") == Some(EnvValue(clientSecret))
    ensures Lookup(r, "scope") == Some(JStr(v.scope))
    ensures KeySet(r) == {"grant_type", "client_id", "client_secret", "scope"}
  {
    var r := [("grant_type", JStr("client_credentials")), ("client_id", EnvValue(clientId)),
              ("client_secret", EnvValue(clientSecret)), ("scope", JStr(v.scope))];
    assert r[0].0 == "grant_type" && r[1].0 == "client_id" && r[2].0 == "client_secret" && r[3].0 == "scope";
    r
  }

  /** The `expires_in` the code reads from a decoded reply. */
  function ExpiresIn(v: Variant, data: Json): (r: Result<Json, PyExc>)
    requires data.JObj?
    ensures v.defaultExpiresIn.Some? ==> r == Ok(if HasKey(data.fields, "expires_in") then Lookup(data.fields, "expires_in").value else JInt(v.defaultExpiresIn.value))
    ensures v.defaultExpiresIn.None? ==> r == PySubscript(data, "expires_in")
  {
    match v.defaultExpiresIn
    case Some(d) => PyGet(data, "expires_in", JInt(d))
    case None => PySubscript(data, "expires_in")
  }

  /**
   * `_refresh`: the new state and whether it raised. The token is written
   * before `expires_in` is read, so a failure there keeps the new token with
   * the old expiry.
   */
  function RefreshStep(v: Variant, s: TokenState, now: int, reply: Reply): (TokenState, Result<(), Failure>)
  {
    match HttpxJson(reply)
    case Err(f) => (s, Err(f))
    case Ok(data) =>
      match PySubscript(data, "access_token")
      case Err(e) => (s, Err(PyError(e)))
      case Ok(token) =>
        match ExpiresIn(v, data)
        case Err(e) => (s.(token := token), Err(PyError(e)))
        case Ok(e) =>
          if IsPyInt(e) then (TokenState(token, now + PyIntValue(e) - v.margin), Ok(()))
          else (s.(token := token), Err(PyError(TypeError)))
  }

  /**
   * `get_token`: refresh when needed, then return the stored token. The
   * clock is read twice: `now` for the expiry check, and `later` by
   * `_refresh` once the token reply has come back.
   */
  function GetTokenStep(v: Variant, s: TokenState, now: int, later: int, reply: Reply): (TokenState, Result<Json, Failure>)
  {
    if NeedsRefresh(s, now) then
      var (s', out) := RefreshStep(v, s, later, reply);
      (s', if out.Err? then Err(out.error) else Ok(s'.token))
    else (s, Ok(s.token))
  }

  class Auth {
    const variant: Variant
    var token: Json
    var expiresAt: int
    var clientId: Option<string>
    var clientSecret: Option<string>

    function State(): TokenState
      reads this
    {
      TokenState(token, expiresAt)
    }

    /** `super().__new__(cls)`: an object whose `__init__` has not run yet. */
    constructor (variant: Variant)
      ensures this.variant == variant && State() == RESET
      ensures clientId == None && clientSecret == None
    {
      this.variant := variant;
      token := JNull;
      expiresAt := 0;
      clientId := None;
      clientSecret := None;
    }

    /** `__init__`: reset the token, read the credentials, refuse missing ones. */
    method Init(envId: Option<string>, envSecret: Option<string>) returns (ok: bool)
      modifies this
      ensures State() == RESET
      ensures clientId == envId && clientSecret == envSecret
      ensures ok <==> !Missing(envId) && !Missing(envSecret)
    {
      token := JNull;
      expiresAt := 0;
      clientId := envId;
      clientSecret := envSecret;
      ok := !Missing(clientId) && !Missing(clientSecret);
    }

    /** `_refresh`, given the token endpoint's reply and the clock reading taken after it. */
    method Refresh(now: int, reply: Reply) returns (out: Result<(), Failure>)
      modifies this`token, this`expiresAt
      ensures (State(), out) == RefreshStep(variant, old(State()), now, reply)
    {
      var decoded := HttpxJson(reply);
      if decoded.Err? {
        return Err(decoded.error);
      }
      var data := decoded.value;
      var access := PySubscript(data, "access_token");
      if access.Err? {
        return Err(PyError(access.error));
      }
      token := access.value;
      var e := ExpiresIn(variant, data);
      if e.Err? {
        return Err(PyError(e.error));
      }
      if !IsPyInt(e.value) {
        return Err(PyError(TypeError));
      }
      expiresAt := now + PyIntValue(e.value) - variant.margin;
      out := Ok(());
    }

    /** `get_token`: `now` is the clock at the check, `later` the one `_refresh` reads. */
    method GetToken(now: int, later: int, reply: Reply) returns (r: Result<Json, Failure>)
      modifies this`token, this`expiresAt
      ensures (State(), r) == GetTokenStep(variant, old(State()), now, later, reply)
    {
      if token == JNull || now >= expiresAt {
        var out := Refresh(later, reply);
        if out.Err? {
          return Err(out.error);
        }
      }
      r := Ok(token);
    }
  }

  /** The class attribute `_instance` behind the singleton `__new__`. */
  class AuthSlot {
    const variant: Variant
    var instance: Auth?

    /** The stored instance is one of this class. */
    predicate Valid()
      reads this, instance
    {
      instance != null ==> instance.variant == variant
    }

    constructor (variant: Variant)
      ensures this.variant == variant && instance == null && Valid()
    {
      this.variant := variant;
      instance := null;
    }

    /**
     * `Auth()`: the first call creates the instance, every call re-runs
     * `__init__` on it. When the credentials are missing the call raises, but
     * the instance has been reset all the same.
     */
    method Obtain(envId: Option<string>, envSecret: Option<string>) returns (r: Option<Auth>)
      requires Valid()
      modifies this, instance
      ensures Valid()
      ensures instance != null && instance.variant == variant
      ensures old(instance) != null ==> instance == old(instance)
      ensures old(instance) == null ==> fresh(instance)
      ensures instance.State() == RESET
      ensures instance.clientId == envId && instance.clientSecret == envSecret
      ensures r.Some? <==> !Missing(envId) && !Missing(envSecret)
      ensures r.Some? ==> r.value == instance
    {
      if instance == null {
        instance := new Auth(variant);
      }
      var a: Auth := instance;
      var ok := a.Init(envId, envSecret);
      r := if ok then Some(a) else None;
    }
  }

  /** A reply that `raise_for_status` or `resp.json()` rejects leaves the token and the expiry as they were. */
  lemma RejectedReplyKeepsState(v: Variant, s: TokenState, now: int, reply: Reply)
    requires !(reply.Response? && HttpxAccepts(reply.status) && reply.body.Parsed?)
    ensures RefreshStep(v, s, now, reply).0 == s
    ensures RefreshStep(v, s, now, reply).1.Err?
  {
  }

  /** A well-formed reply sets the token and the expiry `expires_in - margin` seconds from now. */
  lemma RefreshWritesExpiry(v: Variant, s: TokenState, now: int, status: int, d: Dict, token: Json, e: int)
    requires HttpxAccepts(status)
    requires Lookup(d, "access_token") == Some(token) && Lookup(d, "expires_in") == Some(JInt(e))
    ensures RefreshStep(v, s, now, Response(status, Parsed(JObj(d)))) == (TokenState(token, now + e - v.margin), Ok(()))
  {
  }

  /** `ftcli/auth.py`: without `expires_in` the token is taken to last 3600 s, hence used for 3540 s. */
  lemma PackageDefaultLifetime(s: TokenState, now: int, status: int, d: Dict, token: Json)
    requires HttpxAccepts(status)
    requires Lookup(d, "access_token") == Some(token) && !HasKey(d, "expires_in")
    ensures RefreshStep(PACKAGE_AUTH, s, now, Response(status, Parsed(JObj(d)))) == (TokenState(token, now + 3540), Ok(()))
  {
  }

  /** `auth.py`: without `expires_in` the new token is stored, the expiry is not, and `KeyError` escapes. */
  lemma RootMissingLifetime(s: TokenState, now: int, status: int, d: Dict, token: Json)
    requires HttpxAccepts(status)
    requires Lookup(d, "access_token") == Some(token) && !HasKey(d, "expires_in")
    ensures RefreshStep(ROOT_AUTH, s, now, Response(status, Parsed(JObj(d)))) == (TokenState(token, s.expiresAt), Err(PyError(KeyError)))
  {
  }

  /**
   * `get_token` asks the endpoint iff there is no token or it has expired at
   * the first clock reading, the expiry then counting from the second;
   * otherwise it returns the stored one.
   */
  lemma RefreshRule(v: Variant, s: TokenState, now: int, later: int, reply: Reply)
    ensures NeedsRefresh(s, now) ==> GetTokenStep(v, s, now, later, reply).0 == RefreshStep(v, s, later, reply).0
    ensures !NeedsRefresh(s, now) ==> GetTokenStep(v, s, now, later, reply) == (s, Ok(s.token))
  {
  }

  /**
   * Two calls inside the validity window: once the first has stored a token,
   * the second neither refreshes nor returns anything else.
   */
  lemma AtMostOneRefresh(v: Variant, s: TokenState, t1: int, l1: int, t2: int, l2: int, reply1: Reply, reply2: Reply)
    requires GetTokenStep(v, s, t1, l1, reply1).1.Ok?
    requires GetTokenStep(v, s, t1, l1, reply1).0.token != JNull
    requires t2 < GetTokenStep(v, s, t1, l1, reply1).0.expiresAt
    ensures var (s1, r1) := GetTokenStep(v, s, t1, l1, reply1);
            GetTokenStep(v, s1, t2, l2, reply2) == (s1, r1)
  {
  }

  /** After `Auth()` the next `get_token` always asks the endpoint. */
  lemma ResetForcesRefresh(now: int)
    ensures NeedsRefresh(RESET, now)
  {
  }
}

=== FILE: cache.dfy ===
/**
 * The request cache of `ftcli/cache.py`: a key derived from the URL and the
 * sorted-key JSON text of the query parameters, hashed; a persistent store of
 * values with a per-entry expiry; and a get-or-compute wrapper over both.
 *
 * MD5 is an arbitrary function of the hashed text, and the clock is an
 * integer number of seconds passed in by the caller.
 */
module RequestCache {
  import opened Common
  import opened Json
  import opened JsonText
  import opened Http

  /** `DEFAULT_TTL = 60 * 45` seconds. */
  const DEFAULT_TTL: int := 60 * 45

  /** `if params:` -- `None` and `{}` are both false. */
  predicate HasParams(params: Option<Dict>)
  {
    params.Some? && params.value != []
  }

  /** The text fed to the hash: the URL, then the sorted-key JSON of non-empty parameters. */
  function KeyText(url: string, params: Option<Dict>): (r: string)
    ensures !HasParams(params) ==> r == url
    ensures HasParams(params) ==> r == url + Dumps(JObj(params.value), SORTED)
    ensures |r| >= |url| && r[..|url|] == url
    ensures r == url <==> !HasParams(params)
    ensures HasParams(params) ==> r[|url|] == '{' && r[|r| - 1] == '}'
  {
    if HasParams(params) then url + Dumps(JObj(params.value), SORTED) else url
  }

  /** `_make_key(url, params)`: successive `update`s of one digest hash the concatenation. */
  function MakeKey(md5: string -> string, url: string, params: Option<Dict>): string
  {
    md5(KeyText(url, params))
  }

  /** `None` and `{}` both give the key of the URL alone. */
  lemma NoParamsKey(md5: string -> string, url: string)
    ensures MakeKey(md5, url, None) == MakeKey(md5, url, Some([])) == md5(url)
  {
  }

  /**
   * Two parameter dictionaries that are equal as Python dictionaries give the
   * same key, whatever order their entries were inserted in.
   */
  lemma KeyIgnoresInsertionOrder(md5: string -> string, url: string, p1: Dict, p2: Dict)
    requires DistinctKeys(p1) && DistinctKeys(p2) && ToMap(p1) == ToMap(p2)
    ensures MakeKey(md5, url, Some(p1)) == MakeKey(md5, url, Some(p2))
  {
    if p1 != [] { assert p1[0].0 in KeySet(p1); }
    if p2 != [] { assert p2[0].0 in KeySet(p2); }
    if p1 != [] && p2 != [] {
      DumpsSortedIgnoresOrder(p1, p2);
    }
  }

  /** A stored value and its expiry time (`None`: never expires). */
  datatype Entry = Entry(value: Json, expiry: Option<int>)

  /** diskcache treats an entry as gone from its expiry time on. */
  predicate Live(e: Entry, now: int)
  {
    e.expiry.None? || now < e.expiry.value
  }

  /** `_cache.get(key, default=None)` on a store, at time `now`. */
  function Read(store: map<string, Entry>, key: string, now: int): (r: Json)
    ensures key in store && Live(store[key], now) ==> r == store[key].value
    ensures !(key in store && Live(store[key], now)) ==> r == JNull
  {
    if key in store && Live(store[key], now) then store[key].value else JNull
  }

  /** The module-level `_cache` store. */
  class DiskStore {
    const md5: string -> string
    var entries: map<string, Entry>

    /**
     * Opening the store: diskcache finds on disk whatever earlier runs left
     * there, so the entries start as `persisted`.
     */
    constructor (md5: string -> string, persisted: map<string, Entry>)
      ensures this.md5 == md5 && entries == persisted
    {
      this.md5 := md5;
      entries := persisted;
    }

    /** `get(url, params)`: the live value stored under the derived key, or `None`. */
    method Get(url: string, params: Option<Dict>, now: int) returns (r: Json)
      ensures r == Read(entries, MakeKey(md5, url, params), now)
    {
      var key := MakeKey(md5, url, params);
      if key in entries && Live(entries[key], now) {
        r := entries[key].value;
      } else {
        r := JNull;
      }
    }

    /** `set(url, params, value, ttl)`: overwrites the entry, expiring `ttl` seconds from now. */
    method Set(url: string, params: Option<Dict>, value: Json, ttl: int, now: int)
      modifies this
      ensures entries == old(entries)[MakeKey(md5, url, params) := Entry(value, Some(now + ttl))]
    {
      var key := MakeKey(md5, url, params);
      entries := entries[key := Entry(value, Some(now + ttl))];
    }

    /**
     * `cached_request(url, params, coro)`: a live non-`None` value is yielded
     * as is and the producer is not run (`ran` is false); otherwise the
     * producer runs once, and what it returns is stored for `DEFAULT_TTL`
     * seconds and yielded. `produced` is what the producer would return or
     * raise; if it raises, nothing is stored and the exception propagates.
     */
    method CachedRequest(url: string, params: Option<Dict>, now: int, produced: Result<Json, Failure>)
      returns (r: Result<Json, Failure>, ran: bool)
      modifies this
      ensures ran <==> old(Read(entries, MakeKey(md5, url, params), now)) == JNull
      ensures !ran ==> r == Ok(old(Read(entries, MakeKey(md5, url, params), now))) && entries == old(entries)
      ensures ran ==> r == produced
      ensures ran && produced.Ok? ==> entries == old(entries)[MakeKey(md5, url, params) := Entry(produced.value, Some(now + DEFAULT_TTL))]
      ensures ran && produced.Err? ==> entries == old(entries)
    {
      var data := Get(url, params, now);
      ran := data == JNull;
      if ran {
        r := produced;
        if produced.Ok? {
          Set(url, params, produced.value, DEFAULT_TTL, now);
        }
      } else {
        r := Ok(data);
      }
    }
  }

  /** After `set`, `get` with the same URL and parameters returns the value until it expires, then `None`. */
  lemma ReadAfterSet(store: map<string, Entry>, key: string, value: Json, ttl: int, now: int, later: int)
    ensures Read(store[key := Entry(value, Some(now + ttl))], key, later) == if later < now + ttl then value else JNull
  {
  }

  /** `set` under one key leaves every other key as it was. */
  lemma ReadOtherKey(store: map<string, Entry>, key: string, other: string, e: Entry, now: int)
    requires other != key
    ensures Read(store[key := e], other, now) == Read(store, other, now)
  {
  }

  /** A stored `None` reads exactly like a missing entry, so `cached_request` runs the producer again. */
  lemma StoredNoneIsMiss(store: map<string, Entry>, key: string, expiry: Option<int>, now: int)
    ensures Read(store[key := Entry(JNull, expiry)], key, now) == Read(store - {key}, key, now)
  {
  }
}

=== FILE: common.dfy ===
/** Option and Result, the two failure-carrying wrappers the rest of the model uses, and a first-match scan. */
module Common {

  datatype Option<T> = None | Some(value: T)

  /** An operation that either yields a value or raises an error. */
  datatype Result<T, E> = Ok(value: T) | Err(error: E)

  /** The first `Some` that `check` gives along `xs`, scanning in order. */
  function FirstSome<T, R>(xs: seq<T>, check: T -> Option<R>): Option<R>
  {
    if xs == [] then None
    else if check(xs[0]).Some? then check(xs[0]) else FirstSome(xs[1..], check)
  }

  /** `None` iff every element passes; otherwise the answer of an element all of whose predecessors pass. */
  lemma {:induction false} FirstSomeSpec<T, R>(xs: seq<T>, check: T -> Option<R>)
    ensures FirstSome(xs, check).None? <==> forall i :: 0 <= i < |xs| ==> check(xs[i]).None?
    ensures FirstSome(xs, check).Some? ==> exists k :: 0 <= k < |xs| && check(xs[k]) == FirstSome(xs, check)
                                                       && forall j :: 0 <= j < k ==> check(xs[j]).None?
  {
    if xs != [] && check(xs[0]).None? {
      var r := FirstSome(xs[1..], check);
      FirstSomeSpec(xs[1..], check);
      assert forall i :: 1 <= i < |xs| ==> xs[i] == xs[1..][i - 1];
      if r.Some? {
        var k :| 0 <= k < |xs| - 1 && check(xs[1..][k]) == r && forall j :: 0 <= j < k ==> check(xs[1..][j]).None?;
        assert check(xs[k + 1]) == r;
      }
    }
  }
}

=== FILE: database.dfy ===
/**
 * The two tables of `ftcli/database.py`, `cv_analyses` and `tracked_offers`,
 * and every function that reads or writes them. Both tables use
 * `INTEGER PRIMARY KEY AUTOINCREMENT`, so a new row gets one more than the
 * largest key the table has ever handed out (SQLite's `sqlite_sequence`
 * entry), and a key is never reused after a delete. `nom_profil` and
 * `offre_id` are `UNIQUE`: an insert that repeats one raises
 * `IntegrityError` and leaves the table as it was.
 *
 * The timestamp `datetime.now().isoformat()` is an input.
 */
module LocalDb {
  import opened Common
  import opened Json
  import opened SqlTable

  /** What `sqlite3` raises here: a table used before `init_db`, or a UNIQUE violation. */
  datatype DbError = NoSuchTable | IntegrityError

  /** A `cv_analyses` row without its key. */
  datatype CvRow = CvRow(nomProfil: string, texteCv: string, analyse: string, createdAt: string)

  /** A `tracked_offers` row without its key; `notes` is NULL until first set. */
  datatype OfferRow = OfferRow(offreId: string, intitule: string, entreprise: string, statut: string,
                               notes: Option<string>, createdAt: string)

  predicate NameTaken(rows: Rows<CvRow>, nom: string)
  {
    exists i :: 0 <= i < |rows| && rows[i].1.nomProfil == nom
  }

  predicate OfferTaken(rows: Rows<OfferRow>, offreId: string)
  {
    exists i :: 0 <= i < |rows| && rows[i].1.offreId == offreId
  }

  predicate UniqueNames(rows: Rows<CvRow>)
  {
    forall i, j :: 0 <= i < j < |rows| ==> rows[i].1.nomProfil != rows[j].1.nomProfil
  }

  predicate UniqueOfferIds(rows: Rows<OfferRow>)
  {
    forall i, j :: 0 <= i < j < |rows| ==> rows[i].1.offreId != rows[j].1.offreId
  }

  /** Every key is at most the largest key ever handed out. */
  predicate Below<T>(rows: Rows<T>, last: int)
  {
    forall i :: 0 <= i < |rows| ==> rows[i].0 <= last
  }

  /** The first row whose `nom_profil` is `nom`. */
  function FindName(rows: Rows<CvRow>, nom: string): (r: Option<nat>)
    ensures r.Some? <==> NameTaken(rows, nom)
    ensures r.Some? ==> r.value < |rows| && rows[r.value].1.nomProfil == nom
  {
    if rows == [] then None
    else if rows[0].1.nomProfil == nom then Some(0)
    else
      var r := FindName(rows[1..], nom);
      assert NameTaken(rows, nom) ==> NameTaken(rows[1..], nom) by {
        if NameTaken(rows, nom) {
          var i :| 0 <= i < |rows| && rows[i].1.nomProfil == nom;
          assert rows[1..][i - 1].1.nomProfil == nom;
        }
      }
      if r.Some? then Some(r.value + 1) else None
  }

  /** `get_profile_by_name`: the `SELECT *` row as a dict. */
  function FullProfileDict(row: (int, CvRow)): (d: Dict)
    ensures DistinctKeys(d)
    ensures Lookup(d, "id") == Some(JInt(row.0)) && Lookup(d, "nom") == Some(JStr(row.1.nomProfil))
    ensures Lookup(d, "texte") == Some(JStr(row.1.texteCv)) && Lookup(d, "analyse") == Some(JStr(row.1.analyse))
    ensures Lookup(d, "created_at") == Some(JStr(row.1.createdAt))
  {
    var d := [("id", JInt(row.0)), ("nom", JStr(row.1.nomProfil)), ("texte", JStr(row.1.texteCv)),
         ("analyse", JStr(row.1.analyse)), ("created_at", JStr(row.1.createdAt))];
    LookupAt(d, 0); LookupAt(d, 1); LookupAt(d, 2); LookupAt(d, 3); LookupAt(d, 4);
    d
  }

  /** `get_profile`: the row as a dict, without the timestamp. */
  function ProfileDict(id: int, row: CvRow): (d: Dict)
    ensures DistinctKeys(d)
    ensures Lookup(d, "id") == Some(JInt(id)) && Lookup(d, "nom") == Some(JStr(row.nomProfil))
    ensures Lookup(d, "texte") == Some(JStr(row.texteCv)) && Lookup(d, "analyse") == Some(JStr(row.analyse))
    ensures !HasKey(d, "created_at")
  {
    var d := [("id", JInt(id)), ("nom", JStr(row.nomProfil)), ("texte", JStr(row.texteCv)), ("analyse", JStr(row.analyse))];
    LookupAt(d, 0); LookupAt(d, 1); LookupAt(d, 2); LookupAt(d, 3);
    d
  }

  /** `get_all_profiles`: key, name and timestamp of one row. */
  function ProfileSummary(row: (int, CvRow)): (d: Dict)
    ensures DistinctKeys(d)
    ensures Lookup(d, "id") == Some(JInt(row.0)) && Lookup(d, "nom") == Some(JStr(row.1.nomProfil))
    ensures Lookup(d, "created_at") == Some(JStr(row.1.createdAt))
  {
    var d := [("id", JInt(row.0)), ("nom", JStr(row.1.nomProfil)), ("created_at", JStr(row.1.createdAt))];
    LookupAt(d, 0); LookupAt(d, 1); LookupAt(d, 2);
    d
  }

  /** A NULL column reads as `None`. */
  function NullableText(v: Option<string>): Json
  {
    if v.Some? then JStr(v.value) else JNull
  }

  /** `get_tracked_offers`: every column of one row. */
  function OfferDict(row: (int, OfferRow)): (d: Dict)
    ensures DistinctKeys(d)
    ensures Lookup(d, "id") == Some(JInt(row.0)) && Lookup(d, "offre_id") == Some(JStr(row.1.offreId))
    ensures Lookup(d, "offre_intitule") == Some(JStr(row.1.intitule)) && Lookup(d, "entreprise") == Some(JStr(row.1.entreprise))
    ensures Lookup(d, "statut") == Some(JStr(row.1.statut)) && Lookup(d, "notes") == Some(NullableText(row.1.notes))
    ensures Lookup(d, "created_at") == Some(JStr(row.1.createdAt))
  {
    var d := [("id", JInt(row.0)), ("offre_id", JStr(row.1.offreId)), ("offre_intitule", JStr(row.1.intitule)),
         ("entreprise", JStr(row.1.entreprise)), ("statut", JStr(row.1.statut)), ("notes", NullableText(row.1.notes)),
         ("created_at", JStr(row.1.createdAt))];
    LookupAt(d, 0); LookupAt(d, 1); LookupAt(d, 2); LookupAt(d, 3); LookupAt(d, 4); LookupAt(d, 5); LookupAt(d, 6);
    d
  }

  /** `get_tracked_offer`: every column but the timestamp. */
  function OfferDetail(id: int, row: OfferRow): (d: Dict)
    ensures DistinctKeys(d)
    ensures Lookup(d, "id") == Some(JInt(id)) && Lookup(d, "offre_id") == Some(JStr(row.offreId))
    ensures Lookup(d, "offre_intitule") == Some(JStr(row.intitule)) && Lookup(d, "entreprise") == Some(JStr(row.entreprise))
    ensures Lookup(d, "statut") == Some(JStr(row.statut)) && Lookup(d, "notes") == Some(NullableText(row.notes))
    ensures !HasKey(d, "created_at")
  {
    var d := [("id", JInt(id)), ("offre_id", JStr(row.offreId)), ("offre_intitule", JStr(row.intitule)),
         ("entreprise", JStr(row.entreprise)), ("statut", JStr(row.statut)), ("notes", NullableText(row.notes))];
    LookupAt(d, 0); LookupAt(d, 1); LookupAt(d, 2); LookupAt(d, 3); LookupAt(d, 4); LookupAt(d, 5);
    d
  }

  /** The file `ftcli.db`. */
  class Database {
    var ready: bool                  // `init_db` has created the tables
    var profiles: Rows<CvRow>        // `cv_analyses`
    var profileSeq: int              // its `sqlite_sequence` entry
    var offers: Rows<OfferRow>       // `tracked_offers`
    var offerSeq: int

    predicate Valid()
      reads this
    {
      Ordered(profiles) && Below(profiles, profileSeq) && profileSeq >= 0 && UniqueNames(profiles)
      && Ordered(offers) && Below(offers, offerSeq) && offerSeq >= 0 && UniqueOfferIds(offers)
      && (!ready ==> profiles == [] && offers == [])
    }

    /** No database file yet. */
    constructor ()
      ensures Valid() && !ready && profiles == [] && offers == [] && profileSeq == 0 && offerSeq == 0
    {
      ready := false;
      profiles := [];
      profileSeq := 0;
      offers := [];
      offerSeq := 0;
    }

    /** `init_db`: `CREATE TABLE IF NOT EXISTS` twice; existing rows and counters are kept. */
    method InitDb()
      requires Valid()
      modifies this
      ensures Valid() && ready
      ensures profiles == old(profiles) && profileSeq == old(profileSeq)
      ensures offers == old(offers) && offerSeq == old(offerSeq)
    {
      ready := true;
    }

    /**
     * `save_cv_analysis`: one new row under a key never used before, which is
     * returned; a name already present violates UNIQUE.
     */
    method SaveCvAnalysis(nom: string, texte: string, analyse: string, createdAt: string)
      returns (r: Result<int, DbError>)
      requires Valid()
      modifies this
      ensures Valid() && ready == old(ready) && offers == old(offers) && offerSeq == old(offerSeq)
      ensures !old(ready) ==> r == Err(NoSuchTable) && profiles == old(profiles) && profileSeq == old(profileSeq)
      ensures old(ready) && NameTaken(old(profiles), nom) ==>
                r == Err(IntegrityError) && profiles == old(profiles) && profileSeq == old(profileSeq)
      ensures old(ready) && !NameTaken(old(profiles), nom) ==>
                r == Ok(old(profileSeq) + 1) && profileSeq == r.value
                && profiles == old(profiles) + [(r.value, CvRow(nom, texte, analyse, createdAt))]
      ensures r.Ok? ==> !HasId(old(profiles), r.value)
    {
      if !ready {
        return Err(NoSuchTable);
      }
      if FindName(profiles, nom).Some? {
        return Err(IntegrityError);
      }
      var id := profileSeq + 1;
      AppendOrdered(profiles, id, CvRow(nom, texte, analyse, createdAt));
      profiles := profiles + [(id, CvRow(nom, texte, analyse, createdAt))];
      profileSeq := id;
      r := Ok(id);
    }

    /** `get_profile_by_name`: the row with that name as a dict, `None` without one. */
    method GetProfileByName(nom: string) returns (r: Result<Option<Dict>, DbError>)
      requires Valid()
      ensures !ready ==> r == Err(NoSuchTable)
      ensures ready ==> r.Ok? && (r.value.Some? <==> NameTaken(profiles, nom))
      ensures ready && r.value.Some? ==>
                exists i :: 0 <= i < |profiles| && profiles[i].1.nomProfil == nom && r.value.value == FullProfileDict(profiles[i])
    {
      if !ready {
        return Err(NoSuchTable);
      }
      var found := FindName(profiles, nom);
      if found.None? {
        return Ok(None);
      }
      r := Ok(Some(FullProfileDict(profiles[found.value])));
    }

    /** `delete_profile`: the row with that key goes, every other row stays in place. */
    method DeleteProfile(id: int) returns (r: Result<(), DbError>)
      requires Valid()
      modifies this
      ensures Valid() && ready == old(ready) && profileSeq == old(profileSeq)
      ensures offers == old(offers) && offerSeq == old(offerSeq)
      ensures !old(ready) ==> r == Err(NoSuchTable) && profiles == old(profiles)
      ensures old(ready) ==> r == Ok(()) && profiles == Delete(old(profiles), id)
    {
      if !ready {
        return Err(NoSuchTable);
      }
      DeleteOrdered(profiles, id);
      var kept := Delete(profiles, id);
      forall i, j | 0 <= i < j < |kept| ensures kept[i].1.nomProfil != kept[j].1.nomProfil {
        var a :| 0 <= a < |profiles| && profiles[a] == kept[i];
        var b :| 0 <= b < |profiles| && profiles[b] == kept[j];
        assert kept[i].0 < kept[j].0;
        assert a != b;
      }
      profiles := kept;
      r := Ok(());
    }

    /** `get_profile`: the row with that key as a dict, `None` without one. */
    method GetProfile(id: int) returns (r: Result<Option<Dict>, DbError>)
      requires Valid()
      ensures !ready ==> r == Err(NoSuchTable)
      ensures ready ==> r.Ok? && (r.value.Some? <==> HasId(profiles, id))
      ensures ready && r.value.Some? ==> r.value.value == ProfileDict(id, Select(profiles, id).value)
    {
      if !ready {
        return Err(NoSuchTable);
      }
      var row := Select(profiles, id);
      r := Ok(if row.Some? then Some(ProfileDict(id, row.value)) else None);
    }

    /** `get_all_profiles`: one summary per row, in key order. */
    method GetAllProfiles() returns (r: Result<seq<Dict>, DbError>)
      requires Valid()
      ensures !ready ==> r == Err(NoSuchTable)
      ensures ready ==> r.Ok? && |r.value| == |profiles|
                        && (forall i :: 0 <= i < |profiles| ==> r.value[i] == ProfileSummary(profiles[i]))
    {
      if !ready {
        return Err(NoSuchTable);
      }
      var rows := profiles;
      r := Ok(seq(|rows|, i requires 0 <= i < |rows| => ProfileSummary(rows[i])));
    }

    /** `save_tracked_offer`: one new row with no notes; a repeated `offre_id` violates UNIQUE. */
    method SaveTrackedOffer(offreId: string, intitule: string, entreprise: string, statut: string, createdAt: string)
      returns (r: Result<(), DbError>)
      requires Valid()
      modifies this
      ensures Valid() && ready == old(ready) && profiles == old(profiles) && profileSeq == old(profileSeq)
      ensures !old(ready) ==> r == Err(NoSuchTable) && offers == old(offers) && offerSeq == old(offerSeq)
      ensures old(ready) && OfferTaken(old(offers), offreId) ==>
                r == Err(IntegrityError) && offers == old(offers) && offerSeq == old(offerSeq)
      ensures old(ready) && !OfferTaken(old(offers), offreId) ==>
                r == Ok(()) && offerSeq == old(offerSeq) + 1
                && offers == old(offers) + [(offerSeq, OfferRow(offreId, intitule, entreprise, statut, None, createdAt))]
    {
      if !ready {
        return Err(NoSuchTable);
      }
      var taken := exists i :: 0 <= i < |offers| && offers[i].1.offreId == offreId;
      if taken {
        return Err(IntegrityError);
      }
      var id := offerSeq + 1;
      var row := OfferRow(offreId, intitule, entreprise, statut, None, createdAt);
      AppendOrdered(offers, id, row);
      offers := offers + [(id, row)];
      offerSeq := id;
      r := Ok(());
    }

    /** `get_tracked_offers`: every row, field for field, in key order. */
    method GetTrackedOffers() returns (r: Result<seq<Dict>, DbError>)
      requires Valid()
      ensures !ready ==> r == Err(NoSuchTable)
      ensures ready ==> r.Ok? && |r.value| == |offers|
                        && (forall i :: 0 <= i < |offers| ==> r.value[i] == OfferDict(offers[i]))
    {
      if !ready {
        return Err(NoSuchTable);
      }
      var rows := offers;
      r := Ok(seq(|rows|, i requires 0 <= i < |rows| => OfferDict(rows[i])));
    }

    /** `update_tracked_offer`: only the `statut` of the row with that key changes. */
    method UpdateTrackedOffer(id: int, statut: string) returns (r: Result<(), DbError>)
      requires Valid()
      modifies this
      ensures Valid() && ready == old(ready) && offerSeq == old(offerSeq)
      ensures profiles == old(profiles) && profileSeq == old(profileSeq)
      ensures !old(ready) ==> r == Err(NoSuchTable) && offers == old(offers)
      ensures old(ready) ==> r == Ok(()) && offers == Modify(old(offers), id, (row: OfferRow) => row.(statut := statut))
    {
      if !ready {
        return Err(NoSuchTable);
      }
      var change := (row: OfferRow) => row.(statut := statut);
      ModifyOrdered(offers, id, change);
      offers := Modify(offers, id, change);
      r := Ok(());
    }

    /** `update_tracked_offer_notes`: only the `notes` of the row with that key change. */
    method UpdateTrackedOfferNotes(id: int, notes: string) returns (r: Result<(), DbError>)
      requires Valid()
      modifies this
      ensures Valid() && ready == old(ready) && offerSeq == old(offerSeq)
      ensures profiles == old(profiles) && profileSeq == old(profileSeq)
      ensures !old(ready) ==> r == Err(NoSuchTable) && offers == old(offers)
      ensures old(ready) ==> r == Ok(()) && offers == Modify(old(offers), id, (row: OfferRow) => row.(notes := Some(notes)))
    {
      if !ready {
        return Err(NoSuchTable);
      }
      var change := (row: OfferRow) => row.(notes := Some(notes));
      ModifyOrdered(offers, id, change);
      offers := Modify(offers, id, change);
      r := Ok(());
    }

    /** `get_tracked_offer`: the row with that key as a dict, `None` without one. */
    method GetTrackedOffer(id: int) returns (r: Result<Option<Dict>, DbError>)
      requires Valid()
      ensures !ready ==> r == Err(NoSuchTable)
      ensures ready ==> r.Ok? && (r.value.Some? <==> HasId(offers, id))
      ensures ready && r.value.Some? ==> r.value.value == OfferDetail(id, Select(offers, id).value)
    {
      if !ready {
        return Err(NoSuchTable);
      }
      var row := Select(offers, id);
      r := Ok(if row.Some? then Some(OfferDetail(id, row.value)) else None);
    }
  }

  /** After `update_tracked_offer(id, s)`, `get_tracked_offer(id)` shows statut `s` and the other fields as before. */
  lemma StatutUpdateVisible(rows: Rows<OfferRow>, id: int, statut: string)
    requires HasId(rows, id)
    ensures var row := Select(Modify(rows, id, (row: OfferRow) => row.(statut := statut)), id);
            row.Some? && row.value == Select(rows, id).value.(statut := statut)
  {
    SelectAfterModify(rows, id, (row: OfferRow) => row.(statut := statut), id);
  }

  /** An update under one key leaves what every other key reads untouched. */
  lemma UpdateLeavesOthers(rows: Rows<OfferRow>, id: int, statut: string, other: int)
    requires other != id
    ensures Select(Modify(rows, id, (row: OfferRow) => row.(statut := statut)), other) == Select(rows, other)
  {
    SelectAfterModify(rows, id, (row: OfferRow) => row.(statut := statut), other);
  }

  /** A deleted key is gone for good: the next insert gets a key above it. */
  lemma DeletedKeyNotReused(rows: Rows<CvRow>, last: int, id: int)
    requires Ordered(rows) && Below(rows, last) && HasId(rows, id)
    ensures last + 1 > id && !HasId(Delete(rows, id), id)
  {
    var i :| 0 <= i < |rows| && rows[i].0 == id;
    SelectAfterDelete(rows, id, id);
  }
}

=== FILE: db_utils.dfy ===
/**
 * The `profils` table of `db_utils.py` (file `database.db`):
 * `INTEGER PRIMARY KEY AUTOINCREMENT` and no UNIQUE column, so every insert
 * adds a row, duplicates included.
 */
module ProfilsTable {
  import opened Common
  import opened SqlTable

  /** A row without its key. */
  datatype Profil = Profil(nom: string, competences: string, experiences: string, formations: string)

  /** The file `database.db`. */
  class ProfilsDb {
    var ready: bool         // `init_db` has created the table
    var rows: Rows<Profil>
    var last: int           // the `sqlite_sequence` entry of `profils`

    predicate Valid()
      reads this
    {
      Ordered(rows) && last >= 0 && (forall i :: 0 <= i < |rows| ==> rows[i].0 <= last)
      && (!ready ==> rows == [])
    }

    constructor ()
      ensures Valid() && !ready && rows == [] && last == 0
    {
      ready := false;
      rows := [];
      last := 0;
    }

    /** `init_db`: `CREATE TABLE IF NOT EXISTS`; the rows and the counter are kept. */
    method InitDb()
      requires Valid()
      modifies this
      ensures Valid() && ready && rows == old(rows) && last == old(last)
    {
      ready := true;
    }

    /**
     * `insert_profil`: exactly one new row, under a key above every key the
     * table has ever held; `false` when the table does not exist yet (the
     * `OperationalError` of SQLite).
     */
    method InsertProfil(nom: string, competences: string, experiences: string, formations: string)
      returns (ok: bool)
      requires Valid()
      modifies this
      ensures Valid() && ready == old(ready) && ok == old(ready)
      ensures !ok ==> rows == old(rows) && last == old(last)
      ensures ok ==> last == old(last) + 1 && rows == old(rows) + [(last, Profil(nom, competences, experiences, formations))]
      ensures ok ==> !HasId(old(rows), last)
    {
      if !ready {
        return false;
      }
      var id := last + 1;
      AppendOrdered(rows, id, Profil(nom, competences, experiences, formations));
      rows := rows + [(id, Profil(nom, competences, experiences, formations))];
      last := id;
      ok := true;
    }

    /** `get_all_profils`: an `(id, nom)` pair for every row, in key order. */
    method GetAllProfils() returns (r: Option<seq<(int, string)>>)
      requires Valid()
      ensures r.Some? <==> ready
      ensures r.Some? ==> |r.value| == |rows| && forall i :: 0 <= i < |rows| ==> r.value[i] == (rows[i].0, rows[i].1.nom)
    {
      if !ready {
        return None;
      }
      var current := rows;
      r := Some(seq(|current|, i requires 0 <= i < |current| => (current[i].0, current[i].1.nom)));
    }

    /** `get_profil_by_id`: the whole row, or `None` when no row has that key. */
    method GetProfilById(pid: int) returns (r: Result<Option<(int, Profil)>, ()>)
      requires Valid()
      ensures !ready ==> r.Err?
      ensures ready ==> r.Ok? && (r.value.Some? <==> HasId(rows, pid))
      ensures ready && r.value.Some? ==> r.value.value in rows && r.value.value.0 == pid
    {
      if !ready {
        return Err(());
      }
      var row := Select(rows, pid);
      r := Ok(if row.Some? then Some((pid, row.value)) else None);
    }
  }

  /** Two inserts of the same name give two rows with distinct keys, both found by key. */
  lemma DuplicateNamesKept(rows: Rows<Profil>, last: int, p: Profil)
    requires Ordered(rows) && last >= 0 && forall i :: 0 <= i < |rows| ==> rows[i].0 <= last
    ensures var after := rows + [(last + 1, p)] + [(last + 2, p)];
            Ordered(after) && Select(after, last + 1) == Some(p) && Select(after, last + 2) == Some(p)
  {
    var after := rows + [(last + 1, p)] + [(last + 2, p)];
    AppendOrdered(rows, last + 1, p);
    AppendOrdered(rows + [(last + 1, p)], last + 2, p);
    SelectAt(after, |rows|);
    SelectAt(after, |rows| + 1);
  }
}

=== FILE: exporter.dfy ===
/**
 * `ftcli/exporter.py`: the search results written as a text or an HTML file.
 * The file is the string written to it; a Python exception raised while an
 * offer's fields are read ends the export with what was written so far.
 */
module Exporter {
  import opened Common
  import opened Text
  import opened Json

  datatype Format = Txt | Html

  /** How many characters of the description each format keeps. */
  function DescriptionLimit(format: Format): nat
  {
    if format.Txt? then 200 else 400
  }

  const RULE_WIDTH := 70
  const HTML_HEADER := "<html><head><meta charset='utf-8'><title>Offres d'emploi</title></head><body>" + "<h1>Offres d'emploi exportées</h1>"
  const HTML_FOOTER := "</body></html>"

  /** What the file starts and ends with. */
  function Header(format: Format): string
  {
    if format.Txt? then "" else HTML_HEADER
  }

  function Footer(format: Format): string
  {
    if format.Txt? then "" else HTML_FOOTER
  }

  /** The values one offer contributes to its block, as they are inserted in the f-string. */
  datatype Fields = Fields(intitule: string, lieu: string, contrat: string, date: string, entreprise: string,
                           salaire: string, rome: string, appel: string, description: string, url: string)

  /** `desc.replace("\n", " ").strip()`: one line, no whitespace at either end. */
  function OneLine(desc: string): (r: string)
    ensures '\n' !in r
    ensures r != [] ==> !IsSpace(r[0]) && !IsSpace(r[|r| - 1])
    ensures |r| <= |desc|
  {
    var flat := ReplaceChar(desc, '\n', ' ');
    assert forall i :: 0 <= i < |flat| ==> flat[i] != '\n';
    var r := Strip(flat);
    assert forall k :: 0 <= k < |r| ==> r[k] != '\n' by {
      forall k | 0 <= k < |r| ensures r[k] != '\n' {
        assert r[k] == flat[StripStart(flat) + k];
      }
    }
    r
  }

  /** `desc[:limit] + ("..." if len(desc) > limit else "")` */
  function Shorten(desc: string, limit: nat): (r: string)
    ensures |desc| <= limit ==> r == desc
    ensures |desc| > limit ==> |r| == limit + 3 && r[..limit] == desc[..limit] && r[limit..] == "..."
  {
    Prefix(desc, limit) + (if |desc| > limit then "..." else "")
  }

  /** `v[:10]` inserted with `str()`: a string or a list is sliced, anything else cannot be. */
  function DateText(v: Json): (r: Result<string, PyExc>)
    ensures v.JStr? ==> r.Ok? && |r.value| <= 10 && r.value <= v.s
    ensures v.JStr? && |v.s| >= 10 ==> r == Ok(v.s[..10])
    ensures r.Err? <==> !(v.JStr? || v.JArr?)
  {
    match v
    case JStr(s) => assert |s| == 10 ==> s[..10] == s; Ok(Prefix(s, 10))
    case JArr(items) => Ok(PyStr(JArr(Prefix(items, 10))))
    case _ => Err(TypeError)
  }

  /** `offre.get(k, {}).get(field, default)`; `.get` on anything but a dict raises `AttributeError`. */
  function Nested(offre: Json, k: string, field: string, default: Json): Result<Json, PyExc>
  {
    var inner := PyGet(offre, k, JObj([]));
    if inner.Err? then Err(inner.error) else PyGet(inner.value, field, default)
  }

  /** `x or y`: the first operand when truthy, the second otherwise. */
  function Or(x: Json, y: Json): Json
  {
    if Truthy(x) then x else y
  }

  /** `offre.get("entreprise", {}).get("nom") or offre.get("entreprise", {}).get("description", "?")` */
  function Company(offre: Json): Result<Json, PyExc>
  {
    var nom := Nested(offre, "entreprise", "nom", JNull);
    if nom.Err? || Truthy(nom.value) then nom else Nested(offre, "entreprise", "description", JStr("?"))
  }

  /** `offre.get("salaire", {}).get("libelle") or "Non précisé"` */
  function Salary(offre: Json): Result<Json, PyExc>
  {
    var libelle := Nested(offre, "salaire", "libelle", JNull);
    if libelle.Err? then libelle else Ok(Or(libelle.value, JStr("Non précisé")))
  }

  /** `f"{offre.get('romeCode','')} - {offre.get('romeLibelle','')}"` */
  function Rome(offre: Json): string
    requires offre.JObj?
  {
    PyStr(Get(offre.fields, "romeCode", JStr(""))) + " - " + PyStr(Get(offre.fields, "romeLibelle", JStr("")))
  }

  /**
   * Lines 6-15 (and 33-42) for one offer, in the order they run: the first
   * lookup that raises ends the export.
   */
  function FieldsOf(offre: Json): (r: Result<Fields, PyExc>)
    ensures !offre.JObj? ==> r == Err(AttributeError)
  {
    var lieu := Nested(offre, "lieuTravail", "libelle", JStr("?"));
    if lieu.Err? then Err(lieu.error) else
    var date := DateText(Get(offre.fields, "dateCreation", JStr("")));
    if date.Err? then Err(date.error) else
    var entreprise := Company(offre);
    if entreprise.Err? then Err(entreprise.error) else
    var url := Nested(offre, "origineOffre", "urlOrigine", JStr("-"));
    if url.Err? then Err(url.error) else
    var salaire := Salary(offre);
    if salaire.Err? then Err(salaire.error) else
    var desc := Get(offre.fields, "description", JStr(""));
    if !desc.JStr? then Err(AttributeError) else
    Ok(Fields(PyStr(Get(offre.fields, "intitule", JStr("?"))), PyStr(lieu.value),
              PyStr(Get(offre.fields, "typeContratLibelle", JStr("?"))), date.value, PyStr(entreprise.value),
              PyStr(salaire.value), Rome(offre), PyStr(Get(offre.fields, "appellationlibelle", JStr(""))),
              OneLine(desc.s), PyStr(url.value)))
  }

  /** The company is the name when it is truthy, else the description, else "?". */
  lemma CompanyChoice(offre: Json, ent: Dict)
    requires offre.JObj? && Lookup(offre.fields, "entreprise") == Some(JObj(ent))
    ensures var nom := Lookup(ent, "nom");
            Company(offre) == if nom.Some? && Truthy(nom.value) then Ok(nom.value) else Ok(Get(ent, "description", JStr("?")))
  {
  }

  /** The salary is its label when that is present and non-empty, "Non précisé" otherwise. */
  lemma SalaryDefault(offre: Json, salaire: Dict)
    requires offre.JObj? && Lookup(offre.fields, "salaire") == Some(JObj(salaire))
    ensures var libelle := Lookup(salaire, "libelle");
            Salary(offre) == if libelle.Some? && Truthy(libelle.value) then Ok(libelle.value) else Ok(JStr("Non précisé"))
  {
  }

  /** `'-' * 70` and the newline after it. */
  const TXT_RULE := Repeat('-', RULE_WIDTH) + "\n"

  /** The lines of a text block between the title line's number and the closing rule. */
  function TxtLines(f: Fields, d: string): string
  {
    ". " + f.intitule + "\nLieu : " + f.lieu + "\nType de contrat : " + f.contrat
    + "\nDate publication : " + f.date + "\nEntreprise : " + f.entreprise + "\nSalaire : " + f.salaire
    + "\nROME : " + f.rome + " | " + f.appel + "\nDescription : " + d + "\nLien : " + f.url + "\n"
  }

  /** The HTML block after the title's number. */
  function HtmlLines(f: Fields, d: string): string
  {
    ". " + f.intitule + "</h2>\n<ul>\n<li><b>Lieu :</b> " + f.lieu
    + "</li>\n<li><b>Type de contrat :</b> " + f.contrat + "</li>\n<li><b>Date publication :</b> " + f.date
    + "</li>\n<li><b>Entreprise :</b> " + f.entreprise + "</li>\n<li><b>Salaire :</b> " + f.salaire
    + "</li>\n<li><b>ROME :</b> " + f.rome + " | " + f.appel + "</li>\n<li><b>Description :</b> " + d
    + "</li>\n<li><b>Lien :</b> <a href=\"" + f.url + "\">" + f.url + "</a></li>\n</ul>\n<hr>\n"
  }

  /** The text of the `number`-th offer's block; values are inserted as they are, without HTML escaping. */
  function Block(format: Format, number: int, f: Fields): string
  {
    var d := Shorten(f.description, DescriptionLimit(format));
    match format
    case Txt => IntToString(number) + TxtLines(f, d) + TXT_RULE
    case Html => "\n<h2>" + IntToString(number) + HtmlLines(f, d)
  }

  /** What the file holds, and the exception that ended the export early, if any. */
  datatype Written = Written(text: string, raised: Option<PyExc>)

  /**
   * The blocks of offers `k` onwards, numbered from `k + 1`, up to the first
   * offer whose fields raise; `read` gives an offer's fields and `write` the
   * block of a numbered offer.
   */
  function BlocksFrom(data: seq<Json>, read: Json -> Result<Fields, PyExc>, write: (int, Fields) -> string, k: nat): Written
    decreases |data| - k
  {
    if k >= |data| then Written("", None)
    else match read(data[k])
      case Err(e) => Written("", Some(e))
      case Ok(f) =>
        var rest := BlocksFrom(data, read, write, k + 1);
        Written(write(k + 1, f) + rest.text, rest.raised)
  }

  /** The file after `prefix` was written and the blocks `b` follow; the footer only when nothing raised. */
  function Finish(format: Format, prefix: string, b: Written): Written
  {
    if b.raised.Some? then Written(prefix + b.text, b.raised) else Written(prefix + b.text + Footer(format), None)
  }

  function Writer(format: Format): (int, Fields) -> string
  {
    (number: int, f: Fields) => Block(format, number, f)
  }

  /** `export_to_txt` / `export_to_html` */
  function Export(data: seq<Json>, format: Format): Written
  {
    Finish(format, Header(format), BlocksFrom(data, FieldsOf, Writer(format), 0))
  }

  /**
   * The loop over `enumerate(data, 1)` after `prefix` was written: each
   * block is written as soon as it is formatted, and `suffix` only once the
   * loop ends.
   */
  method WriteBlocks(data: seq<Json>, read: Json -> Result<Fields, PyExc>, write: (int, Fields) -> string, prefix: string, suffix: string)
    returns (w: Written)
    ensures var b := BlocksFrom(data, read, write, 0);
            w == if b.raised.Some? then Written(prefix + b.text, b.raised) else Written(prefix + b.text + suffix, None)
  {
    var out := prefix;
    var i := 0;
    while i < |data|
      invariant 0 <= i <= |data|
      invariant out + BlocksFrom(data, read, write, i).text == prefix + BlocksFrom(data, read, write, 0).text
      invariant BlocksFrom(data, read, write, i).raised == BlocksFrom(data, read, write, 0).raised
    {
      var fields := read(data[i]);
      if fields.Err? {
        return Written(out, Some(fields.error));
      }
      out := out + write(i + 1, fields.value);
      i := i + 1;
    }
    return Written(out + suffix, None);
  }

  /** `export_to_txt` / `export_to_html`: the header, the blocks, and the footer. */
  method ExportFile(data: seq<Json>, format: Format) returns (w: Written)
    ensures w == Export(data, format)
  {
    w := WriteBlocks(data, FieldsOf, Writer(format), Header(format), Footer(format));
  }

  /** The blocks of the first `n` offers, the `k`-th numbered `k + 1`. */
  function Numbered(data: seq<Json>, read: Json -> Result<Fields, PyExc>, write: (int, Fields) -> string, n: nat): seq<string>
    requires n <= |data| && forall k :: 0 <= k < n ==> read(data[k]).Ok?
  {
    seq(n, k requires 0 <= k < n => write(k + 1, read(data[k]).value))
  }

  lemma JoinUnseparated(parts: seq<string>)
    requires parts != []
    ensures Join(parts, "") == parts[0] + Join(parts[1..], "")
  {
  }

  /** Between offer `k` and offer `n`, every offer is written, in order, under its own number. */
  lemma {:induction false} BlocksFromNumbered(data: seq<Json>, read: Json -> Result<Fields, PyExc>, write: (int, Fields) -> string, k: nat, n: nat)
    requires k <= n <= |data| && forall j :: 0 <= j < n ==> read(data[j]).Ok?
    ensures BlocksFrom(data, read, write, k).text == Join(Numbered(data, read, write, n)[k..], "") + BlocksFrom(data, read, write, n).text
    ensures BlocksFrom(data, read, write, k).raised == BlocksFrom(data, read, write, n).raised
    decreases n - k
  {
    if k < n {
      BlocksFromNumbered(data, read, write, k + 1, n);
      var parts := Numbered(data, read, write, n)[k..];
      JoinUnseparated(parts);
      assert parts[1..] == Numbered(data, read, write, n)[k + 1..];
    }
  }

  /**
   * When every offer is readable, the file is the header, every offer's
   * block numbered from 1 in input order, and the footer.
   */
  lemma ExportAll(data: seq<Json>, format: Format)
    requires forall k :: 0 <= k < |data| ==> FieldsOf(data[k]).Ok?
    ensures Export(data, format) == Written(Header(format) + Join(Numbered(data, FieldsOf, Writer(format), |data|), "") + Footer(format), None)
  {
    var b := BlocksFrom(data, FieldsOf, Writer(format), 0);
    BlocksFromNumbered(data, FieldsOf, Writer(format), 0, |data|);
    assert Numbered(data, FieldsOf, Writer(format), |data|)[0..] == Numbered(data, FieldsOf, Writer(format), |data|);
    assert b.raised == None;
    assert b.text == Join(Numbered(data, FieldsOf, Writer(format), |data|), "");
  }

  /**
   * The first offer whose fields raise ends the export: the file keeps the
   * header and the blocks before it, and has no footer.
   */
  lemma ExportStopsAtFirstError(data: seq<Json>, format: Format, n: nat)
    requires n < |data| && FieldsOf(data[n]).Err?
    requires forall k :: 0 <= k < n ==> FieldsOf(data[k]).Ok?
    ensures Export(data, format)
         == Written(Header(format) + Join(Numbered(data, FieldsOf, Writer(format), n), ""), Some(FieldsOf(data[n]).error))
  {
    var b := BlocksFrom(data, FieldsOf, Writer(format), 0);
    BlocksFromNumbered(data, FieldsOf, Writer(format), 0, n);
    assert Numbered(data, FieldsOf, Writer(format), n)[0..] == Numbered(data, FieldsOf, Writer(format), n);
    assert BlocksFrom(data, FieldsOf, Writer(format), n) == Written("", Some(FieldsOf(data[n]).error));
    assert b.text == Join(Numbered(data, FieldsOf, Writer(format), n), "");
  }

  /** An offer with none of the keys gets every default. */
  lemma EmptyOfferDefaults()
    ensures FieldsOf(JObj([])) == Ok(Fields("?", "?", "?", "", "?", "Non précisé", " - ", "", "", "-"))
  {
    var none := JObj([]);
    assert Nested(none, "lieuTravail", "libelle", JStr("?")) == Ok(JStr("?"));
    assert DateText(JStr("")) == Ok("");
    assert Company(none) == Ok(JStr("?"));
    assert Nested(none, "origineOffre", "urlOrigine", JStr("-")) == Ok(JStr("-"));
    assert Salary(none) == Ok(JStr("Non précisé"));
    assert Rome(none) == " - ";
    assert OneLine("") == "";
  }

  /** A text block starts with its number and ends with the rule of 70 dashes. */
  lemma TxtBlockShape(number: int, f: Fields)
    ensures var b := Block(Txt, number, f);
            var n := IntToString(number);
            |b| > |n| + |TXT_RULE| && b[..|n|] == n && b[|b| - |TXT_RULE|..] == TXT_RULE
  {
    var n := IntToString(number);
    var lines := TxtLines(f, Shorten(f.description, 200));
    var b := Block(Txt, number, f);
    assert b == n + lines + TXT_RULE;
    assert b[..|n|] == n;
  }
}

=== FILE: ftcli_cli.dfy ===
/**
 * The pure helpers of the command-line front end `ftcli/cli.py`: table-cell
 * truncation, the menu labels of `suivi update` and the id read back from the
 * chosen label, the dashboard statistics, and the name of the export file of
 * `search`.
 */
module FtCli {
  import opened Common
  import opened Text
  import opened SqlTable
  import opened LocalDb

  /** The default `max_len` of `truncate_text`. */
  const CELL_WIDTH := 40

  /** `truncate_text`: a non-empty text longer than `maxLen` is cut to `maxLen - 3` characters, stripped, and marked with "...". */
  function TruncateText(text: string, maxLen: int): (r: string)
    ensures text == "" || |text| <= maxLen ==> r == text
    ensures text != "" && |text| > maxLen ==> |r| >= 3 && r[|r| - 3..] == "..."
    ensures maxLen >= 3 ==> |r| <= maxLen
  {
    if text != "" && |text| > maxLen then Strip(Prefix(text, maxLen - 3)) + "..." else text
  }

  /** What is kept of a truncated text is a piece of its first `maxLen - 3` characters. */
  lemma TruncatedKeepsPrefixPiece(text: string, maxLen: int)
    requires maxLen >= 3 && |text| > maxLen
    ensures exists a, b :: 0 <= a <= b <= maxLen - 3 && TruncateText(text, maxLen) == text[a..b] + "..."
  {
    var p := text[..maxLen - 3];
    assert Prefix(text, maxLen - 3) == p;
    var r := TruncateText(text, maxLen);
    assert r == Strip(p) + "...";
    var a := StripStart(p);
    var b := a + |Strip(p)|;
    assert Strip(p) == p[a..b] == text[a..b];
    assert 0 <= a <= b <= maxLen - 3 && r == text[a..b] + "...";
  }

  /** A choice of the `suivi update` menu. */
  function Label(id: int, intitule: string, statut: string): string
  {
    "ID " + IntToString(id) + " - " + TruncateText(intitule, CELL_WIDTH) + " (" + statut + ")"
  }

  /** `int(selected.split(" - ")[0].replace("ID ", ""))`, `None` where `int` raises. */
  function LabelId(selected: string): Option<int>
  {
    ParseInt(ReplaceAll(SplitHead(selected, " - "), "ID ", ""))
  }

  /** The text before the first `" - "` of a label is `"ID "` and the id. */
  lemma LabelHead(id: int, rest: string)
    ensures SplitHead("ID " + IntToString(id) + " - " + rest, " - ") == "ID " + IntToString(id)
  {
    var digits := IntToString(id);
    var head := "ID " + digits;
    var s := head + " - " + rest;
    assert OccursAt(s, " - ", |head|) by {
      assert s[|head|..|head| + 3] == " - ";
    }
    forall j: nat | j < |head| ensures !OccursAt(s, " - ", j) {
      if j >= 3 {
        assert s[j] == digits[j - 3];
      } else if j == 2 {
        if id >= 0 {
          assert s[3] == digits[0];
        } else {
          assert s[4] == digits[1];
        }
      }
      assert s[j..j + 3] != " - " by {
        assert s[j..j + 3][0] == s[j] && s[j..j + 3][1] == s[j + 1] && s[j..j + 3][2] == s[j + 2];
      }
    }
    var f := Find(s, " - ");
    assert f == Some(|head|);
    assert s[..|head|] == head;
  }

  /** A text without the first character of `pat` does not contain `pat`. */
  lemma AbsentFirstChar(s: string, pat: string)
    requires pat != [] && pat[0] !in s
    ensures !Contains(s, pat)
  {
    forall j: nat | j <= |s| ensures !OccursAt(s, pat, j) {
      if j + |pat| <= |s| {
        assert s[j..j + |pat|][0] == s[j];
      }
    }
  }

  /** Reading the id back from a menu label gives the id the label was made from. */
  lemma LabelRoundTrip(id: int, intitule: string, statut: string)
    ensures LabelId(Label(id, intitule, statut)) == Some(id)
  {
    var digits := IntToString(id);
    var rest := TruncateText(intitule, CELL_WIDTH) + " (" + statut + ")";
    assert Label(id, intitule, statut) == "ID " + digits + " - " + rest;
    LabelHead(id, rest);
    var head := "ID " + digits;
    assert head[..3] == "ID " && head[3..] == digits;
    assert 'I' !in digits by {
      if id < 0 {
        assert digits == [digits[0]] + digits[1..];
      }
    }
    AbsentFirstChar(digits, "ID ");
    ReplaceAbsent(digits, "ID ", "");
    assert ReplaceAll(head, "ID ", "") == digits;
    IntRoundTrip(id);
  }

  /** `[o for o in all_offers if o['statut'] == statut]`, in stored order. */
  function WithStatut(rows: Rows<OfferRow>, statut: string): (r: Rows<OfferRow>)
    ensures forall x :: x in r <==> x in rows && x.1.statut == statut
    ensures |r| <= |rows|
  {
    if rows == [] then []
    else if rows[0].1.statut == statut then [rows[0]] + WithStatut(rows[1..], statut)
    else WithStatut(rows[1..], statut)
  }

  /** Filtering keeps the stored order. */
  lemma {:induction false} WithStatutOrdered(rows: Rows<OfferRow>, statut: string)
    requires Ordered(rows)
    ensures Ordered(WithStatut(rows, statut))
  {
    if rows != [] {
      var t := rows[1..];
      assert Ordered(t);
      WithStatutOrdered(t, statut);
      var w := WithStatut(t, statut);
      forall j | 0 <= j < |w| ensures rows[0].0 < w[j].0 {
        assert w[j] in t;
        var k :| 0 <= k < |t| && t[k] == w[j];
        assert rows[k + 1] == w[j];
      }
    }
  }

  /** "Entretiens prévus": how many tracked offers have that statut. */
  function InterviewCount(rows: Rows<OfferRow>): nat
  {
    |WithStatut(rows, "Entretien prévu")|
  }

  /** "À traiter en priorité": the first three saved offers. */
  function PendingActions(rows: Rows<OfferRow>): Rows<OfferRow>
  {
    Prefix(WithStatut(rows, "Sauvegardée"), 3)
  }

  /**
   * The dashboard lists at most three saved offers, only saved ones, and
   * any saved offer it leaves out was stored after every one it lists.
   */
  lemma PendingActionsFirst(rows: Rows<OfferRow>)
    requires Ordered(rows)
    ensures |PendingActions(rows)| <= 3
    ensures forall x :: x in PendingActions(rows) ==> x in rows && x.1.statut == "Sauvegardée"
    ensures forall x, y :: x in rows && x.1.statut == "Sauvegardée" && x !in PendingActions(rows) && y in PendingActions(rows)
                           ==> y.0 < x.0
  {
    var w := WithStatut(rows, "Sauvegardée");
    WithStatutOrdered(rows, "Sauvegardée");
    var p := PendingActions(rows);
    forall x, y | x in rows && x.1.statut == "Sauvegardée" && x !in p && y in p ensures y.0 < x.0 {
      assert x in w;
      var i :| 0 <= i < |w| && w[i] == x;
      var j :| 0 <= j < |p| && p[j] == y;
      assert w[j] == y;
      assert i >= |p|;
    }
  }

  /** What `search` does with `--export`. */
  datatype ExportChoice = NoExport | BadFormat | ExportTo(filename: string, format: string)

  /** `"".join(c if c.isalnum() else "_" for c in mots)` */
  function SafeName(mots: string): (r: string)
    ensures |r| == |mots|
    ensures forall i :: 0 <= i < |r| ==> IsAlnum(r[i]) || r[i] == '_'
    ensures forall i :: 0 <= i < |mots| && IsAlnum(mots[i]) ==> r[i] == mots[i]
    ensures forall i :: 0 <= i < |mots| && !IsAlnum(mots[i]) ==> r[i] == '_'
  {
    seq(|mots|, i requires 0 <= i < |mots| => if IsAlnum(mots[i]) then mots[i] else '_')
  }

  /** `if export:` then the format check, then `recherche_<mots or "recherche">.<requested>`. */
  function Export(requested: Option<string>, mots: Option<string>): ExportChoice
  {
    if requested.None? || requested.value == "" then NoExport
    else if requested.value != "txt" && requested.value != "html" then BadFormat
    else
      var stem := if mots.Some? && mots.value != "" then SafeName(mots.value) else "recherche";
      ExportTo("recherche_" + stem + "." + requested.value, requested.value)
  }

  /** Only `txt` and `html` lead to a file; any other non-empty format is refused. */
  lemma ExportFormats(requested: Option<string>, mots: Option<string>)
    ensures Export(requested, mots).ExportTo? <==> requested == Some("txt") || requested == Some("html")
    ensures Export(requested, mots).BadFormat?
            <==> requested.Some? && requested.value != "" && requested.value != "txt" && requested.value != "html"
    ensures Export(requested, mots).ExportTo? ==> Export(requested, mots).format == requested.value
  {
  }

  /**
   * The export file is named after the search words, every character of
   * which is a letter, a digit or `_`, so the file always lands in the
   * current directory.
   */
  lemma ExportFileName(requested: string, mots: Option<string>)
    requires requested == "txt" || requested == "html"
    ensures exists stem :: Export(Some(requested), mots).filename == "recherche_" + stem + "." + requested
                           && (forall i :: 0 <= i < |stem| ==> IsAlnum(stem[i]) || stem[i] == '_')
                           && (mots.Some? && mots.value != "" ==> |stem| == |mots.value|)
  {
    if mots.Some? && mots.value != "" {
      var stem := SafeName(mots.value);
      assert Export(Some(requested), mots).filename == "recherche_" + stem + "." + requested;
    } else {
      var stem := "recherche";
      assert forall i :: 0 <= i < |stem| ==> 'a' <= stem[i] <= 'z';
      assert Export(Some(requested), mots).filename == "recherche_" + stem + "." + requested;
    }
  }
}

=== FILE: gemini.dfy ===
/**
 * `ftcli/gemini_utils.py`: one call to Gemini's `generateContent` endpoint
 * with up to three attempts, and the four prompt builders that delegate to
 * it. What each attempt gives (a reply or an exception) is an input: `post(i,
 * request)` is the outcome of attempt `i`. The five-second sleep between
 * attempts is left out.
 */
module GeminiApi {
  import opened Common
  import opened Text
  import opened Json
  import opened Http

  const GEMINI_MODEL := "gemini-1.5-flash"
  const MAX_RETRIES := 3

  /** The tags the messages start with; the matching command treats a reply starting with `GEMINI_TAG` as a failure. */
  const KEY_TAG := "[ERREUR]"
  const GEMINI_TAG := "[ERREUR Gemini]"

  const NO_KEY_MESSAGE := KEY_TAG + " La clé API Gemini (GEMINI_API_KEY) n'est pas configurée."
  const EMPTY_MESSAGE := GEMINI_TAG + " Réponse vide ou malformée de l'API."
  const GAVE_UP_MESSAGE := GEMINI_TAG + " Échec de l'appel API après plusieurs tentatives."
  /** The `getattr` default of the `except Exception` branch. */
  const NO_DETAIL := "Aucun détail de réponse disponible."

  /** The POST `requests.post` sends: the URL with the key, and the JSON body. */
  datatype Request = Request(url: string, body: Json)

  function RequestFor(apiKey: string, prompt: string): Request
  {
    Request("https://generativelanguage.googleapis.com/v1beta/models/" + GEMINI_MODEL + ":generateContent?key=" + apiKey,
            JObj([("contents", JArr([JObj([("parts", JArr([JObj([("text", JStr(prompt))])]))])]))]))
  }

  /** The server reads the prompt back at `contents[0].parts[0].text`. */
  lemma RequestCarriesPrompt(apiKey: string, prompt: string)
    ensures var body := RequestFor(apiKey, prompt).body;
            var contents := PySubscript(body, "contents");
            contents.Ok? && PyIndex0(contents.value).Ok?
            && PySubscript(PyIndex0(contents.value).value, "parts").Ok?
            && PyIndex0(PySubscript(PyIndex0(contents.value).value, "parts").value).Ok?
            && PySubscript(PyIndex0(PySubscript(PyIndex0(contents.value).value, "parts").value).value, "text") == Ok(JStr(prompt))
  {
    var part := JObj([("text", JStr(prompt))]);
    var content := JObj([("parts", JArr([part]))]);
    var body := JObj([("contents", JArr([content]))]);
    LookupAt(body.fields, 0);
    LookupAt(content.fields, 0);
    LookupAt(part.fields, 0);
  }

  /**
   * What one attempt gives: a reply (status, body, raw text), or an exception
   * from `requests.post` itself. `error` is the `str()` of whatever exception
   * the attempt ends in.
   */
  datatype Attempt = Answered(status: int, body: Body, text: string, error: string) | PostFailed(error: string)

  /** What `_call_gemini_api` returns; `Escaped` is an exception leaving the function. */
  datatype Outcome =
    | NoKey
    | Answer(value: Json)
    | EmptyAnswer
    | ConnectionProblem(error: string, detail: string)
    | Unexpected(error: string, detail: string)
    | GaveUp
    | Escaped(exc: PyExc)

  /**
   * The string returned for every outcome but an answer or an escaping
   * exception: the missing key is tagged `[ERREUR]`, every failure of the
   * call itself `[ERREUR Gemini]`.
   */
  function Message(o: Outcome): (r: string)
    requires !o.Answer? && !o.Escaped?
    ensures o == NoKey ==> |r| > |KEY_TAG| && r[..|KEY_TAG|] == KEY_TAG
    ensures o != NoKey ==> |r| > |GEMINI_TAG| && r[..|GEMINI_TAG|] == GEMINI_TAG
  {
    match o
    case NoKey => NO_KEY_MESSAGE
    case EmptyAnswer => EMPTY_MESSAGE
    case ConnectionProblem(e, detail) => GEMINI_TAG + (" Problème de connexion : " + e + "\n" + detail)
    case Unexpected(e, detail) => GEMINI_TAG + (" Erreur inattendue : " + e + "\n" + detail)
    case GaveUp => GAVE_UP_MESSAGE
  }

  // ---------------------------------------------------------------------------
  // One attempt

  /** What the body of a reply that passed `raise_for_status` holds. */
  datatype Content = Text(value: Json) | NoCandidates | Malformed

  /**
   * `resp.json().get("candidates", [])`, the emptiness test, then
   * `candidates[0]["content"]["parts"][0]["text"]`; any exception on the way
   * (undecodable body, a non-dict, a missing key or index) is `Malformed`.
   */
  function ReplyContent(body: Body): (r: Content)
    ensures body.Parsed? && body.value.JObj? && !HasKey(body.value.fields, "candidates") ==> r == NoCandidates
    ensures !body.Parsed? || !body.value.JObj? ==> r == Malformed
  {
    if !body.Parsed? then Malformed
    else
      var candidates := PyGet(body.value, "candidates", JArr([]));
      if candidates.Err? then Malformed
      else if !Truthy(candidates.value) then NoCandidates
      else
        var first := PyIndex0(candidates.value);
        if first.Err? then Malformed else
        var content := PySubscript(first.value, "content");
        if content.Err? then Malformed else
        var parts := PySubscript(content.value, "parts");
        if parts.Err? then Malformed else
        var part := PyIndex0(parts.value);
        if part.Err? then Malformed else
        var text := PySubscript(part.value, "text");
        if text.Err? then Malformed else Text(text.value)
  }

  /** A reply of the shape Gemini documents, with one candidate of one part. */
  function GeminiReply(text: string): Json
  {
    JObj([("candidates", JArr([JObj([("content", JObj([("parts", JArr([JObj([("text", JStr(text))])]))]))])]))])
  }

  /** The text of the first part of the first candidate is what the call returns. */
  lemma ReplyContentReadsText(text: string)
    ensures ReplyContent(Parsed(GeminiReply(text))) == Text(JStr(text))
  {
    var part := JObj([("text", JStr(text))]);
    var content := JObj([("parts", JArr([part]))]);
    var candidate := JObj([("content", content)]);
    var reply := GeminiReply(text);
    LookupAt(reply.fields, 0);
    LookupAt(candidate.fields, 0);
    LookupAt(content.fields, 0);
    LookupAt(part.fields, 0);
  }

  /** What the loop does after one attempt: go on to the next, or return. */
  datatype Pass = Retry | Return(outcome: Outcome)

  /**
   * A reply: `raise_for_status` raises for 400-599, and only a 5xx before
   * the last attempt is retried; otherwise the body decides.
   */
  function ReplyPass(status: int, body: Body, text: string, e: string, attempt: nat): (r: Pass)
    ensures r == Retry <==> 500 <= status < 600 && attempt < MAX_RETRIES - 1
    ensures 400 <= status < 600 && !(500 <= status && attempt < MAX_RETRIES - 1) ==> r == Return(ConnectionProblem(e, text))
  {
    if !RequestsAccepts(status) then
      if status >= 500 && attempt < MAX_RETRIES - 1 then Retry else Return(ConnectionProblem(e, text))
    else
      match ReplyContent(body)
      case Text(value) => Return(Answer(value))
      case NoCandidates => Return(EmptyAnswer)
      case Malformed => Return(Unexpected(e, text))
  }

  /**
   * One attempt as written: when `requests.post` itself raises, the
   * `except Exception` branch reads `resp`, which is unbound on the first
   * attempt (`UnboundLocalError`, a `NameError`) and is the previous
   * attempt's reply on later ones.
   */
  function PassAsWritten(a: Attempt, attempt: nat, previous: Option<string>): Pass
  {
    match a
    case PostFailed(e) => if previous.None? then Return(Escaped(NameError)) else Return(Unexpected(e, previous.value))
    case Answered(status, body, text, e) => ReplyPass(status, body, text, e, attempt)
  }

  /** One attempt, with `resp` holding only this attempt's reply: a failed POST has no details. */
  function PassOf(a: Attempt, attempt: nat): Pass
  {
    match a
    case PostFailed(e) => Return(Unexpected(e, NO_DETAIL))
    case Answered(status, body, text, e) => ReplyPass(status, body, text, e, attempt)
  }

  // ---------------------------------------------------------------------------
  // The retry loop

  /** The result of the call and the number of requests it sent. */
  datatype Call = Call(outcome: Outcome, requests: nat)

  /** Attempts `attempt` to 2, as written; `previous` is the raw text of the last reply. */
  function CallFromAsWritten(request: Request, post: (nat, Request) -> Attempt, attempt: nat, previous: Option<string>): Call
    decreases MAX_RETRIES - attempt
  {
    if attempt >= MAX_RETRIES then Call(GaveUp, attempt)
    else
      var a := post(attempt, request);
      match PassAsWritten(a, attempt, previous)
      case Retry => CallFromAsWritten(request, post, attempt + 1, Some(a.text))
      case Return(o) => Call(o, attempt + 1)
  }

  /** Attempts `attempt` to 2. */
  function CallFrom(request: Request, post: (nat, Request) -> Attempt, attempt: nat): Call
    decreases MAX_RETRIES - attempt
  {
    if attempt >= MAX_RETRIES then Call(GaveUp, attempt)
    else
      match PassOf(post(attempt, request), attempt)
      case Retry => CallFrom(request, post, attempt + 1)
      case Return(o) => Call(o, attempt + 1)
  }

  /** `not API_KEY`: unset or empty. */
  predicate KeyConfigured(apiKey: Option<string>)
  {
    apiKey.Some? && apiKey.value != ""
  }

  /**
   * `_call_gemini_api` as written: with a key, one to three requests and
   * never the "after several attempts" message, but an exception escapes
   * exactly when the first request raises.
   */
  function CallGeminiAsWritten(apiKey: Option<string>, prompt: string, post: (nat, Request) -> Attempt): (r: Call)
    ensures KeyConfigured(apiKey) <==> 1 <= r.requests
    ensures r.requests <= MAX_RETRIES && r.outcome != GaveUp
    ensures r.outcome.Escaped? <==> KeyConfigured(apiKey) && post(0, RequestFor(apiKey.value, prompt)).PostFailed?
    ensures r.outcome.Escaped? ==> r == Call(Escaped(NameError), 1)
  {
    if !KeyConfigured(apiKey) then Call(NoKey, 0)
    else
      CallFromAsWrittenBounded(RequestFor(apiKey.value, prompt), post, 0, None);
      CallFromAsWritten(RequestFor(apiKey.value, prompt), post, 0, None)
  }

  /** `_call_gemini_api`, with a failed POST reported without details. */
  function CallGemini(apiKey: Option<string>, prompt: string, post: (nat, Request) -> Attempt): Call
  {
    if !KeyConfigured(apiKey) then Call(NoKey, 0)
    else CallFrom(RequestFor(apiKey.value, prompt), post, 0)
  }

  /** The loop `for attempt in range(max_retries)` with its `continue` and early returns. */
  method CallGeminiApi(apiKey: Option<string>, prompt: string, post: (nat, Request) -> Attempt) returns (c: Call)
    ensures c == CallGemini(apiKey, prompt, post)
  {
    if !KeyConfigured(apiKey) {
      return Call(NoKey, 0);
    }
    var request := RequestFor(apiKey.value, prompt);
    var attempt := 0;
    while attempt < MAX_RETRIES
      invariant 0 <= attempt <= MAX_RETRIES
      invariant CallGemini(apiKey, prompt, post) == CallFrom(request, post, attempt)
    {
      var a := post(attempt, request);
      match a {
        case PostFailed(e) =>
          return Call(Unexpected(e, NO_DETAIL), attempt + 1);
        case Answered(status, body, text, e) =>
          if !RequestsAccepts(status) {
            if status >= 500 && attempt < MAX_RETRIES - 1 {
              attempt := attempt + 1;
              continue;
            }
            return Call(ConnectionProblem(e, text), attempt + 1);
          }
          var content := ReplyContent(body);
          if content.NoCandidates? {
            return Call(EmptyAnswer, attempt + 1);
          }
          if content.Malformed? {
            return Call(Unexpected(e, text), attempt + 1);
          }
          return Call(Answer(content.value), attempt + 1);
      }
    }
    return Call(GaveUp, attempt);
  }

  // ---------------------------------------------------------------------------
  // The prompts' fixed text

  /** The instructions before the CV text in `extraire_sections_cv_ia`. */
  const EXTRACT_HEAD := "Lis attentivement ce texte de CV et extrais de façon structurée les sections suivantes au format Markdown :\n1. **Compétences** : Liste des compétences techniques et comportementales.\n2. **Expériences professionnelles** : Pour chaque poste, inclure l'entreprise, la fonction, les dates et les missions principales.\n3. **Formations** : Liste des diplômes, écoles et dates.\nNe génère rien d’autre que ce plan. Sois exhaustif. Voici le texte à analyser :\n\n"

  /** The three fixed pieces of the `adapter_cv_ia` prompt around the analysed CV and the offer. */
  const ADAPT_HEAD := "\nVoici une analyse structurée d'un CV :\n--- CV ANALYSÉ ---\n"
  const ADAPT_MID := "\n--- FIN CV ANALYSÉ ---\n\nVoici la description d'une offre d'emploi :\n--- OFFRE D'EMPLOI ---\n"
  const ADAPT_TAIL := "\n--- FIN OFFRE D'EMPLOI ---\n\nTa mission est de générer un nouveau document texte optimisé pour cette offre. Mets en avant les compétences et expériences du CV qui correspondent le mieux aux exigences de l'offre.\nOrganise le résultat comme un CV classique (résumé, compétences, expériences, formation). Le ton doit être professionnel et percutant.\n"

  /** The fixed pieces of the `generer_rapport_matching_ia` prompt. */
  const MATCH_HEAD := "\nEn tant qu'expert en recrutement, analyse la compatibilité entre le profil de CV suivant et la description de l'offre d'emploi.\n\n--- PROFIL DU CANDIDAT (CV) ---\n"
  const MATCH_MID := "\n--- FIN PROFIL ---\n\n--- DESCRIPTION DE L'OFFRE D'EMPLOI ---\n"
  const MATCH_TAIL := "\n--- FIN OFFRE ---\n\nGénère un rapport de compatibilité concis au format Markdown. Le rapport doit inclure IMPÉRATIVEMENT les sections suivantes :\n1.  **📊 Score de Compatibilité** : Donne un pourcentage estimé de compatibilité et une phrase de résumé.\n2.  **✅ Points Forts** : Liste les 3 à 5 compétences ou expériences les plus importantes du candidat qui correspondent parfaitement à l'offre.\n3.  **❌ Points Faibles** : Liste les 2 ou 3 compétences clés requises par l'offre qui ne semblent pas présentes dans le CV.\n4.  **🔑 Mots-clés à intégrer** : Suggère une liste de mots-clés de l'offre que le candidat devrait intégrer dans son CV pour passer les filtres ATS.\n5.  **💬 Suggestion Stratégique** : Une courte phrase donnant un conseil au candidat pour cette postulation spécifique.\n"

  /** The fixed pieces of the `generer_lettre_motivation_ia` prompt. */
  const LETTER_HEAD := "\nTu es un expert en recrutement. Rédige une lettre de motivation percutante et professionnelle en te basant sur les informations suivantes.\n\nCONTEXTE : Le candidat suivant postule à l'offre d'emploi ci-dessous.\n\n--- PROFIL DU CANDIDAT (CV) ---\n"
  const LETTER_MID := "\n--- FIN PROFIL ---\n\n--- DESCRIPTION DE L'OFFRE D'EMPLOI ---\n"
  const LETTER_TAIL := "\n--- FIN OFFRE ---\n\nINSTRUCTIONS :\n1. Adresse la lettre de manière formelle (ex: \"Madame, Monsieur,\").\n2. Structure la lettre en 3-4 paragraphes clairs :\n   - Paragraphe 1 : Introduction, mention du poste visé et de l'entreprise.\n   - Paragraphe 2 : Mettre en avant 2 ou 3 compétences/expériences CLÉS du candidat qui correspondent PARFAITEMENT aux exigences de l'offre. Utilise des exemples concrets du CV.\n   - Paragraphe 3 : Montrer l'enthousiasme pour l'entreprise et le poste, et comment le candidat peut apporter de la valeur.\n3. Termine par une formule de politesse classique et une proposition de rencontre.\n4. Le ton doit être confiant et professionnel. La lettre ne doit PAS être une simple répétition du CV.\n"

  // ---------------------------------------------------------------------------
  // What the retry loop guarantees

  /** Without a key nothing is sent and the call says so. */
  lemma NoKeyNoRequest(apiKey: Option<string>, prompt: string, post: (nat, Request) -> Attempt)
    requires !KeyConfigured(apiKey)
    ensures CallGemini(apiKey, prompt, post) == Call(NoKey, 0)
    ensures CallGeminiAsWritten(apiKey, prompt, post) == Call(NoKey, 0)
  {
  }

  /** From attempt `attempt` on, at most `3 - attempt` more requests are sent, and the loop never runs out. */
  lemma {:induction false} CallFromBounded(request: Request, post: (nat, Request) -> Attempt, attempt: nat)
    requires attempt < MAX_RETRIES
    ensures attempt < CallFrom(request, post, attempt).requests <= MAX_RETRIES
    ensures CallFrom(request, post, attempt).outcome != GaveUp
    ensures CallFrom(request, post, attempt).outcome != NoKey
    ensures !CallFrom(request, post, attempt).outcome.Escaped?
    decreases MAX_RETRIES - attempt
  {
    match PassOf(post(attempt, request), attempt)
    case Retry =>
      CallFromBounded(request, post, attempt + 1);
    case Return(o) =>
      assert o != GaveUp && o != NoKey && !o.Escaped?;
  }

  /**
   * As written, from attempt `attempt` on, at most `3 - attempt` more
   * requests are sent and the loop never runs out; an exception escapes iff
   * there is no earlier reply and this attempt's request raises.
   */
  lemma {:induction false} CallFromAsWrittenBounded(request: Request, post: (nat, Request) -> Attempt, attempt: nat, previous: Option<string>)
    requires attempt < MAX_RETRIES
    ensures var c := CallFromAsWritten(request, post, attempt, previous);
            attempt < c.requests <= MAX_RETRIES && c.outcome != GaveUp && c.outcome != NoKey
    ensures var c := CallFromAsWritten(request, post, attempt, previous);
            c.outcome.Escaped? <==> previous.None? && post(attempt, request).PostFailed?
    ensures var c := CallFromAsWritten(request, post, attempt, previous);
            c.outcome.Escaped? ==> c == Call(Escaped(NameError), attempt + 1)
    decreases MAX_RETRIES - attempt
  {
    var a := post(attempt, request);
    match PassAsWritten(a, attempt, previous)
    case Retry =>
      CallFromAsWrittenBounded(request, post, attempt + 1, Some(a.text));
    case Return(o) =>
  }

  /**
   * With a key, one to three requests are sent, the call never ends on the
   * "after several attempts" message (the last attempt always returns) and
   * never raises.
   */
  lemma CallGeminiBounded(apiKey: Option<string>, prompt: string, post: (nat, Request) -> Attempt)
    requires KeyConfigured(apiKey)
    ensures 1 <= CallGemini(apiKey, prompt, post).requests <= MAX_RETRIES
    ensures CallGemini(apiKey, prompt, post).outcome != GaveUp
    ensures !CallGemini(apiKey, prompt, post).outcome.Escaped?
  {
    CallFromBounded(RequestFor(apiKey.value, prompt), post, 0);
  }

  /** The attempt went out and came back with a 5xx status. */
  predicate ServerError(a: Attempt)
  {
    a.Answered? && 500 <= a.status < 600
  }

  /**
   * Only server errors are retried: every attempt before the last one sent
   * got a 5xx reply, and the outcome is what the last attempt gave.
   */
  lemma {:induction false} OnlyServerErrorsRetried(request: Request, post: (nat, Request) -> Attempt, attempt: nat)
    requires attempt < MAX_RETRIES
    ensures var c := CallFrom(request, post, attempt);
            c.requests >= 1
            && (forall i :: attempt <= i < c.requests - 1 ==> ServerError(post(i, request)))
            && PassOf(post(c.requests - 1, request), c.requests - 1) == Return(c.outcome)
    decreases MAX_RETRIES - attempt
  {
    match PassOf(post(attempt, request), attempt)
    case Retry =>
      OnlyServerErrorsRetried(request, post, attempt + 1);
      CallFromBounded(request, post, attempt + 1);
    case Return(o) =>
  }

  /** A client error (4xx) is never retried: it ends the call at once. */
  lemma ClientErrorNotRetried(request: Request, post: (nat, Request) -> Attempt, attempt: nat)
    requires attempt < MAX_RETRIES
    requires post(attempt, request).Answered? && 400 <= post(attempt, request).status < 500
    ensures CallFrom(request, post, attempt)
         == Call(ConnectionProblem(post(attempt, request).error, post(attempt, request).text), attempt + 1)
  {
  }

  /** A reply of the documented shape is returned at once, whatever the attempt. */
  lemma AnswerReturned(request: Request, post: (nat, Request) -> Attempt, attempt: nat, text: string)
    requires attempt < MAX_RETRIES
    requires post(attempt, request).Answered? && 200 <= post(attempt, request).status < 300
    requires post(attempt, request).body == Parsed(GeminiReply(text))
    ensures CallFrom(request, post, attempt) == Call(Answer(JStr(text)), attempt + 1)
  {
    ReplyContentReadsText(text);
  }

  /** A reply without candidates is reported as empty, not retried. */
  lemma NoCandidatesEmpty(request: Request, post: (nat, Request) -> Attempt, attempt: nat)
    requires attempt < MAX_RETRIES
    requires post(attempt, request).Answered? && 200 <= post(attempt, request).status < 300
    requires post(attempt, request).body == Parsed(JObj([]))
    ensures CallFrom(request, post, attempt) == Call(EmptyAnswer, attempt + 1)
  {
  }

  /** Both readings agree until a POST raises: they differ only in what that exception leads to. */
  lemma {:induction false} AsWrittenAgrees(request: Request, post: (nat, Request) -> Attempt, attempt: nat, previous: Option<string>)
    requires forall i :: attempt <= i < MAX_RETRIES ==> post(i, request).Answered?
    ensures CallFromAsWritten(request, post, attempt, previous) == CallFrom(request, post, attempt)
    decreases MAX_RETRIES - attempt
  {
    if attempt < MAX_RETRIES {
      var a := post(attempt, request);
      match PassOf(a, attempt)
      case Retry =>
        AsWrittenAgrees(request, post, attempt + 1, Some(a.text));
      case Return(o) =>
    }
  }

  /**
   * As written, a first request that raises (no connection, a timeout)
   * makes `_call_gemini_api` raise `UnboundLocalError` instead of returning
   * its "Erreur inattendue" message.
   */
  lemma FirstPostFailureEscapes(apiKey: Option<string>, prompt: string, post: (nat, Request) -> Attempt)
    requires KeyConfigured(apiKey)
    requires post(0, RequestFor(apiKey.value, prompt)).PostFailed?
    ensures CallGeminiAsWritten(apiKey, prompt, post).outcome == Escaped(NameError)
    ensures CallGemini(apiKey, prompt, post).outcome == Unexpected(post(0, RequestFor(apiKey.value, prompt)).error, NO_DETAIL)
  {
  }

  /**
   * As written, a request that raises after a server error reports the
   * text of that earlier reply as its details.
   */
  lemma LaterPostFailureStaleDetail(request: Request, post: (nat, Request) -> Attempt)
    requires ServerError(post(0, request)) && post(1, request).PostFailed?
    ensures CallFromAsWritten(request, post, 0, None) == Call(Unexpected(post(1, request).error, post(0, request).text), 2)
    ensures CallFrom(request, post, 0) == Call(Unexpected(post(1, request).error, NO_DETAIL), 2)
  {
  }

  // ---------------------------------------------------------------------------
  // The prompts

  /** A prompt made of fixed text around two inserted texts. */
  function Fill(head: string, a: string, mid: string, b: string, tail: string): (r: string)
    ensures |r| == |head| + |a| + |mid| + |b| + |tail|
    ensures r[..|head|] == head && r[|head|..|head| + |a|] == a
    ensures r[|head| + |a|..|head| + |a| + |mid|] == mid
    ensures r[|head| + |a| + |mid|..|head| + |a| + |mid| + |b|] == b
    ensures r[|r| - |tail|..] == tail
  {
    head + a + mid + b + tail
  }

  /** Texts of the same lengths give the same prompt only when they are the same texts. */
  lemma FillInjective(head: string, a: string, mid: string, b: string, tail: string, a': string, b': string)
    requires |a| == |a'| && |b| == |b'|
    ensures Fill(head, a, mid, b, tail) == Fill(head, a', mid, b', tail) <==> a == a' && b == b'
  {
  }

  /**
   * Without the length condition the prompt does not tell the two texts
   * apart: any split of the same middle text gives the same prompt, e.g.
   * `a, b = "ab", "c"` and `"a", "bc"` around an empty `mid`.
   */
  lemma FillSplitsCollide(head: string, a: string, mid: string, b: string, tail: string, a': string, b': string)
    requires a + mid + b == a' + mid + b'
    ensures Fill(head, a, mid, b, tail) == Fill(head, a', mid, b', tail)
  {
    assert head + a + mid + b + tail == head + (a + mid + b) + tail;
    assert head + a' + mid + b' + tail == head + (a' + mid + b') + tail;
  }

  lemma FillCollisionExample()
    ensures Fill("", "ab", "", "c", "") == Fill("", "a", "", "bc", "")
  {
    FillSplitsCollide("", "ab", "", "c", "", "a", "bc");
  }

  /** The `extraire_sections_cv_ia` prompt: the instructions, then the CV text. */
  function ExtractPrompt(texteCv: string): (r: string)
    ensures |r| == |EXTRACT_HEAD| + |texteCv|
    ensures r[..|EXTRACT_HEAD|] == EXTRACT_HEAD && r[|EXTRACT_HEAD|..] == texteCv
  {
    EXTRACT_HEAD + texteCv
  }

  function AdaptPrompt(texteCvAnalyse: string, descriptionOffre: string): string
  {
    Fill(ADAPT_HEAD, texteCvAnalyse, ADAPT_MID, descriptionOffre, ADAPT_TAIL)
  }

  function MatchPrompt(analyseCv: string, descriptionOffre: string): string
  {
    Fill(MATCH_HEAD, analyseCv, MATCH_MID, descriptionOffre, MATCH_TAIL)
  }

  function LetterPrompt(analyseCv: string, descriptionOffre: string): string
  {
    Fill(LETTER_HEAD, analyseCv, LETTER_MID, descriptionOffre, LETTER_TAIL)
  }

  /** `extraire_sections_cv_ia`, `adapter_cv_ia`, `generer_rapport_matching_ia`, `generer_lettre_motivation_ia`. */
  datatype Task = ExtractSections(texteCv: string)
                | AdaptCv(texteCvAnalyse: string, descriptionOffre: string)
                | MatchReport(analyseCv: string, descriptionOffre: string)
                | MotivationLetter(analyseCv: string, descriptionOffre: string)

  function PromptFor(t: Task): string
  {
    match t
    case ExtractSections(cv) => ExtractPrompt(cv)
    case AdaptCv(cv, offre) => AdaptPrompt(cv, offre)
    case MatchReport(cv, offre) => MatchPrompt(cv, offre)
    case MotivationLetter(cv, offre) => LetterPrompt(cv, offre)
  }

  /**
   * Each helper is one `_call_gemini_api` call on its prompt; what the user
   * sees is the answer or the message. The call is `CallGemini`, where a
   * failed request is reported rather than escaping.
   */
  function Ask(t: Task, apiKey: Option<string>, post: (nat, Request) -> Attempt): (r: Call)
    ensures r.requests == 0 <==> !KeyConfigured(apiKey)
    ensures r.requests <= MAX_RETRIES
    ensures r.outcome != GaveUp && !r.outcome.Escaped?
  {
    if KeyConfigured(apiKey) then CallGeminiBounded(apiKey, PromptFor(t), post); CallGemini(apiKey, PromptFor(t), post)
    else CallGemini(apiKey, PromptFor(t), post)
  }
}

=== FILE: http.dfy ===
/**
 * What the tool sees of an HTTP exchange: either a transport failure or a
 * response with a status code and a body. The body is what `resp.json()` and
 * `resp.content` observe: empty, a decodable JSON document, or something that
 * is not JSON.
 */
module Http {
  import opened Common
  import opened Json

  datatype Body = Empty | Parsed(value: Json) | NotJson

  datatype Reply = Response(status: int, body: Body) | TransportFailure

  /** The exceptions that can escape an HTTP helper of the tool. */
  datatype Failure =
    | StatusError(status: int)     // raised by `raise_for_status`
    | ConnectionError              // the request itself raised
    | DecodeError                  // `resp.json()` on a body that is not JSON
    | PyError(exc: PyExc)          // a Python error on the decoded value

  /** httpx's `raise_for_status` raises for every status outside 2xx. */
  predicate HttpxAccepts(status: int) { 200 <= status < 300 }

  /** requests' `raise_for_status` raises only for 4xx and 5xx. */
  predicate RequestsAccepts(status: int) { !(400 <= status < 600) }

  /** `resp.json()` */
  function DecodeBody(b: Body): (r: Result<Json, Failure>)
    ensures r.Ok? <==> b.Parsed?
    ensures b.Parsed? ==> r.value == b.value
  {
    match b
    case Parsed(v) => Ok(v)
    case _ => Err(DecodeError)
  }

  /** A reply accepted by httpx's `raise_for_status`, then decoded. */
  function HttpxJson(reply: Reply): (r: Result<Json, Failure>)
    ensures r.Ok? <==> reply.Response? && HttpxAccepts(reply.status) && reply.body.Parsed?
    ensures r.Ok? ==> r.value == reply.body.value
    ensures reply.Response? && !HttpxAccepts(reply.status) ==> r == Err(StatusError(reply.status))
  {
    match reply
    case TransportFailure => Err(ConnectionError)
    case Response(status, body) =>
      if !HttpxAccepts(status) then Err(StatusError(status)) else DecodeBody(body)
  }
}

=== FILE: json.dfy ===
/**
 * JSON values as the tool handles them once decoded into Python objects, and
 * the Python operations the tool applies to them: dictionary lookup and
 * assignment (insertion-ordered, one entry per key), `.get` with a default,
 * truthiness, the `in` operator, and `str()` / `repr()`.
 */
module Json {
  import opened Common
  import opened Text

  /** A decoded JSON value. Numbers are integers; a `dict` is an insertion-ordered list of entries. */
  datatype Json =
    | JNull
    | JBool(b: bool)
    | JInt(i: int)
    | JStr(s: string)
    | JArr(items: seq<Json>)
    | JObj(fields: Dict)

  type Dict = seq<(string, Json)>

  /** The Python exceptions an operation on a value of the wrong shape raises. */
  datatype PyExc = AttributeError | TypeError | KeyError | IndexError | ValueError | NameError | RuntimeError

  predicate DistinctKeys(d: Dict)
  {
    forall i, j :: 0 <= i < j < |d| ==> d[i].0 != d[j].0
  }

  predicate HasKey(d: Dict, k: string)
  {
    exists i :: 0 <= i < |d| && d[i].0 == k
  }

  /** `d[k]` / `d.get(k)`, `None` when the key is absent. */
  function Lookup(d: Dict, k: string): (r: Option<Json>)
    ensures r.Some? <==> HasKey(d, k)
    ensures r.Some? ==> exists i :: 0 <= i < |d| && d[i] == (k, r.value)
  {
    if d == [] then None
    else if d[0].0 == k then Some(d[0].1)
    else
      var r := Lookup(d[1..], k);
      assert HasKey(d, k) <==> HasKey(d[1..], k) by {
        if HasKey(d, k) {
          var i :| 0 <= i < |d| && d[i].0 == k;
          assert d[1..][i - 1].0 == k;
        }
        if HasKey(d[1..], k) {
          var i :| 0 <= i < |d| - 1 && d[1..][i].0 == k;
          assert d[i + 1].0 == k;
        }
      }
      if r.Some? then
        var i :| 0 <= i < |d| - 1 && d[1..][i] == (k, r.value);
        assert d[i + 1] == (k, r.value);
        r
      else r
  }

  lemma {:induction false} LookupAt(d: Dict, i: nat)
    requires DistinctKeys(d) && i < |d|
    ensures Lookup(d, d[i].0) == Some(d[i].1)
  {
    if i > 0 {
      assert d[0].0 != d[i].0;
      assert DistinctKeys(d[1..]) by {
        forall a, b | 0 <= a < b < |d| - 1 ensures d[1..][a].0 != d[1..][b].0 {
          assert d[a + 1].0 != d[b + 1].0;
        }
      }
      assert d[1..][i - 1] == d[i];
      LookupAt(d[1..], i - 1);
    }
  }

  /** Python's `d[k] = v`: an existing key keeps its position, a new key goes last. */
  /** `d.get(k, default)` */
  function Get(d: Dict, k: string, default: Json): Json
  {
    var v := Lookup(d, k);
    if v.Some? then v.value else default
  }

  function Put(d: Dict, k: string, v: Json): (r: Dict)
    ensures HasKey(d, k) ==> |r| == |d| && forall i :: 0 <= i < |d| ==> r[i].0 == d[i].0
    ensures !HasKey(d, k) ==> r == d + [(k, v)]
  {
    if d == [] then [(k, v)]
    else if d[0].0 == k then [(k, v)] + d[1..]
    else
      var t := Put(d[1..], k, v);
      assert HasKey(d, k) <==> HasKey(d[1..], k) by {
        if HasKey(d, k) {
          var i :| 0 <= i < |d| && d[i].0 == k;
          assert d[1..][i - 1].0 == k;
        }
        if HasKey(d[1..], k) {
          var i :| 0 <= i < |d| - 1 && d[1..][i].0 == k;
          assert d[i + 1].0 == k;
        }
      }
      [d[0]] + t
  }

  /** After `d[k] = v`, `k` maps to `v` and every other key keeps its value. */
  lemma {:induction false} PutLookup(d: Dict, k: string, v: Json, k': string)
    ensures Lookup(Put(d, k, v), k') == if k' == k then Some(v) else Lookup(d, k')
  {
    if d != [] && d[0].0 != k {
      PutLookup(d[1..], k, v, k');
    }
  }

  /** `d[k] = v` keeps the keys distinct. */
  lemma PutKeepsDistinct(d: Dict, k: string, v: Json)
    ensures DistinctKeys(d) ==> DistinctKeys(Put(d, k, v))
  {
    var r := Put(d, k, v);
    if DistinctKeys(d) && HasKey(d, k) {
      forall i, j | 0 <= i < j < |r| ensures r[i].0 != r[j].0 {
        assert r[i].0 == d[i].0 && r[j].0 == d[j].0;
      }
    } else if DistinctKeys(d) {
      forall i, j | 0 <= i < j < |r| ensures r[i].0 != r[j].0 {
        if j == |d| {
          assert r[i] == d[i];
          assert !HasKey(d, k);
        }
      }
    }
  }

  /** `d[k] = v` adds `k` to the keys and no other key. */
  lemma PutKeys(d: Dict, k: string, v: Json)
    ensures KeySet(Put(d, k, v)) == KeySet(d) + {k}
  {
    var r := Put(d, k, v);
    if HasKey(d, k) {
      var i :| 0 <= i < |d| && d[i].0 == k;
      assert d[i].0 in KeySet(d);
    } else {
      assert r == d + [(k, v)];
      forall x | x in KeySet(r) ensures x in KeySet(d) + {k} {
        var j :| 0 <= j < |r| && r[j].0 == x;
        if j < |d| { assert d[j].0 == x; }
      }
      forall x | x in KeySet(d) ensures x in KeySet(r) {
        var j :| 0 <= j < |d| && d[j].0 == x;
        assert r[j].0 == x;
      }
      assert r[|d|].0 == k;
    }
  }

  /** `if cond: d[k] = v` */
  function PutIf(d: Dict, cond: bool, k: string, v: Json): (r: Dict)
    ensures DistinctKeys(d) ==> DistinctKeys(r)
  {
    if cond then PutKeepsDistinct(d, k, v); Put(d, k, v) else d
  }

  /** `if cond: d[k] = v` adds `k` to the keys exactly when `cond` holds. */
  lemma PutIfKeys(d: Dict, cond: bool, k: string, v: Json)
    ensures KeySet(PutIf(d, cond, k, v)) == KeySet(d) + if cond then {k} else {}
  {
    if cond { PutKeys(d, k, v); }
  }

  /** `if cond: d[k] = v` sets `k` when `cond` holds ... */
  lemma PutIfSame(d: Dict, cond: bool, k: string, v: Json)
    ensures Lookup(PutIf(d, cond, k, v), k) == if cond then Some(v) else Lookup(d, k)
  {
    if cond { PutLookup(d, k, v, k); }
  }

  /** ... and leaves every other key alone. */
  lemma PutIfOther(d: Dict, cond: bool, k: string, v: Json, k': string)
    requires k' != k
    ensures Lookup(PutIf(d, cond, k, v), k') == Lookup(d, k')
  {
    if cond { PutLookup(d, k, v, k'); }
  }

  /** Python's `d.update(e)`: every entry of `e` is assigned into `d`, in order. */
  function Update(d: Dict, e: Dict): (r: Dict)
    decreases |e|
  {
    if e == [] then d else Update(Put(d, e[0].0, e[0].1), e[1..])
  }

  /** After `d.update(e)` a key of `e` maps to its last value in `e`; other keys keep theirs. */
  lemma {:induction false} UpdateLookup(d: Dict, e: Dict, k: string)
    requires DistinctKeys(e)
    ensures Lookup(Update(d, e), k) == if HasKey(e, k) then Lookup(e, k) else Lookup(d, k)
    decreases |e|
  {
    if e != [] {
      var d' := Put(d, e[0].0, e[0].1);
      assert DistinctKeys(e[1..]) by {
        forall a, b | 0 <= a < b < |e| - 1 ensures e[1..][a].0 != e[1..][b].0 {
          assert e[a + 1].0 != e[b + 1].0;
        }
      }
      UpdateLookup(d', e[1..], k);
      assert HasKey(e, k) <==> k == e[0].0 || HasKey(e[1..], k) by {
        if HasKey(e, k) && k != e[0].0 {
          var i :| 0 <= i < |e| && e[i].0 == k;
          assert e[1..][i - 1].0 == k;
        }
        if HasKey(e[1..], k) {
          var i :| 0 <= i < |e| - 1 && e[1..][i].0 == k;
          assert e[i + 1].0 == k;
        }
      }
      PutLookup(d, e[0].0, e[0].1, k);
      if k == e[0].0 {
        forall i | 0 <= i < |e| - 1 ensures e[1..][i].0 != k {
          assert e[i + 1].0 != e[0].0;
        }
      }
    }
  }

  function KeySet(d: Dict): set<string>
  {
    set i | 0 <= i < |d| :: d[i].0
  }

  /** The mapping a dictionary denotes: two dictionaries compare equal in Python iff these are equal. */
  ghost function ToMap(d: Dict): (m: map<string, Json>)
    ensures m.Keys == KeySet(d)
  {
    map k | k in KeySet(d) :: var i :| 0 <= i < |d| && d[i].0 == k; assert HasKey(d, k); Lookup(d, k).value
  }

  /** Dictionaries with distinct keys that are equal as mappings hold the same entries. */
  lemma SameEntries(d1: Dict, d2: Dict, i: nat)
    requires DistinctKeys(d1) && DistinctKeys(d2) && ToMap(d1) == ToMap(d2) && i < |d1|
    ensures exists j :: 0 <= j < |d2| && d2[j] == d1[i]
  {
    var k := d1[i].0;
    LookupAt(d1, i);
    assert k in KeySet(d1);
    assert k in KeySet(d2);
    assert HasKey(d2, k);
    assert Lookup(d2, k) == Some(d1[i].1);
  }

  /** Python truthiness: `None`, `False`, `0`, `""`, `[]` and `{}` are false. */
  predicate Truthy(j: Json)
  {
    match j
    case JNull => false
    case JBool(b) => b
    case JInt(i) => i != 0
    case JStr(s) => s != ""
    case JArr(items) => items != []
    case JObj(fields) => fields != []
  }

  /** `isinstance(j, int)`: Python's `bool` is a subclass of `int`. */
  predicate IsPyInt(j: Json)
  {
    j.JInt? || j.JBool?
  }

  /** `j.get(k, default)`; anything but a dict has no `.get`. */
  function PyGet(j: Json, k: string, default: Json): (r: Result<Json, PyExc>)
    ensures r.Err? <==> !j.JObj?
    ensures j.JObj? && HasKey(j.fields, k) ==> r == Ok(Lookup(j.fields, k).value)
    ensures j.JObj? && !HasKey(j.fields, k) ==> r == Ok(default)
  {
    if !j.JObj? then Err(AttributeError)
    else match Lookup(j.fields, k)
      case Some(v) => Ok(v)
      case None => Ok(default)
  }

  /** `j[k]` for a string `k`: a dict raises `KeyError` on a missing key, anything else `TypeError`. */
  function PySubscript(j: Json, k: string): (r: Result<Json, PyExc>)
    ensures r.Ok? <==> j.JObj? && HasKey(j.fields, k)
    ensures r.Ok? ==> Lookup(j.fields, k) == Some(r.value)
    ensures j.JObj? && !HasKey(j.fields, k) ==> r == Err(KeyError)
    ensures !j.JObj? ==> r == Err(TypeError)
  {
    if !j.JObj? then Err(TypeError)
    else match Lookup(j.fields, k)
      case Some(v) => Ok(v)
      case None => Err(KeyError)
  }

  /** Python's `j[0]`: a JSON dict has no integer key, a string yields its first character. */
  function PyIndex0(j: Json): (r: Result<Json, PyExc>)
    ensures r.Ok? <==> (j.JArr? && j.items != []) || (j.JStr? && j.s != "")
    ensures j.JArr? && j.items != [] ==> r == Ok(j.items[0])
  {
    match j
    case JArr(items) => if items == [] then Err(IndexError) else Ok(items[0])
    case JStr(s) => if s == "" then Err(IndexError) else Ok(JStr([s[0]]))
    case JObj(_) => Err(KeyError)
    case _ => Err(TypeError)
  }

  /** The integer value of a Python `int` (a `bool` counts as 0 or 1). */
  function PyIntValue(j: Json): int
    requires IsPyInt(j)
  {
    if j.JInt? then j.i else if j.b then 1 else 0
  }

  /** Python's `k in j` for a string `k`. */
  function PyIn(k: string, j: Json): (r: Result<bool, PyExc>)
    ensures j.JObj? ==> r == Ok(HasKey(j.fields, k))
    ensures j.JArr? ==> r == Ok(JStr(k) in j.items)
    ensures j.JStr? ==> r == Ok(Contains(j.s, k))
    ensures r.Err? <==> !(j.JObj? || j.JArr? || j.JStr?)
  {
    match j
    case JObj(fields) => Ok(HasKey(fields, k))
    case JArr(items) => Ok(JStr(k) in items)
    case JStr(s) => Ok(Contains(s, k))
    case _ => Err(TypeError)
  }

  function HexDigit(d: nat): char
    requires d < 16
  {
    if d < 10 then DigitChar(d) else ('a' as int + d - 10) as char
  }

  /** Python's `repr` of a string (quote choice and escapes of ASCII characters). */
  function ReprStr(s: string): string
  {
    var q := if '\'' in s && '"' !in s then '"' else '\'';
    [q] + ReprChars(s, q) + [q]
  }

  function ReprChars(s: string, q: char): string
  {
    if s == [] then ""
    else
      var c := s[0];
      var e :=
        if c == q || c == '\\' then ['\\', c]
        else if c == '\t' then "\\t"
        else if c == '\n' then "\\n"
        else if c == '\r' then "\\r"
        else if c < ' ' || c == '\U{7f}' then "\\x" + [HexDigit(c as int / 16), HexDigit(c as int % 16)]
        else [c];
      e + ReprChars(s[1..], q)
  }

  /** Python's `repr(j)` */
  function PyRepr(j: Json): string
  {
    match j
    case JStr(s) => ReprStr(s)
    case JArr(items) =>
      "[" + Join(seq(|items|, i requires 0 <= i < |items| => PyRepr(items[i])), ", ") + "]"
    case JObj(fields) =>
      "{" + Join(seq(|fields|, i requires 0 <= i < |fields| => ReprStr(fields[i].0) + ": " + PyRepr(fields[i].1)), ", ") + "}"
    case JNull => "None"
    case JBool(b) => if b then "True" else "False"
    case JInt(i) => IntToString(i)
  }

  /** Python's `str(j)`, which is also what an f-string inserts. */
  function PyStr(j: Json): (r: string)
    ensures j.JStr? ==> r == j.s
    ensures j.JInt? ==> r == IntToString(j.i)
    ensures !j.JStr? ==> r == PyRepr(j)
  {
    match j
    case JStr(s) => s
    case _ => PyRepr(j)
  }
}

=== FILE: json_parse.dfy ===
/**
 * `json.loads` on the integer-only fragment of JSON the tool stores and
 * receives: whitespace between tokens, the literals, integers, strings with
 * every JSON escape, arrays and objects. An object is built the way Python
 * builds a `dict` from its pairs: a repeated key keeps its first position and
 * takes its last value. `None` stands for `json.JSONDecodeError`.
 *
 * The partner of the parser is `json.dumps(..., ensure_ascii=False)`: every
 * value whose objects have distinct keys comes back unchanged.
 */
module JsonParse {
  import opened Common
  import opened Text
  import opened Json
  import opened JsonText

  /** The whitespace JSON allows between tokens. */
  predicate IsWs(c: char) { c == ' ' || c == '\t' || c == '\n' || c == '\r' }

  function SkipWs(s: string): (r: string)
    ensures |r| <= |s|
    ensures r != [] ==> !IsWs(r[0])
  {
    if s != [] && IsWs(s[0]) then SkipWs(s[1..]) else s
  }

  function HexValue(c: char): (r: Option<nat>)
    ensures r.Some? ==> r.value < 16
  {
    if '0' <= c <= '9' then Some(c as int - '0' as int)
    else if 'a' <= c <= 'f' then Some(c as int - 'a' as int + 10)
    else if 'A' <= c <= 'F' then Some(c as int - 'A' as int + 10)
    else None
  }

  /** The four hexadecimal digits of a `\uXXXX` escape. */
  function Hex4Value(s: string): (r: Option<nat>)
    requires |s| == 4
    ensures r.Some? ==> r.value < 0x10000
  {
    match (HexValue(s[0]), HexValue(s[1]), HexValue(s[2]), HexValue(s[3]))
    case (Some(a), Some(b), Some(c), Some(d)) => Some(a * 0x1000 + b * 0x100 + c * 0x10 + d)
    case _ => None
  }

  /**
   * The character an escape stands for, `s` being the text after the
   * backslash; a surrogate pair gives one character.
   */
  function Unescape(s: string): (r: Option<(char, string)>)
    ensures r.Some? ==> |r.value.1| < |s|
  {
    if s == [] then None
    else if s[0] == '"' || s[0] == '\\' || s[0] == '/' then Some((s[0], s[1..]))
    else if s[0] == 'b' then Some(('\U{8}', s[1..]))
    else if s[0] == 'f' then Some(('\U{c}', s[1..]))
    else if s[0] == 'n' then Some(('\n', s[1..]))
    else if s[0] == 'r' then Some(('\r', s[1..]))
    else if s[0] == 't' then Some(('\t', s[1..]))
    else if s[0] == 'u' && |s| >= 5 then
      match Hex4Value(s[1..5])
      case None => None
      case Some(u) =>
        if u < 0xD800 || 0xE000 <= u then Some((u as char, s[5..]))
        else if u < 0xDC00 && |s| >= 11 && s[5] == '\\' && s[6] == 'u' then
          match Hex4Value(s[7..11])
          case Some(l) =>
            if 0xDC00 <= l < 0xE000 then Some(((0x10000 + (u - 0xD800) * 0x400 + (l - 0xDC00)) as char, s[11..]))
            else None
          case None => None
        else None
    else None
  }

  /** One character of a string literal: a raw character other than a control character, or an escape. */
  function NextChar(s: string): (r: Option<(char, string)>)
    ensures r.Some? ==> |r.value.1| < |s|
  {
    if s == [] || s[0] == '"' || s[0] < ' ' then None
    else if s[0] == '\\' then Unescape(s[1..])
    else Some((s[0], s[1..]))
  }

  /** The characters of a string literal after its opening quote, and the text after its closing quote. */
  function ParseChars(s: string): (r: Option<(string, string)>)
    ensures r.Some? ==> |r.value.1| < |s|
  {
    if s == [] then None
    else if s[0] == '"' then Some(([], s[1..]))
    else
      var head := NextChar(s);
      if head.None? then None
      else
        var tail := ParseChars(head.value.1);
        if tail.None? then None else Some(([head.value.0] + tail.value.0, tail.value.1))
  }

  /** The length of the run of decimal digits `s` starts with. */
  function DigitRun(s: string): (n: nat)
    ensures n <= |s| && AllDigits(s[..n])
    ensures n < |s| ==> !IsDigit(s[n])
  {
    if s != [] && IsDigit(s[0]) then
      var m := DigitRun(s[1..]);
      assert s[..m + 1] == [s[0]] + s[1..][..m];
      m + 1
    else 0
  }

  /** The digits of a non-negative number, `0|[1-9][0-9]*`, and the text after them. */
  function ParseNat(s: string): (r: Option<(nat, string)>)
    ensures r.Some? ==> |r.value.1| < |s|
  {
    var n := DigitRun(s);
    if n == 0 || (n > 1 && s[0] == '0') then None
    else Some((DigitsValue(s[..n]), s[n..]))
  }

  /**
   * A number: `-?(0|[1-9][0-9]*)`. A fraction or an exponent makes it a
   * float, which this model does not decode.
   */
  function ParseNumber(t: string): (r: Option<(Json, string)>)
    ensures r.Some? ==> |r.value.1| < |t|
  {
    var neg := t != [] && t[0] == '-';
    var n := ParseNat(if neg then t[1..] else t);
    if n.None? then None
    else
      var rest := n.value.1;
      if rest != [] && (rest[0] == '.' || rest[0] == 'e' || rest[0] == 'E') then None
      else
        var v: int := n.value.0;
        Some((JInt(if neg then -v else v), rest))
  }

  /** A token of JSON text: a bracket, a separator, or a literal, number or string. */
  datatype Token = LBrace | RBrace | LBracket | RBracket | Comma | Colon | Scalar(value: Json)

  /** The token `t` starts with, and the text after it. */
  function NextToken(t: string): (r: Option<(Token, string)>)
    ensures r.Some? ==> |r.value.1| < |t|
  {
    if t == [] then None
    else if t[0] == '{' then Some((LBrace, t[1..]))
    else if t[0] == '}' then Some((RBrace, t[1..]))
    else if t[0] == '[' then Some((LBracket, t[1..]))
    else if t[0] == ']' then Some((RBracket, t[1..]))
    else if t[0] == ',' then Some((Comma, t[1..]))
    else if t[0] == ':' then Some((Colon, t[1..]))
    else if t[0] == '"' then
      var str := ParseChars(t[1..]);
      if str.None? then None else Some((Scalar(JStr(str.value.0)), str.value.1))
    else if "null" <= t then Some((Scalar(JNull), t[4..]))
    else if "true" <= t then Some((Scalar(JBool(true)), t[4..]))
    else if "false" <= t then Some((Scalar(JBool(false)), t[5..]))
    else
      var n := ParseNumber(t);
      if n.None? then None else Some((Scalar(n.value.0), n.value.1))
  }

  /** The tokens of a text, whitespace between them dropped; `None` on a character no token starts with. */
  function Lex(s: string): (r: Option<seq<Token>>)
    decreases |s|
  {
    var t := SkipWs(s);
    if t == [] then Some([])
    else
      var head := NextToken(t);
      if head.None? then None
      else
        var tail := Lex(head.value.1);
        if tail.None? then None else Some([head.value.0] + tail.value)
  }

  /** One value at the head of the tokens, and the tokens after it. */
  function ParseValue(ts: seq<Token>): (r: Option<(Json, seq<Token>)>)
    ensures r.Some? ==> |r.value.1| < |ts|
    decreases |ts|, 0
  {
    if ts == [] then None
    else if ts[0].Scalar? then Some((ts[0].value, ts[1..]))
    else if ts[0] == LBracket then
      if |ts| > 1 && ts[1] == RBracket then Some((JArr([]), ts[2..]))
      else
        var elements := ParseElements(ts[1..]);
        if elements.None? then None else Some((JArr(elements.value.0), elements.value.1))
    else if ts[0] == LBrace then
      if |ts| > 1 && ts[1] == RBrace then Some((JObj([]), ts[2..]))
      else
        var members := ParseMembers(ts[1..]);
        if members.None? then None else Some((JObj(Update([], members.value.0)), members.value.1))
    else None
  }

  /** The elements of a non-empty array and its closing `]`. */
  function ParseElements(ts: seq<Token>): (r: Option<(seq<Json>, seq<Token>)>)
    ensures r.Some? ==> |r.value.1| < |ts|
    decreases |ts|, 1
  {
    var first := ParseValue(ts);
    if first.None? then None
    else
      var (v, rest) := first.value;
      if rest == [] then None
      else if rest[0] == RBracket then Some(([v], rest[1..]))
      else if rest[0] == Comma then
        var others := ParseElements(rest[1..]);
        if others.None? then None else Some(([v] + others.value.0, others.value.1))
      else None
  }

  /** The `"key": value` pairs of a non-empty object, in text order, and its closing `}`. */
  function ParseMembers(ts: seq<Token>): (r: Option<(Dict, seq<Token>)>)
    ensures r.Some? ==> |r.value.1| < |ts|
    decreases |ts|, 1
  {
    if |ts| < 2 || !(ts[0].Scalar? && ts[0].value.JStr?) || ts[1] != Colon then None
    else
      var first := ParseValue(ts[2..]);
      if first.None? then None
      else
        var (v, rest) := first.value;
        var pair := (ts[0].value.s, v);
        if rest == [] then None
        else if rest[0] == RBrace then Some(([pair], rest[1..]))
        else if rest[0] == Comma then
          var others := ParseMembers(rest[1..]);
          if others.None? then None else Some(([pair] + others.value.0, others.value.1))
        else None
  }

  /**
   * `json.loads(s)`: one value and nothing after it but whitespace. An
   * object is built as `dict(pairs)` builds it.
   */
  function Loads(s: string): Option<Json>
  {
    var ts := Lex(s);
    if ts.None? then None
    else
      var r := ParseValue(ts.value);
      if r.Some? && r.value.1 == [] then Some(r.value.0) else None
  }

  /** The options of `json.dumps(x, ensure_ascii=False)`. */
  const PLAIN := DumpOptions(false, false)

  /** Every dictionary inside the value has distinct keys, as a Python `dict` does. */
  predicate WellFormed(j: Json)
  {
    match j
    case JArr(items) => forall i :: 0 <= i < |items| ==> WellFormed(items[i])
    case JObj(fields) => DistinctKeys(fields) && forall i :: 0 <= i < |fields| ==> WellFormed(fields[i].1)
    case _ => true
  }

  // ---------------------------------------------------------------------------
  // Round trip: json.loads(json.dumps(x, ensure_ascii=False)) == x

  /** Text that cannot continue a number: nothing, or a bracket, a brace or a separator. */
  predicate Delimited(rest: string)
  {
    rest == [] || rest[0] == ',' || rest[0] == ':' || rest[0] == '[' || rest[0] == ']' || rest[0] == '{' || rest[0] == '}'
  }

  lemma HexDigitValue(d: nat)
    requires d < 16
    ensures HexValue(HexDigit(d)) == Some(d)
  {
  }

  lemma HexPlaces(n: nat)
    requires n < 0x10000
    ensures (n / 0x1000) * 0x1000 + (n / 0x100 % 16) * 0x100 + (n / 16 % 16) * 0x10 + n % 16 == n
  {
    assert n / 0x100 == (n / 0x1000) * 16 + n / 0x100 % 16;
    assert n / 16 == (n / 0x100) * 16 + n / 16 % 16;
    assert n == (n / 16) * 16 + n % 16;
  }

  lemma Hex4RoundTrip(n: nat)
    requires n < 0x10000
    ensures Hex4Value(Hex4(n)) == Some(n)
  {
    var h := Hex4(n);
    HexDigitValue(n / 0x1000);
    HexDigitValue(n / 0x100 % 16);
    HexDigitValue(n / 16 % 16);
    HexDigitValue(n % 16);
    HexPlaces(n);
    assert HexValue(h[0]) == Some(n / 0x1000);
    assert HexValue(h[1]) == Some(n / 0x100 % 16);
    assert HexValue(h[2]) == Some(n / 16 % 16);
    assert HexValue(h[3]) == Some(n % 16);
  }

  /** Each character `json.dumps` writes decodes back to that character. */
  lemma EscapeCharNext(c: char, x: string)
    ensures var e := EscapeChar(c, false) + x; e != [] && e[0] != '"' && NextChar(e) == Some((c, x))
  {
    var e := EscapeChar(c, false) + x;
    if c < ' ' && c != '\n' && c != '\r' && c != '\t' && c != '\U{8}' && c != '\U{c}' {
      assert EscapeChar(c, false) == "\\u" + Hex4(c as int);
      UnicodeEscapeNext(c as int, x);
    } else if c == '"' || c == '\\' || c == '\n' || c == '\r' || c == '\t' || c == '\U{8}' || c == '\U{c}' {
      assert e[1..][1..] == x;
    } else {
      assert e[1..] == x;
    }
  }

  /** A `\uXXXX` escape outside the surrogate range stands for its code point. */
  lemma UnicodeEscapeNext(n: nat, x: string)
    requires n < 0xD800
    ensures NextChar("\\u" + Hex4(n) + x) == Some((n as char, x))
  {
    var e := "\\u" + Hex4(n) + x;
    var u := e[1..];
    Hex4RoundTrip(n);
    assert u[0] == 'u' && u[1..5] == Hex4(n);
    assert u[5..] == x;
  }

  lemma {:induction false} EscapeCharsRoundTrip(s: string, rest: string)
    ensures ParseChars(EscapeChars(s, false) + "\"" + rest) == Some((s, rest))
  {
    if s == [] {
      assert EscapeChars(s, false) + "\"" + rest == "\"" + rest;
    } else {
      var tail := EscapeChars(s[1..], false) + "\"" + rest;
      assert EscapeChars(s, false) + "\"" + rest == EscapeChar(s[0], false) + tail;
      EscapeCharNext(s[0], tail);
      EscapeCharsRoundTrip(s[1..], rest);
      assert [s[0]] + s[1..] == s;
    }
  }

  /** `str(n)` has no leading zero. */
  lemma {:induction false} NatToStringLead(n: nat)
    requires NatToString(n)[0] == '0'
    ensures n == 0
  {
    if n >= 10 {
      assert NatToString(n)[0] == NatToString(n / 10)[0];
      NatToStringLead(n / 10);
    }
  }

  lemma {:induction false} DigitRunOf(d: string, rest: string)
    requires AllDigits(d) && (rest == [] || !IsDigit(rest[0]))
    ensures DigitRun(d + rest) == |d|
  {
    if d != [] {
      assert (d + rest)[1..] == d[1..] + rest;
      DigitRunOf(d[1..], rest);
    }
  }

  lemma NatRoundTrip(m: nat, rest: string)
    requires Delimited(rest)
    ensures ParseNat(NatToString(m) + rest) == Some((m, rest))
  {
    var d := NatToString(m);
    var s := d + rest;
    DigitRunOf(d, rest);
    assert s[..|d|] == d && s[|d|..] == rest;
    DigitsValueOfNat(m);
    if s[0] == '0' { NatToStringLead(m); }
  }

  lemma IntRoundTripJson(i: int, rest: string)
    requires Delimited(rest)
    ensures ParseNumber(IntToString(i) + rest) == Some((JInt(i), rest))
  {
    if i < 0 {
      var d := NatToString(-i);
      var t := "-" + (d + rest);
      assert IntToString(i) + rest == t;
      assert t[1..] == d + rest;
      NatRoundTrip(-i, rest);
      NegativeNumber(d + rest, -i, rest);
    } else {
      var d := NatToString(i);
      assert IntToString(i) == d;
      NatRoundTrip(i, rest);
      PositiveNumber(d + rest, i, rest);
    }
  }

  lemma NegativeNumber(s: string, m: nat, rest: string)
    requires ParseNat(s) == Some((m, rest)) && Delimited(rest)
    ensures ParseNumber("-" + s) == Some((JInt(-(m as int)), rest))
  {
    assert ("-" + s)[1..] == s;
  }

  lemma PositiveNumber(s: string, m: nat, rest: string)
    requires ParseNat(s) == Some((m, rest)) && Delimited(rest)
    ensures ParseNumber(s) == Some((JInt(m), rest))
  {
    assert s != [] && IsDigit(s[0]);
  }

  /** The tokens of a value. */
  function Toks(j: Json): (r: seq<Token>)
    ensures r != [] && r[0] != RBracket && r[0] != RBrace && r[0] != Comma && r[0] != Colon
    decreases j, 1, 0
  {
    match j
    case JArr(items) => if items == [] then [LBracket, RBracket] else [LBracket] + ElementToks(j, 0) + [RBracket]
    case JObj(fields) => if fields == [] then [LBrace, RBrace] else [LBrace] + MemberToks(j, 0) + [RBrace]
    case _ => [Scalar(j)]
  }

  /** The tokens of the elements from `i` on, separated by commas. */
  function ElementToks(j: Json, i: nat): (r: seq<Token>)
    requires j.JArr? && i < |j.items|
    ensures r != [] && r[0] != RBracket
    decreases j, 0, |j.items| - i
  {
    Toks(j.items[i]) + if i + 1 < |j.items| then [Comma] + ElementToks(j, i + 1) else []
  }

  /** The tokens of the entries from `i` on, separated by commas. */
  function MemberToks(j: Json, i: nat): (r: seq<Token>)
    requires j.JObj? && i < |j.fields|
    ensures r != [] && r[0] == Scalar(JStr(j.fields[i].0))
    decreases j, 0, |j.fields| - i
  {
    [Scalar(JStr(j.fields[i].0)), Colon] + Toks(j.fields[i].1) + if i + 1 < |j.fields| then [Comma] + MemberToks(j, i + 1) else []
  }

  function DumpsItems(items: seq<Json>): (r: seq<string>)
    ensures |r| == |items|
  {
    seq(|items|, i requires 0 <= i < |items| => Dumps(items[i], PLAIN))
  }

  function DumpsMembers(fields: Dict): (r: seq<string>)
    ensures |r| == |fields|
  {
    seq(|fields|, i requires 0 <= i < |fields| => Quote(fields[i].0, false) + ": " + Dumps(fields[i].1, PLAIN))
  }

  lemma DumpsArray(items: seq<Json>)
    ensures Dumps(JArr(items), PLAIN) == "[" + Join(DumpsItems(items), ", ") + "]"
  {
  }

  lemma DumpsDict(fields: Dict)
    ensures Dumps(JObj(fields), PLAIN) == "{" + Join(DumpsMembers(fields), ", ") + "}"
  {
    DumpsObject(fields, PLAIN);
    var e := Encoded(fields, PLAIN);
    var parts := seq(|e|, i requires 0 <= i < |e| => Quote(e[i].0, false) + ": " + e[i].1);
    assert parts == DumpsMembers(fields);
  }

  lemma LiteralToken(j: Json, rest: string)
    requires j.JNull? || j.JBool?
    ensures var t := Dumps(j, PLAIN) + rest; t != [] && !IsWs(t[0]) && NextToken(t) == Some((Scalar(j), rest))
  {
    var t := Dumps(j, PLAIN) + rest;
    if j.JNull? {
      assert "null" <= t && t[4..] == rest;
    } else if j.b {
      assert "true" <= t && t[4..] == rest;
    } else {
      assert "false" <= t && t[5..] == rest;
    }
  }

  lemma IntToken(i: int, rest: string)
    requires Delimited(rest)
    ensures var t := IntToString(i) + rest; t != [] && !IsWs(t[0]) && NextToken(t) == Some((Scalar(JInt(i)), rest))
  {
    var t := IntToString(i) + rest;
    IntRoundTripJson(i, rest);
    assert IsDigit(t[0]) || t[0] == '-';
    NumberToken(t, JInt(i), rest);
  }

  /** Text starting with a digit or a minus sign is a number token. */
  lemma NumberToken(t: string, v: Json, rest: string)
    requires t != [] && (IsDigit(t[0]) || t[0] == '-') && ParseNumber(t) == Some((v, rest))
    ensures NextToken(t) == Some((Scalar(v), rest))
  {
    assert !("null" <= t) && !("true" <= t) && !("false" <= t);
  }

  lemma StrToken(s: string, rest: string)
    ensures var t := Quote(s, false) + rest; t != [] && !IsWs(t[0]) && NextToken(t) == Some((Scalar(JStr(s)), rest))
  {
    var t := Quote(s, false) + rest;
    assert t[1..] == EscapeChars(s, false) + "\"" + rest;
    EscapeCharsRoundTrip(s, rest);
  }

  // Lexing: the text of a token sequence, spelled as `json.dumps` spells it

  lemma Assoc<T>(a: seq<T>, b: seq<T>, c: seq<T>)
    ensures a + b + c == a + (b + c)
  {
  }

  /** How `json.dumps` writes a scalar. */
  function ScalarText(v: Json): string
  {
    match v
    case JNull => "null"
    case JBool(b) => if b then "true" else "false"
    case JInt(i) => IntToString(i)
    case JStr(str) => Quote(str, false)
    case _ => ""
  }

  /** How `json.dumps` writes one token: a separator is followed by a space. */
  function TokText(t: Token): string
  {
    if t == LBrace then "{"
    else if t == RBrace then "}"
    else if t == LBracket then "["
    else if t == RBracket then "]"
    else if t == Comma then ", "
    else if t == Colon then ": "
    else ScalarText(t.value)
  }

  function Spell(ts: seq<Token>): string
  {
    if ts == [] then "" else TokText(ts[0]) + Spell(ts[1..])
  }

  lemma {:induction false} SpellAppend(a: seq<Token>, b: seq<Token>)
    ensures Spell(a + b) == Spell(a) + Spell(b)
  {
    if a == [] {
      assert a + b == b;
    } else {
      assert (a + b)[0] == a[0] && (a + b)[1..] == a[1..] + b;
      SpellAppend(a[1..], b);
      Assoc(TokText(a[0]), Spell(a[1..]), Spell(b));
    }
  }

  lemma SpellCons(t: Token, ts: seq<Token>)
    ensures Spell([t] + ts) == TokText(t) + Spell(ts)
  {
    assert ([t] + ts)[1..] == ts;
  }

  /**
   * Token sequences the lexer reads back: scalars are literals, numbers or
   * strings, and no two scalars are adjacent (a number running into the next
   * one would read as one number).
   */
  predicate Lexable(ts: seq<Token>)
  {
    (forall i :: 0 <= i < |ts| && ts[i].Scalar? ==> !ts[i].value.JArr? && !ts[i].value.JObj?)
    && (forall i :: 0 <= i < |ts| - 1 ==> !(ts[i].Scalar? && ts[i + 1].Scalar?))
  }

  lemma LexableAppend(a: seq<Token>, b: seq<Token>)
    requires Lexable(a) && Lexable(b)
    requires a != [] && b != [] ==> !(a[|a| - 1].Scalar? && b[0].Scalar?)
    ensures Lexable(a + b)
  {
    var ab := a + b;
    forall i | 0 <= i < |ab| - 1
      ensures !(ab[i].Scalar? && ab[i + 1].Scalar?)
    {
      if i + 1 < |a| {
        assert ab[i] == a[i] && ab[i + 1] == a[i + 1];
      } else if i + 1 == |a| {
        assert ab[i] == a[|a| - 1] && ab[i + 1] == b[0];
      } else {
        assert ab[i] == b[i - |a|] && ab[i + 1] == b[i - |a| + 1];
      }
    }
  }

  /** The text after a scalar token, when the next token is not a scalar. */
  lemma SpellDelimited(ts: seq<Token>)
    requires ts != [] ==> !ts[0].Scalar?
    ensures Delimited(Spell(ts))
  {
    if ts != [] {
      SpellCons(ts[0], ts[1..]);
      assert [ts[0]] + ts[1..] == ts;
    }
  }

  lemma LexSpace(x: string)
    ensures Lex(" " + x) == Lex(x)
  {
    assert (" " + x)[1..] == x;
    assert SkipWs(" " + x) == SkipWs(x);
  }

  /** A bracket or a brace, then the rest. */
  lemma LexPunct(t: Token, x: string, ts: seq<Token>)
    requires t == LBrace || t == RBrace || t == LBracket || t == RBracket
    requires Lex(x) == Some(ts)
    ensures Lex(TokText(t) + x) == Some([t] + ts)
  {
    var s := TokText(t) + x;
    assert s[1..] == x;
    assert SkipWs(s) == s;
  }

  /** A comma or a colon and its space, then the rest. */
  lemma LexSeparator(t: Token, x: string, ts: seq<Token>)
    requires t == Comma || t == Colon
    requires Lex(x) == Some(ts)
    ensures Lex(TokText(t) + x) == Some([t] + ts)
  {
    var s := TokText(t) + x;
    assert s[1..] == " " + x;
    assert SkipWs(s) == s;
    LexSpace(x);
  }

  /** A literal, a number or a string, then text that cannot continue it. */
  lemma LexScalar(v: Json, x: string, ts: seq<Token>)
    requires !v.JArr? && !v.JObj? && Delimited(x) && Lex(x) == Some(ts)
    ensures Lex(ScalarText(v) + x) == Some([Scalar(v)] + ts)
  {
    var s := ScalarText(v) + x;
    match v
    case JStr(str) => StrToken(str, x);
    case JInt(i) => IntToken(i, x);
    case _ => LiteralToken(v, x);
  }

  /** The lexer reads back the spelling of a token sequence. */
  lemma {:induction false} LexSpell(ts: seq<Token>)
    requires Lexable(ts)
    ensures Lex(Spell(ts)) == Some(ts)
  {
    if ts == [] {
      assert Lex("") == Some([]);
    } else {
      var t, rest := ts[0], ts[1..];
      assert Lexable(rest) by {
        forall i | 0 <= i < |rest| - 1 ensures !(rest[i].Scalar? && rest[i + 1].Scalar?) {
          assert rest[i] == ts[i + 1] && rest[i + 1] == ts[i + 2];
        }
      }
      LexSpell(rest);
      assert [t] + rest == ts;
      SpellCons(t, rest);
      if t.Scalar? {
        assert rest != [] ==> !rest[0].Scalar? by {
          if rest != [] { assert rest[0] == ts[1]; }
        }
        SpellDelimited(rest);
        LexScalar(t.value, Spell(rest), rest);
      } else if t == Comma || t == Colon {
        LexSeparator(t, Spell(rest), rest);
      } else {
        LexPunct(t, Spell(rest), rest);
      }
    }
  }

  // The spelling of the tokens of a value is its `json.dumps` text

  lemma {:induction false} SpellToks(j: Json)
    ensures Spell(Toks(j)) == Dumps(j, PLAIN)
    decreases j, 3, 0
  {
    match j
    case JArr(items) => SpellArray(j);
    case JObj(fields) => SpellObject(j);
    case _ =>
      assert Spell([Scalar(j)]) == ScalarText(j) + "";
      assert ScalarText(j) == Dumps(j, PLAIN);
  }

  lemma {:induction false} SpellArray(j: Json)
    requires j.JArr?
    ensures Spell(Toks(j)) == Dumps(j, PLAIN)
    decreases j, 2, 0
  {
    var items := j.items;
    DumpsArray(items);
    if items == [] {
      assert Spell(Toks(j)) == "[" + Spell([RBracket]);
    } else {
      var e := ElementToks(j, 0);
      SpellElements(j, 0);
      assert DumpsItems(items)[0..] == DumpsItems(items);
      SpellAppend([LBracket] + e, [RBracket]);
      SpellAppend([LBracket], e);
      assert Spell([RBracket]) == "]";
      assert Spell([LBracket]) == "[";
    }
  }

  lemma {:induction false} SpellObject(j: Json)
    requires j.JObj?
    ensures Spell(Toks(j)) == Dumps(j, PLAIN)
    decreases j, 2, 0
  {
    var fields := j.fields;
    DumpsDict(fields);
    if fields == [] {
      assert Spell(Toks(j)) == "{" + Spell([RBrace]);
    } else {
      var m := MemberToks(j, 0);
      SpellMembers(j, 0);
      assert DumpsMembers(fields)[0..] == DumpsMembers(fields);
      SpellAppend([LBrace] + m, [RBrace]);
      SpellAppend([LBrace], m);
      assert Spell([RBrace]) == "}";
      assert Spell([LBrace]) == "{";
    }
  }

  lemma {:induction false} SpellElements(j: Json, i: nat)
    requires j.JArr? && i < |j.items|
    ensures Spell(ElementToks(j, i)) == Join(DumpsItems(j.items)[i..], ", ")
    decreases j, 1, |j.items| - i
  {
    var items := j.items;
    var parts := DumpsItems(items)[i..];
    var d := Dumps(items[i], PLAIN);
    SpellToks(items[i]);
    assert parts[0] == d;
    if i == |items| - 1 {
      assert ElementToks(j, i) == Toks(items[i]);
      assert |parts| == 1;
    } else {
      var later := ElementToks(j, i + 1);
      SpellElements(j, i + 1);
      assert parts[1..] == DumpsItems(items)[i + 1..];
      var others := Join(parts[1..], ", ");
      assert Join(parts, ", ") == d + ", " + others;
      SpellAppend(Toks(items[i]), [Comma] + later);
      SpellCons(Comma, later);
      assert Spell(ElementToks(j, i)) == d + (", " + others);
      Assoc(d, ", ", others);
    }
  }

  /** A key and its colon. */
  lemma SpellKey(k: string)
    ensures Spell([Scalar(JStr(k)), Colon]) == Quote(k, false) + ": "
  {
    SpellCons(Scalar(JStr(k)), [Colon]);
    SpellCons(Colon, []);
  }

  /** One member: the key, the colon and its space, the value. */
  lemma SpellMember(k: string, v: Json)
    ensures Spell([Scalar(JStr(k)), Colon] + Toks(v)) == Quote(k, false) + ": " + Dumps(v, PLAIN)
    decreases v, 4, 0
  {
    SpellKey(k);
    SpellAppend([Scalar(JStr(k)), Colon], Toks(v));
    SpellToks(v);
  }

  lemma DumpsMemberAt(fields: Dict, i: nat)
    requires i < |fields|
    ensures DumpsMembers(fields)[i] == Quote(fields[i].0, false) + ": " + Dumps(fields[i].1, PLAIN)
  {
  }

  lemma {:induction false} SpellMembers(j: Json, i: nat)
    requires j.JObj? && i < |j.fields|
    ensures Spell(MemberToks(j, i)) == Join(DumpsMembers(j.fields)[i..], ", ")
    decreases j, 1, |j.fields| - i
  {
    SpellMember(j.fields[i].0, j.fields[i].1);
    DumpsMemberAt(j.fields, i);
    if i < |j.fields| - 1 {
      SpellMembers(j, i + 1);
      SpellNextMember(j, i);
    } else {
      SpellLastMember(j, i);
    }
  }

  /** The spelling of the last member. */
  lemma SpellLastMember(j: Json, i: nat)
    requires j.JObj? && i == |j.fields| - 1
    requires Spell([Scalar(JStr(j.fields[i].0)), Colon] + Toks(j.fields[i].1)) == DumpsMembers(j.fields)[i]
    ensures Spell(MemberToks(j, i)) == Join(DumpsMembers(j.fields)[i..], ", ")
  {
    var parts := DumpsMembers(j.fields)[i..];
    assert MemberToks(j, i) == [Scalar(JStr(j.fields[i].0)), Colon] + Toks(j.fields[i].1);
    assert parts == [DumpsMembers(j.fields)[i]];
  }

  /** The spelling of the members from `i` on, from that of member `i` and of those after it. */
  lemma SpellNextMember(j: Json, i: nat)
    requires j.JObj? && i < |j.fields| - 1
    requires Spell([Scalar(JStr(j.fields[i].0)), Colon] + Toks(j.fields[i].1)) == DumpsMembers(j.fields)[i]
    requires Spell(MemberToks(j, i + 1)) == Join(DumpsMembers(j.fields)[i + 1..], ", ")
    ensures Spell(MemberToks(j, i)) == Join(DumpsMembers(j.fields)[i..], ", ")
  {
    var fields := j.fields;
    var first := [Scalar(JStr(fields[i].0)), Colon] + Toks(fields[i].1);
    var parts := DumpsMembers(fields)[i..];
    var later := MemberToks(j, i + 1);
    assert MemberToks(j, i) == first + ([Comma] + later);
    assert parts[0] == DumpsMembers(fields)[i];
    assert parts[1..] == DumpsMembers(fields)[i + 1..];
    var others := Join(parts[1..], ", ");
    assert Join(parts, ", ") == parts[0] + ", " + others;
    SpellAppend(first, [Comma] + later);
    SpellCons(Comma, later);
    assert Spell(MemberToks(j, i)) == parts[0] + (", " + others);
    Assoc(parts[0], ", ", others);
  }

  // The tokens of a value are lexable

  lemma {:induction false} LexableToks(j: Json)
    ensures Lexable(Toks(j))
    decreases j, 2, 0
  {
    match j
    case JArr(items) =>
      if items != [] {
        LexableElements(j, 0);
        LexableAppend([LBracket], ElementToks(j, 0));
        LexableAppend([LBracket] + ElementToks(j, 0), [RBracket]);
      }
    case JObj(fields) =>
      if fields != [] {
        LexableMembers(j, 0);
        LexableAppend([LBrace], MemberToks(j, 0));
        LexableAppend([LBrace] + MemberToks(j, 0), [RBrace]);
      }
    case _ =>
  }

  lemma {:induction false} LexableElements(j: Json, i: nat)
    requires j.JArr? && i < |j.items|
    ensures Lexable(ElementToks(j, i))
    decreases j, 1, |j.items| - i
  {
    LexableToks(j.items[i]);
    if i < |j.items| - 1 {
      LexableElements(j, i + 1);
      LexableAppend([Comma], ElementToks(j, i + 1));
      LexableAppend(Toks(j.items[i]), [Comma] + ElementToks(j, i + 1));
    } else {
      assert ElementToks(j, i) == Toks(j.items[i]);
    }
  }

  lemma {:induction false} LexableMembers(j: Json, i: nat)
    requires j.JObj? && i < |j.fields|
    ensures Lexable(MemberToks(j, i))
    decreases j, 1, |j.fields| - i
  {
    var (k, v) := j.fields[i];
    var head: seq<Token> := [Scalar(JStr(k)), Colon];
    LexableToks(v);
    LexableAppend(head, Toks(v));
    if i < |j.fields| - 1 {
      LexableMembers(j, i + 1);
      LexableAppend([Comma], MemberToks(j, i + 1));
      LexableAppend(head + Toks(v), [Comma] + MemberToks(j, i + 1));
    } else {
      assert MemberToks(j, i) == head + Toks(v);
    }
  }

  /** The text `json.dumps` writes lexes to the tokens of the value. */
  lemma LexDumps(j: Json)
    ensures Lex(Dumps(j, PLAIN)) == Some(Toks(j))
  {
    SpellToks(j);
    LexableToks(j);
    LexSpell(Toks(j));
  }

  // Parsing: one step of the parser on tokens whose head is known

  lemma ParseOpenArray(x: seq<Token>, items: seq<Json>, ts: seq<Token>)
    requires x != [] && x[0] != RBracket && ParseElements(x) == Some((items, ts))
    ensures ParseValue([LBracket] + x) == Some((JArr(items), ts))
  {
    assert ([LBracket] + x)[1..] == x;
  }

  lemma ParseOpenObject(x: seq<Token>, pairs: Dict, ts: seq<Token>)
    requires x != [] && x[0] != RBrace && ParseMembers(x) == Some((pairs, ts))
    ensures ParseValue([LBrace] + x) == Some((JObj(Update([], pairs)), ts))
  {
    assert ([LBrace] + x)[1..] == x;
  }

  lemma ParseLastElement(a: seq<Token>, v: Json, ts: seq<Token>)
    requires ParseValue(a + ([RBracket] + ts)) == Some((v, [RBracket] + ts))
    ensures ParseElements(a + ([RBracket] + ts)) == Some(([v], ts))
  {
    assert ([RBracket] + ts)[1..] == ts;
  }

  lemma ParseNextElement(a: seq<Token>, v: Json, later: seq<Token>, vs: seq<Json>, ts: seq<Token>)
    requires ParseValue(a + ([Comma] + later)) == Some((v, [Comma] + later))
    requires ParseElements(later) == Some((vs, ts))
    ensures ParseElements(a + ([Comma] + later)) == Some(([v] + vs, ts))
  {
    assert ([Comma] + later)[1..] == later;
  }

  lemma ParseLastMember(k: string, a: seq<Token>, v: Json, ts: seq<Token>)
    requires ParseValue(a + ([RBrace] + ts)) == Some((v, [RBrace] + ts))
    ensures ParseMembers([Scalar(JStr(k)), Colon] + (a + ([RBrace] + ts))) == Some(([(k, v)], ts))
  {
    var s := [Scalar(JStr(k)), Colon] + (a + ([RBrace] + ts));
    assert s[2..] == a + ([RBrace] + ts);
    assert ([RBrace] + ts)[1..] == ts;
  }

  lemma ParseNextMember(k: string, a: seq<Token>, v: Json, later: seq<Token>, pairs: Dict, ts: seq<Token>)
    requires ParseValue(a + ([Comma] + later)) == Some((v, [Comma] + later))
    requires ParseMembers(later) == Some((pairs, ts))
    ensures ParseMembers([Scalar(JStr(k)), Colon] + (a + ([Comma] + later))) == Some(([(k, v)] + pairs, ts))
  {
    var s := [Scalar(JStr(k)), Colon] + (a + ([Comma] + later));
    assert s[2..] == a + ([Comma] + later);
    assert ([Comma] + later)[1..] == later;
  }

  // Parsing the tokens of a value

  /** The parser reads a value back from its tokens, whatever follows them. */
  lemma {:induction false} ParseToks(j: Json, ts: seq<Token>)
    requires WellFormed(j)
    ensures ParseValue(Toks(j) + ts) == Some((j, ts))
    decreases j, 3, 0, 0
  {
    match j
    case JArr(items) => ParseArrayToks(j, ts);
    case JObj(fields) => ParseObjectToks(j, ts);
    case _ => assert (Toks(j) + ts)[1..] == ts;
  }

  lemma {:induction false} ParseArrayToks(j: Json, ts: seq<Token>)
    requires j.JArr? && WellFormed(j)
    ensures ParseValue(Toks(j) + ts) == Some((j, ts))
    decreases j, 2, 0, 0
  {
    if j.items == [] {
      assert (Toks(j) + ts)[2..] == ts;
    } else {
      var x := ElementToks(j, 0) + [RBracket] + ts;
      ParseElementToks(j, 0, ts);
      assert j.items[0..] == j.items;
      assert Toks(j) + ts == [LBracket] + x;
      ParseOpenArray(x, j.items, ts);
    }
  }

  lemma {:induction false} ParseObjectToks(j: Json, ts: seq<Token>)
    requires j.JObj? && WellFormed(j)
    ensures ParseValue(Toks(j) + ts) == Some((j, ts))
    decreases j, 2, 0, 0
  {
    if j.fields == [] {
      assert (Toks(j) + ts)[2..] == ts;
    } else {
      var x := MemberToks(j, 0) + [RBrace] + ts;
      ParseMemberToks(j, 0, ts);
      assert j.fields[0..] == j.fields;
      assert Toks(j) + ts == [LBrace] + x;
      ParseOpenObject(x, j.fields, ts);
      assert Update([], j.fields) == j.fields by {
        UpdateFresh([], j.fields);
        assert [] + j.fields == j.fields;
      }
    }
  }

  lemma ElementToksSplit(j: Json, i: nat, ts: seq<Token>)
    requires j.JArr? && i < |j.items|
    ensures i == |j.items| - 1 ==> ElementToks(j, i) + [RBracket] + ts == Toks(j.items[i]) + ([RBracket] + ts)
    ensures i < |j.items| - 1 ==>
      ElementToks(j, i) + [RBracket] + ts == Toks(j.items[i]) + ([Comma] + (ElementToks(j, i + 1) + [RBracket] + ts))
  {
  }

  lemma MemberToksSplit(j: Json, i: nat, ts: seq<Token>)
    requires j.JObj? && i < |j.fields|
    ensures i == |j.fields| - 1 ==>
      MemberToks(j, i) + [RBrace] + ts == [Scalar(JStr(j.fields[i].0)), Colon] + (Toks(j.fields[i].1) + ([RBrace] + ts))
    ensures i < |j.fields| - 1 ==>
      MemberToks(j, i) + [RBrace] + ts
      == [Scalar(JStr(j.fields[i].0)), Colon] + (Toks(j.fields[i].1) + ([Comma] + (MemberToks(j, i + 1) + [RBrace] + ts)))
  {
  }

  lemma {:induction false} ParseElementToks(j: Json, i: nat, ts: seq<Token>)
    requires j.JArr? && WellFormed(j) && i < |j.items|
    ensures ParseElements(ElementToks(j, i) + [RBracket] + ts) == Some((j.items[i..], ts))
    decreases j, 1, |j.items| - i, 1
  {
    if i == |j.items| - 1 {
      ParseLastElementToks(j, i, ts);
    } else {
      ParseNextElementToks(j, i, ts);
    }
  }

  lemma {:induction false} ParseLastElementToks(j: Json, i: nat, ts: seq<Token>)
    requires j.JArr? && WellFormed(j) && i == |j.items| - 1
    ensures ParseElements(ElementToks(j, i) + [RBracket] + ts) == Some((j.items[i..], ts))
    decreases j, 1, |j.items| - i, 0
  {
    var v := j.items[i];
    ParseToks(v, [RBracket] + ts);
    ParseLastElement(Toks(v), v, ts);
    ElementToksSplit(j, i, ts);
    assert j.items[i..] == [v];
  }

  lemma {:induction false} ParseNextElementToks(j: Json, i: nat, ts: seq<Token>)
    requires j.JArr? && WellFormed(j) && i < |j.items| - 1
    ensures ParseElements(ElementToks(j, i) + [RBracket] + ts) == Some((j.items[i..], ts))
    decreases j, 1, |j.items| - i, 0
  {
    var v := j.items[i];
    var later := ElementToks(j, i + 1) + [RBracket] + ts;
    ParseToks(v, [Comma] + later);
    ParseElementToks(j, i + 1, ts);
    ParseNextElement(Toks(v), v, later, j.items[i + 1..], ts);
    ElementToksSplit(j, i, ts);
    assert j.items[i..] == [v] + j.items[i + 1..];
  }

  lemma {:induction false} ParseMemberToks(j: Json, i: nat, ts: seq<Token>)
    requires j.JObj? && WellFormed(j) && i < |j.fields|
    ensures ParseMembers(MemberToks(j, i) + [RBrace] + ts) == Some((j.fields[i..], ts))
    decreases j, 1, |j.fields| - i, 1
  {
    if i == |j.fields| - 1 {
      ParseLastMemberToks(j, i, ts);
    } else {
      ParseNextMemberToks(j, i, ts);
    }
  }

  lemma {:induction false} ParseLastMemberToks(j: Json, i: nat, ts: seq<Token>)
    requires j.JObj? && WellFormed(j) && i == |j.fields| - 1
    ensures ParseMembers(MemberToks(j, i) + [RBrace] + ts) == Some((j.fields[i..], ts))
    decreases j, 1, |j.fields| - i, 0
  {
    var (k, v) := j.fields[i];
    ParseToks(v, [RBrace] + ts);
    ParseLastMember(k, Toks(v), v, ts);
    MemberToksSplit(j, i, ts);
    assert j.fields[i..] == [(k, v)];
  }

  lemma {:induction false} ParseNextMemberToks(j: Json, i: nat, ts: seq<Token>)
    requires j.JObj? && WellFormed(j) && i < |j.fields| - 1
    ensures ParseMembers(MemberToks(j, i) + [RBrace] + ts) == Some((j.fields[i..], ts))
    decreases j, 1, |j.fields| - i, 0
  {
    var (k, v) := j.fields[i];
    var later := MemberToks(j, i + 1) + [RBrace] + ts;
    ParseToks(v, [Comma] + later);
    ParseMemberToks(j, i + 1, ts);
    ParseNextMember(k, Toks(v), v, later, j.fields[i + 1..], ts);
    MemberToksSplit(j, i, ts);
    assert j.fields[i..] == [(k, v)] + j.fields[i + 1..];
  }

  /** Building a dictionary from pairs with fresh, distinct keys keeps them as they are. */
  lemma {:induction false} UpdateFresh(d: Dict, pairs: Dict)
    requires DistinctKeys(d + pairs)
    ensures Update(d, pairs) == d + pairs
    decreases |pairs|
  {
    if pairs != [] {
      var (k, v) := pairs[0];
      assert !HasKey(d, k) by {
        forall i | 0 <= i < |d| ensures d[i].0 != k {
          assert (d + pairs)[i] == d[i] && (d + pairs)[|d|] == pairs[0];
        }
      }
      assert Put(d, k, v) == d + [(k, v)];
      assert (d + [(k, v)]) + pairs[1..] == d + pairs;
      UpdateFresh(d + [(k, v)], pairs[1..]);
    }
  }

  /**
   * `json.loads(json.dumps(x, ensure_ascii=False)) == x` for every value whose
   * dictionaries have distinct keys, as every Python dictionary does.
   */
  lemma LoadsDumps(j: Json)
    requires WellFormed(j)
    ensures Loads(Dumps(j, PLAIN)) == Some(j)
  {
    LexDumps(j);
    ParseToks(j, []);
    assert Toks(j) + [] == Toks(j);
  }
}

=== FILE: json_text.dfy ===
/**
 * `json.dumps` as the tool calls it: the default separators `", "` and `": "`,
 * `ensure_ascii` on (cache keys) or off (the stored profile), and `sort_keys`
 * on (cache keys) or off. With `sort_keys` the entries of every object are
 * ordered by key, so the text depends only on the mapping, never on the
 * insertion order.
 */
module JsonText {
  import opened Common
  import opened Text
  import opened Json

  datatype DumpOptions = DumpOptions(sortKeys: bool, ensureAscii: bool)

  /** Python's `<` on strings: lexicographic by code point. */
  predicate Less(a: string, b: string)
  {
    if a == [] then b != []
    else if b == [] then false
    else a[0] < b[0] || (a[0] == b[0] && Less(a[1..], b[1..]))
  }

  lemma {:induction false} LessIrreflexive(a: string)
    ensures !Less(a, a)
  {
    if a != [] { LessIrreflexive(a[1..]); }
  }

  lemma {:induction false} LessTransitive(a: string, b: string, c: string)
    requires Less(a, b) && Less(b, c)
    ensures Less(a, c)
  {
    if a != [] && b != [] && c != [] && a[0] == b[0] == c[0] {
      LessTransitive(a[1..], b[1..], c[1..]);
    }
  }

  lemma {:induction false} LessTotal(a: string, b: string)
    requires a != b
    ensures Less(a, b) || Less(b, a)
  {
    if a != [] && b != [] && a[0] == b[0] {
      assert a == [a[0]] + a[1..] && b == [b[0]] + b[1..];
      LessTotal(a[1..], b[1..]);
    }
  }

  lemma LessAsymmetric(a: string, b: string)
    requires Less(a, b)
    ensures !Less(b, a)
  {
    if Less(b, a) {
      LessTransitive(a, b, a);
      LessIrreflexive(a);
    }
  }

  /** Entries in strictly increasing key order. */
  predicate StrictlySorted<T>(d: seq<(string, T)>)
  {
    forall i, j :: 0 <= i < j < |d| ==> Less(d[i].0, d[j].0)
  }

  /** Places `e` before the first entry whose key is not below its own. */
  function Insert<T>(e: (string, T), d: seq<(string, T)>): (r: seq<(string, T)>)
    ensures multiset(r) == multiset(d) + multiset{e}
    ensures |r| == |d| + 1
  {
    if d == [] || !Less(d[0].0, e.0) then [e] + d
    else
      assert d == [d[0]] + d[1..];
      [d[0]] + Insert(e, d[1..])
  }

  lemma {:induction false} InsertSorted<T>(e: (string, T), d: seq<(string, T)>)
    requires StrictlySorted(d)
    requires forall i :: 0 <= i < |d| ==> d[i].0 != e.0
    ensures StrictlySorted(Insert(e, d))
  {
    if d != [] && Less(d[0].0, e.0) {
      var t := d[1..];
      InsertSorted(e, t);
      var r := Insert(e, d);
      var it := Insert(e, t);
      assert r == [d[0]] + it;
      forall j | 1 <= j < |r| ensures Less(d[0].0, r[j].0) {
        assert r[j] in multiset(it);
        assert r[j] in multiset(t) || r[j] == e;
        if r[j] != e {
          var k :| 0 <= k < |t| && t[k] == r[j];
          assert Less(d[0].0, d[k + 1].0);
        }
      }
    } else if d != [] {
      var r := Insert(e, d);
      LessTotal(d[0].0, e.0);
      forall j | 1 <= j < |r| ensures Less(e.0, r[j].0) {
        if j > 1 { LessTransitive(e.0, d[0].0, d[j - 1].0); }
      }
    }
  }

  /** `sorted(d.items())` by key, as `sort_keys=True` does. */
  function SortByKey<T>(d: seq<(string, T)>): (r: seq<(string, T)>)
    ensures multiset(r) == multiset(d)
    ensures |r| == |d|
  {
    if d == [] then []
    else
      assert d == [d[0]] + d[1..];
      Insert(d[0], SortByKey(d[1..]))
  }

  lemma {:induction false} SortByKeySorted<T>(d: seq<(string, T)>)
    requires forall i, j :: 0 <= i < j < |d| ==> d[i].0 != d[j].0
    ensures StrictlySorted(SortByKey(d))
  {
    if d != [] {
      var t := d[1..];
      SortByKeySorted(t);
      var st := SortByKey(t);
      forall i | 0 <= i < |st| ensures st[i].0 != d[0].0 {
        assert st[i] in multiset(t);
        var k :| 0 <= k < |t| && t[k] == st[i];
        assert d[k + 1] == st[i];
      }
      InsertSorted(d[0], st);
    }
  }

  /** Two strictly sorted entry lists holding the same entries are the same list. */
  lemma {:induction false} SortedUnique<T>(a: seq<(string, T)>, b: seq<(string, T)>)
    requires StrictlySorted(a) && StrictlySorted(b)
    requires forall x :: x in a <==> x in b
    ensures a == b
  {
    if a != [] { assert a[0] in b; }
    if b != [] { assert b[0] in a; }
    if a != [] && b != [] {
      if a[0] != b[0] {
        var i :| 0 <= i < |b| && b[i] == a[0];
        var j :| 0 <= j < |a| && a[j] == b[0];
        LessAsymmetric(b[0].0, b[i].0);
        assert false;
      }
      LessIrreflexive(a[0].0);
      forall x ensures x in a[1..] <==> x in b[1..] {
        if x in a[1..] {
          var k :| 1 <= k < |a| && a[k] == x;
          assert Less(a[0].0, x.0);
          assert x in a && x in b;
          var m :| 0 <= m < |b| && b[m] == x;
          assert m != 0;
          assert b[1..][m - 1] == x;
        }
        if x in b[1..] {
          var k :| 1 <= k < |b| && b[k] == x;
          assert Less(b[0].0, x.0);
          assert x in b && x in a;
          var m :| 0 <= m < |a| && a[m] == x;
          assert m != 0;
          assert a[1..][m - 1] == x;
        }
      }
      SortedUnique(a[1..], b[1..]);
    }
  }

  function Hex4(n: nat): string
    requires n < 0x10000
  {
    [HexDigit(n / 0x1000), HexDigit(n / 0x100 % 16), HexDigit(n / 16 % 16), HexDigit(n % 16)]
  }

  /** How `json.dumps` writes one character inside a string literal. */
  function EscapeChar(c: char, ensureAscii: bool): string
  {
    if c == '"' then "\\\""
    else if c == '\\' then "\\\\"
    else if c == '\n' then "\\n"
    else if c == '\r' then "\\r"
    else if c == '\t' then "\\t"
    else if c == '\U{8}' then "\\b"
    else if c == '\U{c}' then "\\f"
    else if c < ' ' then "\\u" + Hex4(c as int)
    else if !ensureAscii || c <= '~' then [c]
    else if c as int < 0x10000 then "\\u" + Hex4(c as int)
    else
      var n := c as int - 0x10000;
      "\\u" + Hex4(0xD800 + n / 0x400) + "\\u" + Hex4(0xDC00 + n % 0x400)
  }

  function EscapeChars(s: string, ensureAscii: bool): string
  {
    if s == [] then "" else EscapeChar(s[0], ensureAscii) + EscapeChars(s[1..], ensureAscii)
  }

  /** A JSON string literal. */
  function Quote(s: string, ensureAscii: bool): (r: string)
    ensures |r| >= 2 && r[0] == '"' && r[|r| - 1] == '"'
  {
    "\"" + EscapeChars(s, ensureAscii) + "\""
  }

  /** `json.dumps(j, sort_keys=..., ensure_ascii=...)` */
  function Dumps(j: Json, opts: DumpOptions): (r: string)
  {
    match j
    case JNull => "null"
    case JBool(b) => if b then "true" else "false"
    case JInt(i) => IntToString(i)
    case JStr(s) => Quote(s, opts.ensureAscii)
    case JArr(items) =>
      "[" + Join(seq(|items|, i requires 0 <= i < |items| => Dumps(items[i], opts)), ", ") + "]"
    case JObj(fields) =>
      var encoded := seq(|fields|, i requires 0 <= i < |fields| => (fields[i].0, Dumps(fields[i].1, opts)));
      "{" + JoinEntries(if opts.sortKeys then SortByKey(encoded) else encoded, opts.ensureAscii) + "}"
  }

  /** The entries of a dictionary with their values serialised, in insertion order. */
  function Encoded(d: Dict, opts: DumpOptions): (r: seq<(string, string)>)
    ensures |r| == |d|
    ensures forall i :: 0 <= i < |d| ==> r[i] == (d[i].0, Dumps(d[i].1, opts))
  {
    seq(|d|, i requires 0 <= i < |d| => (d[i].0, Dumps(d[i].1, opts)))
  }

  lemma DumpsObject(d: Dict, opts: DumpOptions)
    ensures Dumps(JObj(d), opts)
         == "{" + JoinEntries(if opts.sortKeys then SortByKey(Encoded(d, opts)) else Encoded(d, opts), opts.ensureAscii) + "}"
  {
    var e := seq(|d|, i requires 0 <= i < |d| => (d[i].0, Dumps(d[i].1, opts)));
    assert e == Encoded(d, opts);
  }

  /** Entry lists with distinct keys and the same entries sort to the same list. */
  lemma SortSameEntries<T>(e1: seq<(string, T)>, e2: seq<(string, T)>)
    requires forall i, j :: 0 <= i < j < |e1| ==> e1[i].0 != e1[j].0
    requires forall i, j :: 0 <= i < j < |e2| ==> e2[i].0 != e2[j].0
    requires forall x :: x in e1 <==> x in e2
    ensures SortByKey(e1) == SortByKey(e2)
  {
    SortByKeySorted(e1);
    SortByKeySorted(e2);
    var s1 := SortByKey(e1);
    var s2 := SortByKey(e2);
    forall x ensures x in s1 <==> x in s2 {
      SortKeepsEntries(e1, x);
      SortKeepsEntries(e2, x);
    }
    SortedUnique(s1, s2);
  }

  lemma SortKeepsEntries<T>(e: seq<(string, T)>, x: (string, T))
    ensures x in SortByKey(e) <==> x in e
  {
    var s := SortByKey(e);
    assert x in s <==> x in multiset(s);
    assert x in e <==> x in multiset(e);
  }

  /** `"key": value` entries separated by `", "`. */
  function JoinEntries(entries: seq<(string, string)>, ensureAscii: bool): string
  {
    Join(seq(|entries|, i requires 0 <= i < |entries| => Quote(entries[i].0, ensureAscii) + ": " + entries[i].1), ", ")
  }

  /** The options of `json.dumps(params, sort_keys=True)`. */
  const SORTED := DumpOptions(true, true)

  /**
   * Two dictionaries that are equal as Python dictionaries, whatever their
   * insertion order, serialise to the same text under `sort_keys=True`.
   */
  lemma DumpsSortedIgnoresOrder(d1: Dict, d2: Dict)
    requires DistinctKeys(d1) && DistinctKeys(d2) && ToMap(d1) == ToMap(d2)
    ensures Dumps(JObj(d1), SORTED) == Dumps(JObj(d2), SORTED)
  {
    var e1 := Encoded(d1, SORTED);
    var e2 := Encoded(d2, SORTED);
    forall x | x in e1 ensures x in e2 {
      var i :| 0 <= i < |e1| && e1[i] == x;
      SameEntries(d1, d2, i);
      var j :| 0 <= j < |d2| && d2[j] == d1[i];
      assert e2[j] == x;
    }
    forall x | x in e2 ensures x in e1 {
      var j :| 0 <= j < |e2| && e2[j] == x;
      SameEntries(d2, d1, j);
      var i :| 0 <= i < |d1| && d1[i] == d2[j];
      assert e1[i] == x;
    }
    SortSameEntries(e1, e2);
    DumpsObject(d1, SORTED);
    DumpsObject(d2, SORTED);
  }

  /** The text of a dictionary is `{...}`. */
  lemma DumpsObjectBraces(d: Dict, opts: DumpOptions)
    ensures var r := Dumps(JObj(d), opts); |r| >= 2 && r[0] == '{' && r[|r| - 1] == '}'
  {
  }
}

=== FILE: package_client.dfy ===
/**
 * `FTClient` of `ftcli/client.py`: three read calls to the France Travail
 * APIs, each asking the token holder for a bearer token first, then serving
 * the answer from a persistent cache (entries without expiry) or fetching it
 * and storing it.
 */
module PackageClient {
  import opened Common
  import opened Text
  import opened Json
  import opened JsonText
  import opened Http
  import opened TokenHolder

  /** Python truthiness of an optional string argument. */
  predicate Given(x: Option<string>)
  {
    x.Some? && x.value != ""
  }

  function StrArg(x: Option<string>): Json
  {
    if x.Some? then JStr(x.value) else JNull
  }

  /** `search_offres` query parameters. `max_results` defaults to 15. */
  function SearchParams(mots: Option<string>, departement: Option<string>, commune: Option<string>,
                        maxResults: int, typeContrat: Option<string>): (params: Dict)
    ensures DistinctKeys(params)
  {
    var p1 := PutIf([], Given(mots), "motsCles", StrArg(mots));
    var p2 := PutIf(p1, Given(departement), "departement", StrArg(departement));
    var p3 := PutIf(p2, Given(commune), "commune", StrArg(commune));
    var p4 := PutIf(p3, Given(typeContrat), "typeContrat", StrArg(typeContrat));
    PutIf(p4, true, "range", JStr("0-" + IntToString(maxResults - 1)))
  }

  /**
   * A filter is sent iff its argument is truthy, and `range` always is, as
   * `"0-"` followed by `max_results - 1`; nothing else is sent.
   */
  lemma SearchParamsContents(mots: Option<string>, departement: Option<string>, commune: Option<string>,
                             maxResults: int, typeContrat: Option<string>)
    ensures var params := SearchParams(mots, departement, commune, maxResults, typeContrat);
      && Lookup(params, "motsCles") == (if Given(mots) then Some(JStr(mots.value)) else None)
      && Lookup(params, "departement") == (if Given(departement) then Some(JStr(departement.value)) else None)
      && Lookup(params, "commune") == (if Given(commune) then Some(JStr(commune.value)) else None)
      && Lookup(params, "typeContrat") == (if Given(typeContrat) then Some(JStr(typeContrat.value)) else None)
      && Lookup(params, "range") == Some(JStr("0-" + IntToString(maxResults - 1)))
  {
    var range := JStr("0-" + IntToString(maxResults - 1));
    var p1 := PutIf([], Given(mots), "motsCles", StrArg(mots));
    var p2 := PutIf(p1, Given(departement), "departement", StrArg(departement));
    var p3 := PutIf(p2, Given(commune), "commune", StrArg(commune));
    var p4 := PutIf(p3, Given(typeContrat), "typeContrat", StrArg(typeContrat));
    PutIfSame([], Given(mots), "motsCles", StrArg(mots));
    PutIfOther([], Given(mots), "motsCles", StrArg(mots), "departement");
    PutIfOther([], Given(mots), "motsCles", StrArg(mots), "commune");
    PutIfOther([], Given(mots), "motsCles", StrArg(mots), "typeContrat");
    PutIfOther([], Given(mots), "motsCles", StrArg(mots), "range");
    PutIfOther(p1, Given(departement), "departement", StrArg(departement), "motsCles");
    PutIfSame(p1, Given(departement), "departement", StrArg(departement));
    PutIfOther(p1, Given(departement), "departement", StrArg(departement), "commune");
    PutIfOther(p1, Given(departement), "departement", StrArg(departement), "typeContrat");
    PutIfOther(p1, Given(departement), "departement", StrArg(departement), "range");
    PutIfOther(p2, Given(commune), "commune", StrArg(commune), "motsCles");
    PutIfOther(p2, Given(commune), "commune", StrArg(commune), "departement");
    PutIfSame(p2, Given(commune), "commune", StrArg(commune));
    PutIfOther(p2, Given(commune), "commune", StrArg(commune), "typeContrat");
    PutIfOther(p2, Given(commune), "commune", StrArg(commune), "range");
    PutIfOther(p3, Given(typeContrat), "typeContrat", StrArg(typeContrat), "motsCles");
    PutIfOther(p3, Given(typeContrat), "typeContrat", StrArg(typeContrat), "departement");
    PutIfOther(p3, Given(typeContrat), "typeContrat", StrArg(typeContrat), "commune");
    PutIfSame(p3, Given(typeContrat), "typeContrat", StrArg(typeContrat));
    PutIfOther(p3, Given(typeContrat), "typeContrat", StrArg(typeContrat), "range");
    PutIfOther(p4, true, "range", range, "motsCles");
    PutIfOther(p4, true, "range", range, "departement");
    PutIfOther(p4, true, "range", range, "commune");
    PutIfOther(p4, true, "range", range, "typeContrat");
    PutIfSame(p4, true, "range", range);
  }

  /** Only those five keys can be sent. */
  lemma SearchParamsKeys(mots: Option<string>, departement: Option<string>, commune: Option<string>,
                         maxResults: int, typeContrat: Option<string>)
    ensures KeySet(SearchParams(mots, departement, commune, maxResults, typeContrat))
         <= {"motsCles", "departement", "commune", "typeContrat", "range"}
  {
    var p1 := PutIf([], Given(mots), "motsCles", StrArg(mots));
    var p2 := PutIf(p1, Given(departement), "departement", StrArg(departement));
    var p3 := PutIf(p2, Given(commune), "commune", StrArg(commune));
    var p4 := PutIf(p3, Given(typeContrat), "typeContrat", StrArg(typeContrat));
    PutIfKeys([], Given(mots), "motsCles", StrArg(mots));
    assert KeySet(p1) <= {"motsCles"};
    PutIfKeys(p1, Given(departement), "departement", StrArg(departement));
    assert KeySet(p2) <= {"motsCles", "departement"};
    PutIfKeys(p2, Given(commune), "commune", StrArg(commune));
    assert KeySet(p3) <= {"motsCles", "departement", "commune"};
    PutIfKeys(p3, Given(typeContrat), "typeContrat", StrArg(typeContrat));
    assert KeySet(p4) <= {"motsCles", "departement", "commune", "typeContrat"};
    PutIfKeys(p4, true, "range", JStr("0-" + IntToString(maxResults - 1)));
  }

  /** With the default `max_results` the range asks for the first 15 offers. */
  lemma DefaultRange()
    ensures "0-" + IntToString(15 - 1) == "0-14"
  {
    assert NatToString(1) == "1";
    assert NatToString(14) == NatToString(1) + "4";
  }

  /** `get_potential_companies` query parameters. */
  function CompaniesParams(job: string, location: string): (params: Dict)
    ensures DistinctKeys(params)
  {
    var p1 := PutIf([], true, "job", JStr(job));
    var p2 := PutIf(p1, true, "location", JStr(location));
    var p3 := PutIf(p2, true, "distance", JInt(20));
    PutIf(p3, true, "sort", JStr("score"))
  }

  /** The company search always sends distance 20 and sort order `score` beside the job and the place. */
  lemma CompaniesParamsContents(job: string, location: string)
    ensures var params := CompaniesParams(job, location);
      && Lookup(params, "job") == Some(JStr(job)) && Lookup(params, "location") == Some(JStr(location))
      && Lookup(params, "distance") == Some(JInt(20)) && Lookup(params, "sort") == Some(JStr("score"))
  {
    var p1 := PutIf([], true, "job", JStr(job));
    var p2 := PutIf(p1, true, "location", JStr(location));
    var p3 := PutIf(p2, true, "distance", JInt(20));
    PutIfSame([], true, "job", JStr(job));
    PutIfOther([], true, "job", JStr(job), "location");
    PutIfOther([], true, "job", JStr(job), "distance");
    PutIfOther([], true, "job", JStr(job), "sort");
    PutIfOther(p1, true, "location", JStr(location), "job");
    PutIfSame(p1, true, "location", JStr(location));
    PutIfOther(p1, true, "location", JStr(location), "distance");
    PutIfOther(p1, true, "location", JStr(location), "sort");
    PutIfOther(p2, true, "distance", JInt(20), "job");
    PutIfOther(p2, true, "distance", JInt(20), "location");
    PutIfSame(p2, true, "distance", JInt(20));
    PutIfOther(p2, true, "distance", JInt(20), "sort");
    PutIfOther(p3, true, "sort", JStr("score"), "job");
    PutIfOther(p3, true, "sort", JStr("score"), "location");
    PutIfOther(p3, true, "sort", JStr("score"), "distance");
    PutIfSame(p3, true, "sort", JStr("score"));
  }

  /** ... and nothing else. */
  lemma CompaniesParamsKeys(job: string, location: string)
    ensures KeySet(CompaniesParams(job, location)) == {"job", "location", "distance", "sort"}
  {
    var p1 := PutIf([], true, "job", JStr(job));
    var p2 := PutIf(p1, true, "location", JStr(location));
    var p3 := PutIf(p2, true, "distance", JInt(20));
    PutIfKeys([], true, "job", JStr(job));
    PutIfKeys(p1, true, "location", JStr(location));
    PutIfKeys(p2, true, "distance", JInt(20));
    PutIfKeys(p3, true, "sort", JStr("score"));
  }

  /** The three cache key formats. */
  function SearchKey(params: Dict): string
  {
    Dumps(JObj(params), SORTED)
  }

  function CompaniesKey(params: Dict): string
  {
    "lbb_" + Dumps(JObj(params), SORTED)
  }

  function OfferKey(offreId: string): string
  {
    "offre_" + offreId
  }

  /** The three calls share one cache without ever colliding: their keys start differently. */
  lemma KeyNamespacesDisjoint(p: Dict, q: Dict, offreId: string)
    ensures SearchKey(p)[0] == '{'
    ensures SearchKey(p) != CompaniesKey(q) && SearchKey(p) != OfferKey(offreId)
    ensures CompaniesKey(q) != OfferKey(offreId)
  {
    DumpsObjectBraces(p, SORTED);
    assert CompaniesKey(q)[0] == 'l';
    assert OfferKey(offreId)[0] == 'o';
  }

  /**
   * A fetch through httpx: `raise_for_status`, `response.json()`, then
   * `.get(field, [])` when `field` is given.
   */
  function Fetched(reply: Reply, field: Option<string>): (r: Result<Json, Failure>)
    ensures reply.Response? && !HttpxAccepts(reply.status) ==> r == Err(StatusError(reply.status))
    ensures field.None? ==> r == HttpxJson(reply)
    ensures field.Some? && HttpxJson(reply).Ok? && HttpxJson(reply).value.JObj? ==>
              r == Ok(if HasKey(HttpxJson(reply).value.fields, field.value)
                      then Lookup(HttpxJson(reply).value.fields, field.value).value else JArr([]))
    ensures field.Some? && HttpxJson(reply).Ok? && !HttpxJson(reply).value.JObj? ==> r == Err(PyError(AttributeError))
  {
    match HttpxJson(reply)
    case Err(f) => Err(f)
    case Ok(data) =>
      if field.None? then Ok(data)
      else match PyGet(data, field.value, JArr([]))
        case Ok(v) => Ok(v)
        case Err(e) => Err(PyError(e))
  }

  class FTClient {
    const auth: Auth
    var cache: map<string, Json>

    /**
     * The object `__init__` builds once `Auth()` has returned: the shared
     * token holder, and the `ft_cache` directory with what earlier runs
     * stored in it.
     */
    constructor (auth: Auth, persisted: map<string, Json>)
      ensures this.auth == auth && cache == persisted
    {
      this.auth := auth;
      cache := persisted;
    }

    /**
     * The shared body of the three calls: token first, then the cache under
     * `key`, then the HTTP reply on a miss. `requested` tells whether the
     * HTTP call was made; `now` and `later` are the token holder's clock
     * readings before and after its token request.
     */
    method Cached(key: string, field: Option<string>, now: int, later: int, tokenReply: Reply, reply: Reply)
      returns (r: Result<Json, Failure>, requested: bool)
      modifies this, auth`token, auth`expiresAt
      ensures auth.State() == GetTokenStep(auth.variant, old(auth.State()), now, later, tokenReply).0
      ensures var tok := GetTokenStep(auth.variant, old(auth.State()), now, later, tokenReply).1;
              if tok.Err? then r == Err(tok.error) && !requested && cache == old(cache)
              else if key in old(cache) then r == Ok(old(cache)[key]) && !requested && cache == old(cache)
              else requested && r == Fetched(reply, field)
                   && cache == if r.Ok? then old(cache)[key := r.value] else old(cache)
    {
      requested := false;
      var tok := auth.GetToken(now, later, tokenReply);
      if tok.Err? {
        return Err(tok.error), false;
      }
      if key in cache {
        return Ok(cache[key]), false;
      }
      requested := true;
      r := Fetched(reply, field);
      if r.Ok? {
        cache := cache[key := r.value];
      }
    }

    /** `search_offres`: the `resultats` list of the search endpoint. */
    method SearchOffres(mots: Option<string>, departement: Option<string>, commune: Option<string>,
                        maxResults: int, typeContrat: Option<string>, now: int, later: int, tokenReply: Reply, reply: Reply)
      returns (r: Result<Json, Failure>, requested: bool)
      modifies this, auth`token, auth`expiresAt
      ensures auth.State() == GetTokenStep(auth.variant, old(auth.State()), now, later, tokenReply).0
      ensures var tok := GetTokenStep(auth.variant, old(auth.State()), now, later, tokenReply).1;
              var key := SearchKey(SearchParams(mots, departement, commune, maxResults, typeContrat));
              if tok.Err? then r == Err(tok.error) && !requested && cache == old(cache)
              else if key in old(cache) then r == Ok(old(cache)[key]) && !requested && cache == old(cache)
              else requested && r == Fetched(reply, Some("resultats"))
                   && cache == if r.Ok? then old(cache)[key := r.value] else old(cache)
    {
      var params := SearchParams(mots, departement, commune, maxResults, typeContrat);
      r, requested := Cached(SearchKey(params), Some("resultats"), now, later, tokenReply, reply);
    }

    /** `get_potential_companies`: the `items` list of La Bonne Boite. */
    method GetPotentialCompanies(job: string, location: string, now: int, later: int, tokenReply: Reply, reply: Reply)
      returns (r: Result<Json, Failure>, requested: bool)
      modifies this, auth`token, auth`expiresAt
      ensures auth.State() == GetTokenStep(auth.variant, old(auth.State()), now, later, tokenReply).0
      ensures var tok := GetTokenStep(auth.variant, old(auth.State()), now, later, tokenReply).1;
              var key := CompaniesKey(CompaniesParams(job, location));
              if tok.Err? then r == Err(tok.error) && !requested && cache == old(cache)
              else if key in old(cache) then r == Ok(old(cache)[key]) && !requested && cache == old(cache)
              else requested && r == Fetched(reply, Some("items"))
                   && cache == if r.Ok? then old(cache)[key := r.value] else old(cache)
    {
      r, requested := Cached(CompaniesKey(CompaniesParams(job, location)), Some("items"), now, later, tokenReply, reply);
    }

    /** `get_offre`: the whole decoded offer. */
    method GetOffre(offreId: string, now: int, later: int, tokenReply: Reply, reply: Reply)
      returns (r: Result<Json, Failure>, requested: bool)
      modifies this, auth`token, auth`expiresAt
      ensures auth.State() == GetTokenStep(auth.variant, old(auth.State()), now, later, tokenReply).0
      ensures var tok := GetTokenStep(auth.variant, old(auth.State()), now, later, tokenReply).1;
              var key := OfferKey(offreId);
              if tok.Err? then r == Err(tok.error) && !requested && cache == old(cache)
              else if key in old(cache) then r == Ok(old(cache)[key]) && !requested && cache == old(cache)
              else requested && r == HttpxJson(reply)
                   && cache == if r.Ok? then old(cache)[key := r.value] else old(cache)
    {
      r, requested := Cached(OfferKey(offreId), None, now, later, tokenReply, reply);
    }
  }
  /**
   * `FTClient()`: `Auth()` first, which resets the shared token holder and
   * raises `RuntimeError` when a credential is missing, so that no client is
   * built; otherwise a client over that holder and the persisted cache.
   */
  method NewClient(slot: AuthSlot, envId: Option<string>, envSecret: Option<string>, persisted: map<string, Json>)
    returns (r: Result<FTClient, Failure>)
    requires slot.Valid() && slot.variant == PACKAGE_AUTH
    modifies slot, slot.instance
    ensures slot.Valid() && slot.instance != null && slot.instance.State() == RESET
    ensures old(slot.instance) != null ==> slot.instance == old(slot.instance)
    ensures r.Err? <==> Missing(envId) || Missing(envSecret)
    ensures r.Err? ==> r.error == PyError(RuntimeError)
    ensures r.Ok? ==> fresh(r.value) && r.value.auth == slot.instance && r.value.cache == persisted
  {
    var a := slot.Obtain(envId, envSecret);
    if a.None? {
      return Err(PyError(RuntimeError));
    }
    var client := new FTClient(a.value, persisted);
    r := Ok(client);
  }
}

=== FILE: profile_db.dfy ===
/**
 * The single-profile table `user_profile` of `profile_db.py` (file
 * `ftcli_profile.db`). The key is `INTEGER PRIMARY KEY` without
 * `AUTOINCREMENT`, so SQLite hands out one more than the largest key present,
 * and 1 in an empty table. The profile data is kept as the text of
 * `json.dumps(donnees, ensure_ascii=False)` and decoded again on load.
 */
module UserProfile {
  import opened Common
  import opened Json
  import opened JsonText
  import opened JsonParse
  import opened SqlTable

  /** A `user_profile` row without its key. */
  datatype StoredProfile = StoredProfile(nom: string, email: string, donneesJson: string)

  /** How `load_profile` fails: no table yet (SQLite's `OperationalError`), or a Python error on the data. */
  datatype LoadError = NoSuchTable | Raised(exc: PyExc)

  /** The row `save_profile` writes. */
  function Stored(nom: string, email: string, donnees: Json): StoredProfile
  {
    StoredProfile(nom, email, Dumps(donnees, PLAIN))
  }

  /** The dict display `{"nom": nom, "email": email, **donnees}`: later keys override earlier ones in place. */
  function Merge(nom: string, email: string, donnees: Dict): Dict
  {
    Update([("nom", JStr(nom)), ("email", JStr(email))], donnees)
  }

  /**
   * What `load_profile` makes of a row: the stored text decoded, then merged;
   * text that is not JSON raises `JSONDecodeError` (a `ValueError`), decoded
   * data that is not a dict cannot be unpacked with `**` (`TypeError`).
   */
  function LoadedProfile(row: StoredProfile): (r: Result<Json, PyExc>)
    ensures r.Ok? ==> r.value.JObj?
    ensures Loads(row.donneesJson).None? <==> r == Err(ValueError)
  {
    var donnees := Loads(row.donneesJson);
    if donnees.None? then Err(ValueError)
    else if !donnees.value.JObj? then Err(TypeError)
    else Ok(JObj(Merge(row.nom, row.email, donnees.value.fields)))
  }

  /** A data key overrides `nom`/`email`; the other two keys are always there. */
  lemma MergeLookup(nom: string, email: string, donnees: Dict, k: string)
    requires DistinctKeys(donnees)
    ensures Lookup(Merge(nom, email, donnees), k)
         == if HasKey(donnees, k) then Lookup(donnees, k)
            else if k == "nom" then Some(JStr(nom))
            else if k == "email" then Some(JStr(email))
            else None
  {
    var base := [("nom", JStr(nom)), ("email", JStr(email))];
    UpdateLookup(base, donnees, k);
    if !HasKey(donnees, k) {
      LookupAt(base, 0);
      LookupAt(base, 1);
    }
  }

  /**
   * Saving then loading: a dict comes back merged with `nom` and `email`,
   * anything else raises `TypeError`; the JSON text never fails to decode.
   */
  lemma SaveLoadRoundTrip(nom: string, email: string, donnees: Json)
    requires WellFormed(donnees)
    ensures LoadedProfile(Stored(nom, email, donnees))
         == if donnees.JObj? then Ok(JObj(Merge(nom, email, donnees.fields))) else Err(TypeError)
  {
    LoadsDumps(donnees);
  }

  /** After a save, every key of the saved dict reads back with its saved value. */
  lemma SavedKeysReadBack(nom: string, email: string, donnees: Dict, k: string)
    requires WellFormed(JObj(donnees)) && HasKey(donnees, k)
    ensures LoadedProfile(Stored(nom, email, JObj(donnees))).Ok?
    ensures PyGet(LoadedProfile(Stored(nom, email, JObj(donnees))).value, k, JNull) == Ok(Lookup(donnees, k).value)
  {
    SaveLoadRoundTrip(nom, email, JObj(donnees));
    MergeLookup(nom, email, donnees, k);
  }

  /** The file `ftcli_profile.db`. */
  class ProfileDb {
    var ready: bool                 // `init_db` has created the table
    var rows: Rows<StoredProfile>

    predicate Valid()
      reads this
    {
      Ordered(rows) && (!ready ==> rows == [])
    }

    constructor ()
      ensures Valid() && !ready && rows == []
    {
      ready := false;
      rows := [];
    }

    /** `init_db`: `CREATE TABLE IF NOT EXISTS`; an existing table keeps its rows. */
    method InitDb()
      requires Valid()
      modifies this
      ensures Valid() && ready && rows == old(rows)
    {
      ready := true;
    }

    /**
     * `save_profile`: `DELETE FROM user_profile` then one insert, so the
     * table holds exactly the new row, under key 1; `false` when the table
     * does not exist (SQLite's `OperationalError`).
     */
    method SaveProfile(nom: string, email: string, donnees: Json) returns (ok: bool)
      requires Valid()
      modifies this
      ensures Valid() && ready == old(ready) && ok == old(ready)
      ensures ok ==> rows == [(1, Stored(nom, email, donnees))]
      ensures !ok ==> rows == old(rows)
    {
      if !ready {
        return false;
      }
      rows := [];
      var id := MaxId(rows) + 1;
      rows := rows + [(id, Stored(nom, email, donnees))];
      ok := true;
    }

    /**
     * `load_profile`: `LIMIT 1` reads the first row in key order; `None`
     * when the table is empty, an error when it does not exist.
     */
    method LoadProfile() returns (r: Result<Option<Json>, LoadError>)
      requires Valid()
      ensures !ready ==> r == Err(NoSuchTable)
      ensures ready && rows == [] ==> r == Ok(None)
      ensures ready && rows != [] && LoadedProfile(rows[0].1).Ok? ==> r == Ok(Some(LoadedProfile(rows[0].1).value))
      ensures ready && rows != [] && LoadedProfile(rows[0].1).Err? ==> r == Err(Raised(LoadedProfile(rows[0].1).error))
    {
      if !ready {
        return Err(NoSuchTable);
      }
      if rows == [] {
        return Ok(None);
      }
      var row := rows[0].1;
      var loaded := LoadedProfile(row);
      r := if loaded.Ok? then Ok(Some(loaded.value)) else Err(Raised(loaded.error));
    }
  }
}

=== FILE: root_cli.dfy ===
/**
 * The root command-line front end `cli.py`: the `search` command (Marseille
 * arrondissement filter, result limit, the choice of an offer to detail, and
 * the export) and the file names of `analyse-cv`. The offers come from the
 * root client's `search_offres`; what the user types is an input.
 */
module RootCli {
  import opened Common
  import opened Text
  import opened Json
  import opened Exporter
  import RootClient

  /** The `--max-results` and `--export-filename` defaults. */
  const DEFAULT_MAX_RESULTS := 10
  const DEFAULT_EXPORT_FILENAME := "offres"

  /** The INSEE codes of Marseille's sixteen arrondissements, keyed by their number. */
  const ARR_MARSEILLE: map<string, string> := map[
    "1" := "13201", "2" := "13202", "3" := "13203", "4" := "13204",
    "5" := "13205", "6" := "13206", "7" := "13207", "8" := "13208",
    "9" := "13209", "10" := "13210", "11" := "13211", "12" := "13212",
    "13" := "13213", "14" := "13214", "15" := "13215", "16" := "13216"]

  /** `arr_marseille.get(arrondissement) if arrondissement else None` */
  function CommuneCode(arrondissement: Option<string>): Option<string>
  {
    if arrondissement.None? || arrondissement.value == "" then None
    else if arrondissement.value in ARR_MARSEILLE then Some(ARR_MARSEILLE[arrondissement.value])
    else None
  }

  /** `[commune_code] if commune_code else None`, the `communes` argument of `search_offres`. */
  function Communes(arrondissement: Option<string>): Option<seq<string>>
  {
    var code := CommuneCode(arrondissement);
    if code.Some? && code.value != "" then Some([code.value]) else None
  }

  lemma InseeDigits(n: nat)
    requires 1 <= n <= 16
    ensures NatToString(13200 + n) == "132" + [DigitChar(n / 10), DigitChar(n % 10)]
  {
    assert NatToString(13200 + n) == NatToString(1320 + n / 10) + [DigitChar(n % 10)];
    assert NatToString(1320 + n / 10) == NatToString(132) + [DigitChar(n / 10)];
    assert NatToString(132) == NatToString(13) + ['2'];
    assert NatToString(13) == NatToString(1) + ['3'];
  }

  lemma KeyDigits(n: nat)
    requires 1 <= n <= 16
    ensures NatToString(n) == if n < 10 then [DigitChar(n)] else [DigitChar(n / 10), DigitChar(n % 10)]
  {
    if n >= 10 {
      assert NatToString(n) == NatToString(n / 10) + [DigitChar(n % 10)];
    }
  }

  lemma TableEntryLow(n: nat)
    requires 1 <= n <= 8
    ensures NatToString(n) in ARR_MARSEILLE && ARR_MARSEILLE[NatToString(n)] == "132" + [DigitChar(n / 10), DigitChar(n % 10)]
  {
    KeyDigits(n);
    if n == 1 { assert NatToString(1) == "1"; }
    else if n == 2 { assert NatToString(2) == "2"; }
    else if n == 3 { assert NatToString(3) == "3"; }
    else if n == 4 { assert NatToString(4) == "4"; }
    else if n == 5 { assert NatToString(5) == "5"; }
    else if n == 6 { assert NatToString(6) == "6"; }
    else if n == 7 { assert NatToString(7) == "7"; }
    else { assert NatToString(8) == "8"; }
  }

  lemma TableEntryHigh(n: nat)
    requires 9 <= n <= 16
    ensures NatToString(n) in ARR_MARSEILLE && ARR_MARSEILLE[NatToString(n)] == "132" + [DigitChar(n / 10), DigitChar(n % 10)]
  {
    KeyDigits(n);
    if n == 9 { assert NatToString(9) == "9"; }
    else if n == 10 { assert NatToString(10) == "10"; }
    else if n == 11 { assert NatToString(11) == "11"; }
    else if n == 12 { assert NatToString(12) == "12"; }
    else if n == 13 { assert NatToString(13) == "13"; }
    else if n == 14 { assert NatToString(14) == "14"; }
    else if n == 15 { assert NatToString(15) == "15"; }
    else { assert NatToString(16) == "16"; }
  }

  lemma TableEntry(n: nat)
    requires 1 <= n <= 16
    ensures NatToString(n) in ARR_MARSEILLE && ARR_MARSEILLE[NatToString(n)] == "132" + [DigitChar(n / 10), DigitChar(n % 10)]
  {
    if n <= 8 { TableEntryLow(n); } else { TableEntryHigh(n); }
  }

  /** Arrondissement `n`, for `n` from 1 to 16, is the commune `13200 + n`. */
  lemma ArrondissementInsee(n: nat)
    requires 1 <= n <= 16
    ensures CommuneCode(Some(NatToString(n))) == Some(NatToString(13200 + n))
  {
    InseeDigits(n);
    TableEntry(n);
  }

  /** Any other value ("0", "17", "07", a name) gives no commune filter. */
  lemma OnlyArrondissements(arrondissement: Option<string>)
    ensures CommuneCode(arrondissement).Some?
            ==> exists n :: 1 <= n <= 16 && arrondissement == Some(NatToString(n))
  {
    if CommuneCode(arrondissement).Some? {
      var a := arrondissement.value;

      if a == "1" { KeyDigits(1); }
      else if a == "2" { KeyDigits(2); }
      else if a == "3" { KeyDigits(3); }
      else if a == "4" { KeyDigits(4); }
      else if a == "5" { KeyDigits(5); }
      else if a == "6" { KeyDigits(6); }
      else if a == "7" { KeyDigits(7); }
      else if a == "8" { KeyDigits(8); }
      else if a == "9" { KeyDigits(9); }
      else if a == "10" { KeyDigits(10); }
      else if a == "11" { KeyDigits(11); }
      else if a == "12" { KeyDigits(12); }
      else if a == "13" { KeyDigits(13); }
      else if a == "14" { KeyDigits(14); }
      else if a == "15" { KeyDigits(15); }
      else { KeyDigits(16); }
    }
  }

  /** The client is asked for the arrondissement's commune, and for no commune without one. */
  lemma CommuneSent(arrondissement: Option<string>)
    ensures var code := CommuneCode(arrondissement);
            RootClient.FirstCommune(Communes(arrondissement)) == if code.Some? then JStr(code.value) else JNull
  {
    var code := CommuneCode(arrondissement);
    if code.Some? {
      assert code.value in ARR_MARSEILLE.Values;
      assert code.value != "";
    }
  }

  /** `choix.isdigit()`, for ASCII digits. */
  predicate IsDigitString(s: string)
  {
    s != "" && AllDigits(s)
  }

  /**
   * The index of the offer chosen by typing `choix` when `count` offers are
   * listed: all digits, then `int(choix)` between 1 and `count`.
   */
  function Choice(choix: string, count: nat): (r: Option<nat>)
    ensures r.Some? <==> IsDigitString(choix) && 1 <= DigitsValue(choix) <= count
    ensures r.Some? ==> r.value < count
  {
    if IsDigitString(choix) && 0 < DigitsValue(choix) <= count then Some(DigitsValue(choix) - 1) else None
  }

  /** Typing the number printed in front of an offer chooses that offer. */
  lemma ChoiceOfListedNumber(k: nat, count: nat)
    requires 1 <= k <= count
    ensures Choice(NatToString(k), count) == Some(k - 1)
  {
    DigitsValueOfNat(k);
  }

  /** What `search` does about `--export-format`: the name it prints, and the file, for `txt` and `html` only. */
  datatype ExportStep = ExportStep(filename: string, file: Option<Written>)

  /**
   * `search` run to its end, left by the early `return` on a refused choice,
   * or ended by an exception that escapes `runner` before the export.
   */
  datatype SearchRun =
    | Searched(shown: seq<Json>, chosen: Option<Json>, exported: Option<ExportStep>)
    | Quit(shown: seq<Json>)
    | Raised(shown: seq<Json>, exc: PyExc)

  /** Lines 53-59: `if export_format:` then the name, then a file for the two known formats. */
  function ExportFor(shown: seq<Json>, exportFormat: Option<string>, exportFilename: string): Option<ExportStep>
  {
    if exportFormat.None? || exportFormat.value == "" then None
    else
      var filename := exportFilename + "." + exportFormat.value;
      var file := if exportFormat.value == "txt" then Some(Export(shown, Txt))
                  else if exportFormat.value == "html" then Some(Export(shown, Html))
                  else None;
      Some(ExportStep(filename, file))
  }

  /**
   * The line printed for an offer reads `offre.get("intitule", "?")` and
   * `offre.get("lieuTravail", {}).get("libelle", "?")`: the offer, and its
   * `lieuTravail` when present, must be dicts, or `AttributeError`.
   */
  predicate Listable(offre: Json)
  {
    offre.JObj? && Get(offre.fields, "lieuTravail", JObj([])).JObj?
  }

  /** Every offer shown can be listed. */
  predicate ListingOk(shown: seq<Json>)
  {
    forall i :: 0 <= i < |shown| ==> Listable(shown[i])
  }

  /**
   * What escapes the root `extraire_sections_cv_ia(description)`: the prompt
   * is built by `+` before the `try`, so a description that is not a string
   * raises `TypeError`; when `requests.post` itself raises, the `except`
   * clause reads the unbound `resp` and an `UnboundLocalError` (a
   * `NameError`) escapes; any later failure becomes an `[ERREUR Gemini]` text.
   * Whether the post raises is an input.
   */
  function SummaryRaises(description: Json, postRaises: bool): Option<PyExc>
  {
    if !description.JStr? then Some(TypeError)
    else if postRaises then Some(NameError)
    else None
  }

  /**
   * `runner`: the offers found are cut to `max_results` and listed; when any
   * are left the user's choice must name one of them or the command ends
   * there, and the chosen offer's description is summarised; then the
   * export. `postRaises` tells whether the summary's HTTP post raises.
   */
  function Search(found: seq<Json>, maxResults: int, choix: string, postRaises: bool,
                  exportFormat: Option<string>, exportFilename: string): (r: SearchRun)
    ensures r.shown == Prefix(found, maxResults)
    ensures r.Searched? ==> ListingOk(r.shown) && r.exported == ExportFor(r.shown, exportFormat, exportFilename)
    ensures r.Searched? ==> (r.chosen.None? <==> r.shown == [])
    ensures r.Raised? ==> r.exc == AttributeError || r.exc == TypeError || r.exc == NameError
  {
    var shown := Prefix(found, maxResults);
    if !ListingOk(shown) then Raised(shown, AttributeError)
    else if shown == [] then Searched(shown, None, ExportFor(shown, exportFormat, exportFilename))
    else
      var choice := Choice(choix, |shown|);
      if choice.None? then Quit(shown)
      else
        var offre := shown[choice.value];
        var failure := SummaryRaises(Get(offre.fields, "description", JStr("")), postRaises);
        if failure.Some? then Raised(shown, failure.value)
        else Searched(shown, Some(offre), ExportFor(shown, exportFormat, exportFilename))
  }

  /** At most `max_results` offers are shown, the first ones found. */
  lemma ShownFirstResults(found: seq<Json>, maxResults: int, choix: string, postRaises: bool,
                          exportFormat: Option<string>, exportFilename: string)
    requires maxResults >= 0
    ensures var shown := Search(found, maxResults, choix, postRaises, exportFormat, exportFilename).shown;
            shown <= found && |shown| == if |found| < maxResults then |found| else maxResults
  {
  }

  /** The command ends in `AttributeError`, with no export, exactly when an offer shown cannot be listed. */
  lemma ListingRaises(found: seq<Json>, maxResults: int, choix: string, postRaises: bool,
                      exportFormat: Option<string>, exportFilename: string)
    ensures Search(found, maxResults, choix, postRaises, exportFormat, exportFilename) == Raised(Prefix(found, maxResults), AttributeError)
            <==> !ListingOk(Prefix(found, maxResults))
  {
  }

  /**
   * A choice that is not the number of a listed offer ends the command
   * before any export, unless the listing already raised.
   */
  lemma RefusedChoiceNoExport(found: seq<Json>, maxResults: int, choix: string, postRaises: bool,
                              exportFormat: Option<string>, exportFilename: string)
    requires Prefix(found, maxResults) != []
    requires !IsDigitString(choix) || DigitsValue(choix) == 0 || DigitsValue(choix) > |Prefix(found, maxResults)|
    ensures Search(found, maxResults, choix, postRaises, exportFormat, exportFilename)
            == if ListingOk(Prefix(found, maxResults)) then Quit(Prefix(found, maxResults))
               else Raised(Prefix(found, maxResults), AttributeError)
  {
  }

  /**
   * Typing `k` for one of the listed offers details the `k`-th offer found;
   * the command goes on to the export exactly when the listing and the
   * summary of that offer's description raise nothing, and otherwise ends
   * in the summary's exception.
   */
  lemma ChosenOffer(found: seq<Json>, maxResults: int, k: nat, postRaises: bool,
                    exportFormat: Option<string>, exportFilename: string)
    requires 1 <= k <= |Prefix(found, maxResults)|
    ensures var r := Search(found, maxResults, NatToString(k), postRaises, exportFormat, exportFilename);
            r.Searched? ==> r.chosen == Some(found[k - 1])
    ensures var r := Search(found, maxResults, NatToString(k), postRaises, exportFormat, exportFilename);
            r.Searched? <==> ListingOk(Prefix(found, maxResults)) && found[k - 1].JObj?
                             && SummaryRaises(Get(found[k - 1].fields, "description", JStr("")), postRaises).None?
    ensures var r := Search(found, maxResults, NatToString(k), postRaises, exportFormat, exportFilename);
            ListingOk(Prefix(found, maxResults)) && found[k - 1].JObj?
            && SummaryRaises(Get(found[k - 1].fields, "description", JStr("")), postRaises).Some? ==>
              r == Raised(Prefix(found, maxResults), SummaryRaises(Get(found[k - 1].fields, "description", JStr("")), postRaises).value)
  {
    ChoiceOfListedNumber(k, |Prefix(found, maxResults)|);
  }

  /**
   * The export is named `<export_filename>.<export_format>` for any
   * non-empty format, but only `txt` and `html` produce a file, holding the
   * offers shown.
   */
  lemma ExportGating(shown: seq<Json>, exportFormat: Option<string>, exportFilename: string)
    ensures ExportFor(shown, exportFormat, exportFilename).Some? <==> exportFormat.Some? && exportFormat.value != ""
    ensures ExportFor(shown, exportFormat, exportFilename).Some? ==>
              ExportFor(shown, exportFormat, exportFilename).value.filename == exportFilename + "." + exportFormat.value
    ensures ExportFor(shown, exportFormat, exportFilename).Some? ==>
              (ExportFor(shown, exportFormat, exportFilename).value.file.Some? <==> exportFormat.value in {"txt", "html"})
    ensures exportFormat == Some("txt") ==> ExportFor(shown, exportFormat, exportFilename).value.file == Some(Export(shown, Txt))
    ensures exportFormat == Some("html") ==> ExportFor(shown, exportFormat, exportFilename).value.file == Some(Export(shown, Html))
  {
  }

  /** `cv_path.replace(".pdf", ".txt")`: where `pdftotext` writes the text. */
  function TextPath(cvPath: string): string
  {
    ReplaceAll(cvPath, ".pdf", ".txt")
  }

  /** Where `analyse-cv` puts the analysis. */
  datatype Output = Terminal | ToFile(path: string)

  /** `--out`: the terminal, a file beside the text file for `txt` and `md`, or the path given. */
  function OutputOf(cvPath: string, out: string): Output
  {
    if out == "terminal" then Terminal
    else if out == "txt" || out == "md" then ToFile(ReplaceAll(TextPath(cvPath), ".txt", "_analyse." + out))
    else ToFile(out)
  }

  /** For a CV named `<stem>.pdf` (no other dot), the text goes to `<stem>.txt` and the analysis to `<stem>_analyse.<out>`. */
  lemma PdfPaths(stem: string, out: string)
    requires '.' !in stem
    ensures TextPath(stem + ".pdf") == stem + ".txt"
    ensures out == "txt" || out == "md" ==> OutputOf(stem + ".pdf", out) == ToFile(stem + "_analyse." + out)
  {
    ReplaceAtEnd(stem, ".pdf", ".txt");
    ReplaceAtEnd(stem, ".txt", "_analyse." + out);
  }

  /** A CV path without ".pdf" (say "cv.PDF") is its own text path: `pdftotext` then writes over the CV. */
  lemma TextPathWithoutPdf(cvPath: string)
    requires !Contains(cvPath, ".pdf")
    ensures TextPath(cvPath) == cvPath
  {
    ReplaceAbsent(cvPath, ".pdf", ".txt");
  }
}

=== FILE: root_client.dfy ===
/**
 * `FTClient` of `client.py`: an async context manager that obtains the
 * `auth.py` token holder and a bearer token on entry, fixes that token in the
 * headers of its HTTP session, and serves reads through the request cache of
 * `RequestCache`.
 */
module RootClient {
  import opened Common
  import opened Text
  import opened Json
  import opened Http
  import opened RequestCache
  import opened TokenHolder

  const BASE_URL := "https://api.francetravail.io/partenaire"
  const SEARCH_ENDPOINT := "/offresdemploi/v2/offres/search"

  /** The HTTP session opened by `__aenter__`, with the bearer token of its headers. */
  datatype Session = Session(token: Json)

  /** What `__aexit__` shuts down, in order. */
  datatype Closing = HttpClosed | AuthExited

  /** Python truthiness of an optional string / integer argument. */
  predicate GivenStr(x: Option<string>) { x.Some? && x.value != "" }
  predicate GivenInt(x: Option<int>) { x.Some? && x.value != 0 }

  function OptStr(x: Option<string>): Json { if x.Some? then JStr(x.value) else JNull }
  function OptInt(x: Option<int>): Json { if x.Some? then JInt(x.value) else JNull }

  /** `communes and len(communes) > 0` */
  predicate HasCommune(communes: Option<seq<string>>) { communes.Some? && |communes.value| > 0 }

  function FirstCommune(communes: Option<seq<string>>): Json
  {
    if HasCommune(communes) then JStr(communes.value[0]) else JNull
  }

  /** `search_offres` query parameters before `extra` is merged in. */
  function BaseParams(mots: Option<string>, departement: Option<string>, communes: Option<seq<string>>,
                      distance: Option<int>, publieeDepuis: Option<int>): (params: Dict)
    ensures DistinctKeys(params)
  {
    var p1 := PutIf([], GivenStr(mots), "motsCles", OptStr(mots));
    var p2 := PutIf(p1, GivenStr(departement), "departement", OptStr(departement));
    var p3 := PutIf(p2, HasCommune(communes), "commune", FirstCommune(communes));
    var p4 := PutIf(p3, distance.Some?, "distance", OptInt(distance));
    PutIf(p4, GivenInt(publieeDepuis), "publieeDepuis", OptInt(publieeDepuis))
  }

  /** `params.update(extra)`: keyword arguments are merged last. */
  function SearchParams(mots: Option<string>, departement: Option<string>, communes: Option<seq<string>>,
                        distance: Option<int>, publieeDepuis: Option<int>, extra: Dict): (params: Dict)
    requires DistinctKeys(extra)
  {
    Update(BaseParams(mots, departement, communes, distance, publieeDepuis), extra)
  }

  /**
   * A filter is sent iff its argument is truthy, except `distance`, which is
   * sent whenever it is given, 0 included; `commune` is the first element of
   * the list and the other elements are ignored.
   */
  lemma BaseParamsContents(mots: Option<string>, departement: Option<string>, communes: Option<seq<string>>,
                           distance: Option<int>, publieeDepuis: Option<int>)
    ensures Lookup(BaseParams(mots, departement, communes, distance, publieeDepuis), "motsCles") == (if GivenStr(mots) then Some(JStr(mots.value)) else None)
    ensures Lookup(BaseParams(mots, departement, communes, distance, publieeDepuis), "departement") == (if GivenStr(departement) then Some(JStr(departement.value)) else None)
    ensures Lookup(BaseParams(mots, departement, communes, distance, publieeDepuis), "commune") == (if HasCommune(communes) then Some(JStr(communes.value[0])) else None)
    ensures Lookup(BaseParams(mots, departement, communes, distance, publieeDepuis), "distance") == (if distance.Some? then Some(JInt(distance.value)) else None)
    ensures Lookup(BaseParams(mots, departement, communes, distance, publieeDepuis), "publieeDepuis") == (if GivenInt(publieeDepuis) then Some(JInt(publieeDepuis.value)) else None)
  {
    MotsClesParam(mots, departement, communes, distance, publieeDepuis);
    DepartementParam(mots, departement, communes, distance, publieeDepuis);
    CommuneParam(mots, departement, communes, distance, publieeDepuis);
    DistanceParam(mots, departement, communes, distance, publieeDepuis);
    PublieeDepuisParam(mots, departement, communes, distance, publieeDepuis);
  }

  lemma MotsClesParam(mots: Option<string>, departement: Option<string>, communes: Option<seq<string>>,
                           distance: Option<int>, publieeDepuis: Option<int>)
    ensures Lookup(BaseParams(mots, departement, communes, distance, publieeDepuis), "motsCles") == (if GivenStr(mots) then Some(JStr(mots.value)) else None)
  {
    var vm, vd, vc := OptStr(mots), OptStr(departement), FirstCommune(communes);
    var vdist, vp := OptInt(distance), OptInt(publieeDepuis);
    var hasCommune := HasCommune(communes);
    var p1 := PutIf([], GivenStr(mots), "motsCles", vm);
    var p2 := PutIf(p1, GivenStr(departement), "departement", vd);
    var p3 := PutIf(p2, hasCommune, "commune", vc);
    var p4 := PutIf(p3, distance.Some?, "distance", vdist);
    PutIfSame([], GivenStr(mots), "motsCles", vm);
    PutIfOther(p1, GivenStr(departement), "departement", vd, "motsCles");
    PutIfOther(p2, hasCommune, "commune", vc, "motsCles");
    PutIfOther(p3, distance.Some?, "distance", vdist, "motsCles");
    PutIfOther(p4, GivenInt(publieeDepuis), "publieeDepuis", vp, "motsCles");
  }

  lemma DepartementParam(mots: Option<string>, departement: Option<string>, communes: Option<seq<string>>,
                           distance: Option<int>, publieeDepuis: Option<int>)
    ensures Lookup(BaseParams(mots, departement, communes, distance, publieeDepuis), "departement") == (if GivenStr(departement) then Some(JStr(departement.value)) else None)
  {
    var vm, vd, vc := OptStr(mots), OptStr(departement), FirstCommune(communes);
    var vdist, vp := OptInt(distance), OptInt(publieeDepuis);
    var hasCommune := HasCommune(communes);
    var p1 := PutIf([], GivenStr(mots), "motsCles", vm);
    var p2 := PutIf(p1, GivenStr(departement), "departement", vd);
    var p3 := PutIf(p2, hasCommune, "commune", vc);
    var p4 := PutIf(p3, distance.Some?, "distance", vdist);
    PutIfOther([], GivenStr(mots), "motsCles", vm, "departement");
    PutIfSame(p1, GivenStr(departement), "departement", vd);
    PutIfOther(p2, hasCommune, "commune", vc, "departement");
    PutIfOther(p3, distance.Some?, "distance", vdist, "departement");
    PutIfOther(p4, GivenInt(publieeDepuis), "publieeDepuis", vp, "departement");
  }

  lemma CommuneParam(mots: Option<string>, departement: Option<string>, communes: Option<seq<string>>,
                           distance: Option<int>, publieeDepuis: Option<int>)
    ensures Lookup(BaseParams(mots, departement, communes, distance, publieeDepuis), "commune") == (if HasCommune(communes) then Some(JStr(communes.value[0])) else None)
  {
    var vm, vd, vc := OptStr(mots), OptStr(departement), FirstCommune(communes);
    var vdist, vp := OptInt(distance), OptInt(publieeDepuis);
    var hasCommune := HasCommune(communes);
    var p1 := PutIf([], GivenStr(mots), "motsCles", vm);
    var p2 := PutIf(p1, GivenStr(departement), "departement", vd);
    var p3 := PutIf(p2, hasCommune, "commune", vc);
    var p4 := PutIf(p3, distance.Some?, "distance", vdist);
    PutIfOther([], GivenStr(mots), "motsCles", vm, "commune");
    PutIfOther(p1, GivenStr(departement), "departement", vd, "commune");
    PutIfSame(p2, hasCommune, "commune", vc);
    PutIfOther(p3, distance.Some?, "distance", vdist, "commune");
    PutIfOther(p4, GivenInt(publieeDepuis), "publieeDepuis", vp, "commune");
  }

  lemma DistanceParam(mots: Option<string>, departement: Option<string>, communes: Option<seq<string>>,
                           distance: Option<int>, publieeDepuis: Option<int>)
    ensures Lookup(BaseParams(mots, departement, communes, distance, publieeDepuis), "distance") == (if distance.Some? then Some(JInt(distance.value)) else None)
  {
    var vm, vd, vc := OptStr(mots), OptStr(departement), FirstCommune(communes);
    var vdist, vp := OptInt(distance), OptInt(publieeDepuis);
    var hasCommune := HasCommune(communes);
    var p1 := PutIf([], GivenStr(mots), "motsCles", vm);
    var p2 := PutIf(p1, GivenStr(departement), "departement", vd);
    var p3 := PutIf(p2, hasCommune, "commune", vc);
    var p4 := PutIf(p3, distance.Some?, "distance", vdist);
    PutIfOther([], GivenStr(mots), "motsCles", vm, "distance");
    PutIfOther(p1, GivenStr(departement), "departement", vd, "distance");
    PutIfOther(p2, hasCommune, "commune", vc, "distance");
    PutIfSame(p3, distance.Some?, "distance", vdist);
    PutIfOther(p4, GivenInt(publieeDepuis), "publieeDepuis", vp, "distance");
  }

  lemma PublieeDepuisParam(mots: Option<string>, departement: Option<string>, communes: Option<seq<string>>,
                           distance: Option<int>, publieeDepuis: Option<int>)
    ensures Lookup(BaseParams(mots, departement, communes, distance, publieeDepuis), "publieeDepuis") == (if GivenInt(publieeDepuis) then Some(JInt(publieeDepuis.value)) else None)
  {
    var vm, vd, vc := OptStr(mots), OptStr(departement), FirstCommune(communes);
    var vdist, vp := OptInt(distance), OptInt(publieeDepuis);
    var hasCommune := HasCommune(communes);
    var p1 := PutIf([], GivenStr(mots), "motsCles", vm);
    var p2 := PutIf(p1, GivenStr(departement), "departement", vd);
    var p3 := PutIf(p2, hasCommune, "commune", vc);
    var p4 := PutIf(p3, distance.Some?, "distance", vdist);
    PutIfOther([], GivenStr(mots), "motsCles", vm, "publieeDepuis");
    PutIfOther(p1, GivenStr(departement), "departement", vd, "publieeDepuis");
    PutIfOther(p2, hasCommune, "commune", vc, "publieeDepuis");
    PutIfOther(p3, distance.Some?, "distance", vdist, "publieeDepuis");
    PutIfSame(p4, GivenInt(publieeDepuis), "publieeDepuis", vp);
  }

  /** A key of `extra` overrides the filter of the same name; every other key keeps its filter value. */
  lemma SearchParamsContents(mots: Option<string>, departement: Option<string>, communes: Option<seq<string>>,
                             distance: Option<int>, publieeDepuis: Option<int>, extra: Dict, k: string)
    requires DistinctKeys(extra)
    ensures Lookup(SearchParams(mots, departement, communes, distance, publieeDepuis, extra), k)
         == if HasKey(extra, k) then Lookup(extra, k) else Lookup(BaseParams(mots, departement, communes, distance, publieeDepuis), k)
  {
    UpdateLookup(BaseParams(mots, departement, communes, distance, publieeDepuis), extra, k);
  }

  /**
   * `_fetch`: `raise_for_status`, then `{}` for an empty body and the decoded
   * JSON otherwise. Without a session (`__aenter__` not run) the attribute
   * access on `None` raises.
   */
  function Produce(http: Option<Session>, reply: Reply): (r: Result<Json, Failure>)
    ensures http.None? ==> r == Err(PyError(AttributeError))
    ensures http.Some? && reply.Response? && HttpxAccepts(reply.status) && reply.body.Empty? ==> r == Ok(JObj([]))
    ensures http.Some? && reply.Response? && HttpxAccepts(reply.status) && reply.body.Parsed? ==> r == Ok(reply.body.value)
    ensures r.Ok? ==> http.Some? && reply.Response? && HttpxAccepts(reply.status) && !reply.body.NotJson?
  {
    if http.None? then Err(PyError(AttributeError))
    else match reply
      case TransportFailure => Err(ConnectionError)
      case Response(status, body) =>
        if !HttpxAccepts(status) then Err(StatusError(status))
        else if body.Empty? then Ok(JObj([]))
        else DecodeBody(body)
  }

  /** `data.get("resultats", [])`, where a non-dict `data` raises `AttributeError`. */
  function Results(data: Json): (r: Result<Json, Failure>)
    ensures data.JObj? ==> r == Ok(if HasKey(data.fields, "resultats") then Lookup(data.fields, "resultats").value else JArr([]))
    ensures !data.JObj? ==> r == Err(PyError(AttributeError))
  {
    match PyGet(data, "resultats", JArr([]))
    case Ok(v) => Ok(v)
    case Err(e) => Err(PyError(e))
  }

  class FTClient {
    const slot: AuthSlot
    const store: DiskStore
    var auth: Auth?
    var http: Option<Session>
    var closed: seq<Closing>

    /** `FTClient()`: no auth, no session yet. */
    constructor (slot: AuthSlot, store: DiskStore)
      ensures this.slot == slot && this.store == store
      ensures auth == null && http == None && closed == []
    {
      this.slot := slot;
      this.store := store;
      auth := null;
      http := None;
      closed := [];
    }

    /**
     * `__aenter__`: `Auth()` (which resets the shared holder), then a token,
     * which therefore always comes from a fresh token request, then a session
     * whose headers carry that token; `later` is the clock read after the
     * token reply.
     */
    method Enter(envId: Option<string>, envSecret: Option<string>, now: int, later: int, tokenReply: Reply)
      returns (r: Result<(), Failure>)
      requires slot.Valid() && slot.variant == ROOT_AUTH
      modifies this, slot, slot.instance
      ensures slot.Valid() && slot.instance != null
      ensures old(slot.instance) != null ==> slot.instance == old(slot.instance)
      ensures Missing(envId) || Missing(envSecret) ==>
                r.Err? && auth == old(auth) && http == old(http) && slot.instance.State() == RESET
      ensures !Missing(envId) && !Missing(envSecret) ==>
                auth == slot.instance
                && (slot.instance.State(), r.Err?) == (GetTokenStep(ROOT_AUTH, RESET, now, later, tokenReply).0, GetTokenStep(ROOT_AUTH, RESET, now, later, tokenReply).1.Err?)
                && http == if r.Ok? then Some(Session(GetTokenStep(ROOT_AUTH, RESET, now, later, tokenReply).1.value)) else old(http)
      ensures closed == old(closed)
    {
      var a := slot.Obtain(envId, envSecret);
      if a.None? {
        return Err(PyError(RuntimeError));
      }
      auth := a.value;
      var token := auth.GetToken(now, later, tokenReply);
      if token.Err? {
        return Err(token.error);
      }
      http := Some(Session(token.value));
      r := Ok(());
    }

    /** `__aexit__`: the session is closed before the token holder, and no exception is swallowed. */
    method Exit() returns (suppress: bool)
      modifies this
      ensures !suppress
      ensures closed == old(closed) + (if old(http).Some? then [HttpClosed] else []) + (if old(auth) != null then [AuthExited] else [])
      ensures http == old(http) && auth == old(auth)
    {
      if http.Some? {
        closed := closed + [HttpClosed];
      }
      if auth != null {
        closed := closed + [AuthExited];
      }
      suppress := false;
    }

    /** `_get_json(endpoint, params)`: the request goes through `cached_request`. */
    method GetJson(endpoint: string, params: Option<Dict>, now: int, reply: Reply)
      returns (r: Result<Json, Failure>, requested: bool)
      modifies store
      ensures var cached := old(Read(store.entries, MakeKey(store.md5, BASE_URL + endpoint, params), now));
              if cached != JNull then r == Ok(cached) && !requested && store.entries == old(store.entries)
              else requested && r == Produce(http, reply)
                   && store.entries == if r.Ok?
                      then old(store.entries)[MakeKey(store.md5, BASE_URL + endpoint, params) := Entry(r.value, Some(now + DEFAULT_TTL))]
                      else old(store.entries)
    {
      r, requested := store.CachedRequest(BASE_URL + endpoint, params, now, Produce(http, reply));
    }

    /**
     * `search_offres`: any exception of the fetch is replaced by `{}`, and the
     * answer is the `resultats` list of what came back, `[]` without one.
     */
    method SearchOffres(mots: Option<string>, departement: Option<string>, communes: Option<seq<string>>,
                        distance: Option<int>, publieeDepuis: Option<int>, extra: Dict, now: int, reply: Reply)
      returns (r: Result<Json, Failure>)
      requires DistinctKeys(extra)
      modifies store
      ensures var key := MakeKey(store.md5, BASE_URL + SEARCH_ENDPOINT,
                                 Some(SearchParams(mots, departement, communes, distance, publieeDepuis, extra)));
              var cached := old(Read(store.entries, key, now));
              var data := if cached != JNull then Ok(cached) else Produce(http, reply);
              r == Results(if data.Ok? then data.value else JObj([]))
              && store.entries == if cached == JNull && data.Ok?
                 then old(store.entries)[key := Entry(data.value, Some(now + DEFAULT_TTL))]
                 else old(store.entries)
    {
      var params := SearchParams(mots, departement, communes, distance, publieeDepuis, extra);
      var data, _ := GetJson(SEARCH_ENDPOINT, Some(params), now, reply);
      if data.Err? {
        data := Ok(JObj([]));
      }
      r := Results(data.value);
    }

    /** `get_offre`: the decoded offer, through the cache, exceptions propagating. */
    method GetOffre(offreId: string, now: int, reply: Reply) returns (r: Result<Json, Failure>, requested: bool)
      modifies store
      ensures var key := MakeKey(store.md5, BASE_URL + ("/offresdemploi/v2/offres/" + offreId), None);
              var cached := old(Read(store.entries, key, now));
              if cached != JNull then r == Ok(cached) && !requested && store.entries == old(store.entries)
              else requested && r == Produce(http, reply)
                   && store.entries == if r.Ok?
                      then old(store.entries)[key := Entry(r.value, Some(now + DEFAULT_TTL))]
                      else old(store.entries)
    {
      r, requested := GetJson("/offresdemploi/v2/offres/" + offreId, None, now, reply);
    }
  }

  /** Whatever the search endpoint does, `search_offres` itself raises only on a non-dict answer. */
  lemma SearchNeverRaisesOnDict(data: Result<Json, Failure>)
    requires data.Err? || data.value.JObj?
    ensures Results(if data.Ok? then data.value else JObj([])).Ok?
  {
  }
}

=== FILE: sql_table.dfy ===
/**
 * An SQLite table seen through its integer primary key: the rows in rowid
 * order, each paired with its key. The tool never sorts a query, and SQLite
 * answers an unordered full scan of such a table in rowid order, so the order
 * of the sequence is the order in which `fetchall` returns the rows.
 */
module SqlTable {
  import opened Common

  type Rows<T> = seq<(int, T)>

  /** Keys are positive and strictly increasing, as rowids handed out in order are. */
  predicate Ordered<T>(rows: Rows<T>)
  {
    (forall i :: 0 <= i < |rows| ==> rows[i].0 >= 1)
    && forall i, j :: 0 <= i < j < |rows| ==> rows[i].0 < rows[j].0
  }

  predicate HasId<T>(rows: Rows<T>, id: int)
  {
    exists i :: 0 <= i < |rows| && rows[i].0 == id
  }

  /** `max(rowid)`, 0 for an empty table. */
  function MaxId<T>(rows: Rows<T>): (m: int)
    requires Ordered(rows)
    ensures m >= 0
    ensures forall i :: 0 <= i < |rows| ==> rows[i].0 <= m
    ensures rows == [] <==> m == 0
  {
    if rows == [] then 0 else rows[|rows| - 1].0
  }

  /** `SELECT ... WHERE id = ?` followed by `fetchone()`: the row with that key, if any. */
  function Select<T(==)>(rows: Rows<T>, id: int): (r: Option<T>)
    ensures r.Some? <==> HasId(rows, id)
    ensures r.Some? ==> exists i :: 0 <= i < |rows| && rows[i] == (id, r.value)
  {
    if rows == [] then None
    else if rows[0].0 == id then Some(rows[0].1)
    else
      var r := Select(rows[1..], id);
      assert HasId(rows, id) <==> HasId(rows[1..], id) by {
        if HasId(rows, id) {
          var i :| 0 <= i < |rows| && rows[i].0 == id;
          assert rows[1..][i - 1].0 == id;
        }
        if HasId(rows[1..], id) {
          var i :| 0 <= i < |rows| - 1 && rows[1..][i].0 == id;
          assert rows[i + 1].0 == id;
        }
      }
      if r.Some? then
        var i :| 0 <= i < |rows| - 1 && rows[1..][i] == (id, r.value);
        assert rows[i + 1] == (id, r.value);
        r
      else r
  }

  /** With distinct keys, the row found at position `i` is the one stored there. */
  lemma {:induction false} SelectAt<T>(rows: Rows<T>, i: nat)
    requires Ordered(rows) && i < |rows|
    ensures Select(rows, rows[i].0) == Some(rows[i].1)
  {
    if i > 0 {
      assert rows[0].0 < rows[i].0;
      assert rows[1..][i - 1] == rows[i];
      SelectAt(rows[1..], i - 1);
    }
  }

  /** An insert with a key above every present key goes last, in rowid order. */
  lemma AppendOrdered<T>(rows: Rows<T>, id: int, row: T)
    requires Ordered(rows) && id >= 1
    requires forall i :: 0 <= i < |rows| ==> rows[i].0 < id
    ensures Ordered(rows + [(id, row)])
  {
  }

  /** `DELETE FROM t WHERE id = ?` */
  function Delete<T(==)>(rows: Rows<T>, id: int): (r: Rows<T>)
    ensures |r| <= |rows|
    ensures forall i :: 0 <= i < |r| ==> r[i].0 != id
    ensures forall i :: 0 <= i < |r| ==> r[i] in rows
    ensures forall i :: 0 <= i < |rows| && rows[i].0 != id ==> rows[i] in r
  {
    if rows == [] then []
    else if rows[0].0 == id then Delete(rows[1..], id)
    else [rows[0]] + Delete(rows[1..], id)
  }

  /** Deleting keeps the surviving rows in their order, hence keeps the keys ordered. */
  lemma {:induction false} DeleteOrdered<T>(rows: Rows<T>, id: int)
    requires Ordered(rows)
    ensures Ordered(Delete(rows, id))
  {
    if rows != [] {
      var t := rows[1..];
      assert Ordered(t);
      DeleteOrdered(t, id);
      var d := Delete(t, id);
      forall j | 0 <= j < |d| ensures rows[0].0 < d[j].0 {
        assert d[j] in t;
        var k :| 0 <= k < |t| && t[k] == d[j];
        assert rows[k + 1] == d[j];
      }
    }
  }

  /** After the delete the key is gone, and every other key finds the row it found before. */
  lemma {:induction false} SelectAfterDelete<T>(rows: Rows<T>, id: int, k: int)
    ensures Select(Delete(rows, id), k) == if k == id then None else Select(rows, k)
  {
    if rows != [] {
      SelectAfterDelete(rows[1..], id, k);
    }
  }

  /** `UPDATE t SET ... WHERE id = ?`: `change` applied to the row with that key, if there is one. */
  function Modify<T>(rows: Rows<T>, id: int, change: T -> T): (r: Rows<T>)
    ensures |r| == |rows|
    ensures forall i :: 0 <= i < |rows| ==> r[i].0 == rows[i].0
    ensures forall i :: 0 <= i < |rows| && rows[i].0 != id ==> r[i] == rows[i]
    ensures forall i :: 0 <= i < |rows| && rows[i].0 == id ==> r[i].1 == change(rows[i].1)
  {
    seq(|rows|, i requires 0 <= i < |rows| => if rows[i].0 == id then (id, change(rows[i].1)) else rows[i])
  }

  /** An update keeps the keys, hence their order. */
  lemma ModifyOrdered<T>(rows: Rows<T>, id: int, change: T -> T)
    requires Ordered(rows)
    ensures Ordered(Modify(rows, id, change))
  {
  }

  /** After the update the row with that key reads as changed, every other key as before. */
  lemma {:induction false} SelectAfterModify<T>(rows: Rows<T>, id: int, change: T -> T, k: int)
    ensures Select(Modify(rows, id, change), k)
         == if k == id && HasId(rows, k) then Some(change(Select(rows, k).value)) else Select(rows, k)
  {
    var r := Modify(rows, id, change);
    if rows != [] {
      assert r[1..] == Modify(rows[1..], id, change);
      SelectAfterModify(rows[1..], id, change, k);
    }
  }

  /** An update of a key that is not there changes nothing. */
  lemma ModifyAbsent<T>(rows: Rows<T>, id: int, change: T -> T)
    requires !HasId(rows, id)
    ensures Modify(rows, id, change) == rows
  {
  }
}

=== FILE: text.dfy ===
/**
 * The parts of Python's `str` that the job-search tool relies on: whitespace
 * stripping, `replace`, `split`, slicing with a possibly negative bound, and
 * the conversions `str(int)` / `int(str)`.
 */
module Text {
  import opened Common

  /** Python's `str.isspace` on one character. */
  predicate IsSpace(c: char)
  {
    c == ' ' || ('\t' <= c <= '\r') || ('\U{1c}' <= c <= '\U{1f}')
    || c == '\U{85}' || c == '\U{a0}' || c == '\U{1680}' || ('\U{2000}' <= c <= '\U{200a}')
    || c == '\U{2028}' || c == '\U{2029}' || c == '\U{202f}' || c == '\U{205f}' || c == '\U{3000}'
  }

  predicate IsDigit(c: char) { '0' <= c <= '9' }

  /** ASCII letters and digits (Python's `isalnum` restricted to ASCII). */
  predicate IsAlnum(c: char) { IsDigit(c) || 'A' <= c <= 'Z' || 'a' <= c <= 'z' }

  predicate AllDigits(s: string) { forall i :: 0 <= i < |s| ==> IsDigit(s[i]) }

  predicate NoSpace(s: string) { forall i :: 0 <= i < |s| ==> !IsSpace(s[i]) }

  /** `s.lstrip()`: the suffix left after dropping leading whitespace. */
  function LStrip(s: string): (r: string)
    ensures |r| <= |s| && r == s[|s| - |r|..]
    ensures forall k :: 0 <= k < |s| - |r| ==> IsSpace(s[k])
    ensures r != [] ==> !IsSpace(r[0])
  {
    if s != [] && IsSpace(s[0]) then LStrip(s[1..]) else s
  }

  /** `s.rstrip()`: the prefix left after dropping trailing whitespace. */
  function RStrip(s: string): (r: string)
    ensures |r| <= |s| && r == s[..|r|]
    ensures forall k :: |r| <= k < |s| ==> IsSpace(s[k])
    ensures r != [] ==> !IsSpace(r[|r| - 1])
  {
    if s != [] && IsSpace(s[|s| - 1]) then RStrip(s[..|s| - 1]) else s
  }

  /** Where `s.strip()` starts in `s`. */
  function StripStart(s: string): nat
  {
    |s| - |LStrip(s)|
  }

  /** `s.strip()`: the piece of `s` left after dropping whitespace at both ends. */
  function Strip(s: string): (r: string)
    ensures |r| <= |s|
    ensures r != [] ==> !IsSpace(r[0]) && !IsSpace(r[|r| - 1])
    ensures StripStart(s) + |r| <= |s| && r == s[StripStart(s)..StripStart(s) + |r|]
  {
    var l := LStrip(s);
    var r := RStrip(l);
    assert r != [] ==> r[0] == l[0];
    assert l == s[StripStart(s)..];
    assert r == l[..|r|] == s[StripStart(s)..StripStart(s) + |r|];
    r
  }

  lemma StripKeepsTrimmed(s: string)
    requires s != [] ==> !IsSpace(s[0]) && !IsSpace(s[|s| - 1])
    ensures Strip(s) == s
  {
  }

  /** `pat` occurs in `s` starting at index `i`. */
  predicate OccursAt(s: string, pat: string, i: nat)
  {
    i + |pat| <= |s| && s[i..i + |pat|] == pat
  }

  /** Python's `pat in s` for strings. */
  predicate Contains(s: string, pat: string)
  {
    exists i: nat :: i <= |s| && OccursAt(s, pat, i)
  }

  /** The first occurrence of `pat` at or after index `i`. */
  function FindFrom(s: string, pat: string, i: nat): (r: Option<nat>)
    decreases |s| - i
    ensures r.Some? ==> i <= r.value && OccursAt(s, pat, r.value)
    ensures r.Some? ==> forall j: nat :: i <= j < r.value ==> !OccursAt(s, pat, j)
    ensures r.None? ==> forall j: nat :: i <= j ==> !OccursAt(s, pat, j)
  {
    if i + |pat| > |s| then None
    else if OccursAt(s, pat, i) then Some(i)
    else FindFrom(s, pat, i + 1)
  }

  /** Python's `s.find(pat)`, with `None` for -1. */
  function Find(s: string, pat: string): Option<nat>
  {
    FindFrom(s, pat, 0)
  }

  /** For a one-character pattern, `pat in s` is membership of that character. */
  lemma ContainsChar(s: string, c: char)
    ensures Contains(s, [c]) <==> c in s
  {
    if c in s {
      var j :| 0 <= j < |s| && s[j] == c;
      assert OccursAt(s, [c], j);
    }
    if Contains(s, [c]) {
      var j: nat :| j <= |s| && OccursAt(s, [c], j);
      assert s[j..j + 1][0] == s[j];
    }
  }

  lemma FindNone(s: string, pat: string)
    ensures Find(s, pat).None? <==> !Contains(s, pat)
  {
    if Find(s, pat).Some? {
      assert OccursAt(s, pat, Find(s, pat).value);
    }
  }

  /** Python's `s.split(sep)[0]`: everything before the first `sep`. */
  function SplitHead(s: string, sep: string): (r: string)
    requires sep != []
    ensures r <= s
    ensures !Contains(r, sep)
  {
    match Find(s, sep)
    case Some(k) =>
      var r := s[..k];
      assert forall j: nat :: OccursAt(r, sep, j) ==> OccursAt(s, sep, j);
      r
    case None =>
      assert forall j: nat :: OccursAt(s, sep, j) ==> j >= 0;
      s
  }

  /** Python's `s.split(c)[-1]` for a one-character separator. */
  function LastSegment(s: string, c: char): (r: string)
    ensures |r| <= |s| && r == s[|s| - |r|..]
    ensures c !in r
    ensures |r| < |s| ==> s[|s| - |r| - 1] == c
  {
    if s == [] then []
    else if s[|s| - 1] == c then []
    else
      var t := s[..|s| - 1];
      var r' := LastSegment(t, c);
      assert t[|t| - |r'|..] + [s[|s| - 1]] == s[|s| - |r'| - 1..];
      r' + [s[|s| - 1]]
  }

  /** Python's `s.replace(pat, rep)`: all non-overlapping occurrences, scanning left to right. */
  function ReplaceAll(s: string, pat: string, rep: string): string
    requires pat != []
    decreases |s|
  {
    if |s| < |pat| then s
    else if s[..|pat|] == pat then rep + ReplaceAll(s[|pat|..], pat, rep)
    else [s[0]] + ReplaceAll(s[1..], pat, rep)
  }

  lemma {:induction false} ReplaceAbsent(s: string, pat: string, rep: string)
    requires pat != [] && !Contains(s, pat)
    ensures ReplaceAll(s, pat, rep) == s
    decreases |s|
  {
    if |s| >= |pat| {
      assert !OccursAt(s, pat, 0);
      forall j: nat | OccursAt(s[1..], pat, j) ensures OccursAt(s, pat, j + 1) {
        assert s[1..][j..j + |pat|] == s[j + 1..j + 1 + |pat|];
      }
      ReplaceAbsent(s[1..], pat, rep);
    }
  }

  /**
   * Replacing every `pat` in `stem + pat` touches only the final occurrence
   * when the first character of `pat` never appears in `stem`.
   */
  lemma {:induction false} ReplaceAtEnd(stem: string, pat: string, rep: string)
    requires pat != [] && pat[0] !in stem && pat[0] !in pat[1..]
    ensures ReplaceAll(stem + pat, pat, rep) == stem + rep
    decreases |stem|
  {
    var s := stem + pat;
    if stem == [] {
      assert s[..|pat|] == pat;
      assert s[|pat|..] == [];
    } else {
      assert s[0] == stem[0] && stem[0] != pat[0];
      assert s[..|pat|] != pat;
      assert s[1..] == stem[1..] + pat;
      ReplaceAtEnd(stem[1..], pat, rep);
      assert [stem[0]] + (stem[1..] + rep) == stem + rep;
    }
  }

  /** Python's `s.replace(a, b)` for one-character `a` and `b`. */
  function ReplaceChar(s: string, a: char, b: char): (r: string)
    ensures |r| == |s|
    ensures forall i :: 0 <= i < |s| ==> r[i] == (if s[i] == a then b else s[i])
  {
    seq(|s|, i requires 0 <= i < |s| => if s[i] == a then b else s[i])
  }

  /** The longest prefix of `s` without whitespace. */
  function TakeWord(s: string): (r: string)
    ensures r <= s && NoSpace(r)
    ensures |r| < |s| ==> IsSpace(s[|r|])
  {
    if s == [] || IsSpace(s[0]) then [] else [s[0]] + TakeWord(s[1..])
  }

  /** Python's `s.split()` with no argument: the maximal runs of non-whitespace. */
  function Words(s: string): (r: seq<string>)
    decreases |s|
    ensures forall k :: 0 <= k < |r| ==> r[k] != [] && NoSpace(r[k])
  {
    var t := LStrip(s);
    if t == [] then []
    else
      var w := TakeWord(t);
      [w] + Words(t[|w|..])
  }

  /** `sep.join(parts)` */
  function Join(parts: seq<string>, sep: string): string
  {
    if parts == [] then ""
    else if |parts| == 1 then parts[0]
    else parts[0] + sep + Join(parts[1..], sep)
  }

  /** `c * n` */
  function Repeat(c: char, n: nat): (r: string)
    ensures |r| == n && forall i :: 0 <= i < n ==> r[i] == c
  {
    seq(n, _ => c)
  }

  /** Python's slice `s[:stop]`, where a negative `stop` counts from the end. */
  function Prefix<T>(s: seq<T>, stop: int): (r: seq<T>)
    ensures r <= s
    ensures 0 <= stop ==> |r| == if stop < |s| then stop else |s|
    ensures stop < 0 ==> |r| == if |s| + stop < 0 then 0 else |s| + stop
  {
    if stop >= 0 then (if stop < |s| then s[..stop] else s)
    else (if |s| + stop < 0 then [] else s[..|s| + stop])
  }

  function DigitChar(d: nat): (c: char)
    requires d < 10
    ensures IsDigit(c)
  {
    ('0' as int + d) as char
  }

  /** `str(n)` for a natural number: decimal digits, no leading zero. */
  function NatToString(n: nat): (r: string)
    ensures r != [] && AllDigits(r)
  {
    if n < 10 then [DigitChar(n)] else NatToString(n / 10) + [DigitChar(n % 10)]
  }

  /** `str(n)` */
  function IntToString(n: int): (r: string)
    ensures r != [] && NoSpace(r)
    ensures n >= 0 ==> AllDigits(r)
    ensures n < 0 ==> r[0] == '-' && AllDigits(r[1..])
  {
    if n < 0 then "-" + NatToString(-n) else NatToString(n)
  }

  /** The value of a string of decimal digits. */
  function DigitsValue(s: string): nat
    requires AllDigits(s)
  {
    if s == [] then 0 else DigitsValue(s[..|s| - 1]) * 10 + (s[|s| - 1] as int - '0' as int)
  }

  lemma {:induction false} DigitsValueOfNat(n: nat)
    ensures DigitsValue(NatToString(n)) == n
  {
    if n >= 10 {
      var s := NatToString(n);
      assert s[..|s| - 1] == NatToString(n / 10);
      DigitsValueOfNat(n / 10);
    }
  }

  /** Python's `int(s)` on ASCII input: optional surrounding whitespace, an optional sign, digits. */
  function ParseInt(s: string): Option<int>
  {
    var t := Strip(s);
    if t != [] && (t[0] == '-' || t[0] == '+') then
      var d := t[1..];
      var v: int := if d != [] && AllDigits(d) then DigitsValue(d) else 0;
      if d != [] && AllDigits(d) then Some(if t[0] == '-' then -v else v) else None
    else if t != [] && AllDigits(t) then Some(DigitsValue(t))
    else None
  }

  /** `int(str(n)) == n` */
  lemma IntRoundTrip(n: int)
    ensures ParseInt(IntToString(n)) == Some(n)
  {
    var s := IntToString(n);
    StripKeepsTrimmed(s);
    if n < 0 {
      assert s[1..] == NatToString(-n);
      DigitsValueOfNat(-n);
    } else {
      DigitsValueOfNat(n);
    }
  }
}
